=== FILE: README.md ===
# ProductivitySystem ticket board, modelled in Dafny

The project models a small kanban board and the tools around it.

- **Backend.** The backend keeps one JSON document. It holds:
  - the `todo`, `doing` and `done` columns, plus any other column a client names;
  - `meta`, with the id cursor and the last started ticket;
  - `metrics`, with an amount log.
- **Ids.** Ticket ids are integers from 1 to 50. A new ticket takes the lowest id that no `todo` or `doing` ticket holds.
- **Startup.** When the server starts, it normalises the ids.
- **Routes.** Each REST route reads and rewrites the document through a single-writer queue.
- **NFC scripts.** Two scripts connect an NFC reader to the board:
  - one registers cards in `cards.json`;
  - the other turns a card tap into a "start" or "complete" request and plays a sound.
- **Browser.** The browser keeps a local copy of the three lists. A poller plays a sound whenever a ticket enters `doing` or `done`.

## Modules

| Module | What it models |
|---|---|
| `Common` | Options, the states a JSON file can be in, and `splice(i, 1)`. |
| `Board` | The document: tickets, ids as JSON values, `meta`, `metrics`. |
| `Allocator` | `toId`, `collectUsedIds` and `nextFreeId`. |
| `Migration` | `migrateNumericIds`. |
| `Columns` | `findTicket` and `moveTicket`. |
| `Metrics` | `computeMetrics`. |
| `Storage` | `withDB` as a sequential fold, and the initial document. |
| `Server` | Every route as a function from the stored document and the parsed request to the new document and the response. Also the startup migration and a run of requests. |
| `Invariants` | Properties across routes: refused requests write nothing, live ids stay distinct, creation stops at capacity, and id-reuse scenarios. |
| `Readers` | Reader scoring and choice. |
| `Uid` | UID hex formatting and its inverse. |
| `Cards` | The card registry. |
| `CardActions` | From a tapped uid to a backend request and a sound, compared end to end with `Server`. |
| `ApiPaths` | URL joining in the two frontend composables. |
| `ClientTickets` | The local list updates of `useTickets`, compared with what `Server` stores. |
| `RealtimeSfx` | The sound poller: set difference between polls, and the start/stop guards. |

Inputs the code receives from outside become parameters:

- HTTP responses;
- the completion timestamp;
- what the card reader transmits;
- the file contents the scripts read.

## Model

| member | source | states |
|---|---|---|
| `Common.RemoveAt` | backend/utils.js:95 | Removing position i shortens the list by one. Earlier elements stay in place, later ones shift down by one, and the multiset loses exactly the removed element. |
| `Allocator.ToId` | backend/utils.js:8-11 | Gives n exactly when `Number(x)` is an integer in 1..50, and n is that integer; otherwise null. |
| `Allocator.UsedIds` | backend/utils.js:14-23 | Every collected id lies in 1..50; `Allocator.UsedIdsMeans` says which ids are collected. |
| `Allocator.ValidIdsMeans` | backend/utils.js:16-20 | An id is collected from a column exactly when some ticket of that column carries it as a valid id. |
| `Allocator.UsedIdsMeans` | backend/utils.js:14-23 | The used ids are exactly the valid ids found in `todo` or `doing`. |
| `Allocator.CountValidIds` | backend/utils.js:50-52 | The used set is never larger than the ticket count. It equals the count exactly when every ticket has a valid id and no id repeats. |
| `Allocator.UsedAtMostFifty` | backend/utils.js:10 | Used ids lie in 1..50, so there are at most fifty. |
| `Allocator.FullIffFifty` | backend/utils.js:30-38 | All ids 1..50 are in use exactly when the used set has fifty members. |
| `Allocator.LowestFreeFrom` | backend/utils.js:30-37 | The scan from a candidate returns the first id not in use, and every id it passed is in use. It returns none only when every id up to 50 is in use. |
| `Allocator.CursorAfter` | backend/utils.js:33-34 | The cursor after allocating c is in 1..50 and equals c mod 50 plus 1, so 50 wraps to 1. |
| `Allocator.NextFreeId` | backend/utils.js:26-39 | Gives the lowest id not held in `todo`/`doing`, or null exactly when all fifty are held. `meta` is filled in, `nextId` moves past the id, and columns and metrics are unchanged. |
| `Allocator.NextFreeIdFull` | backend/utils.js:30-38 | The allocator reports full exactly when fifty distinct ids are in use. |
| `Allocator.DoneIsIgnored` | backend/utils.js:16 | Replacing the `done` column changes neither the used ids nor the allocated id. |
| `Migration.JsRem` | backend/utils.js:57 | JavaScript's `%`: dividend = divisor × quotient truncated toward zero + remainder. The remainder has the sign of the dividend and is smaller than the divisor in magnitude. |
| `Migration.FirstFreeStep` | backend/utils.js:56-62 | The first scan step whose candidate is unused; every earlier candidate is in use. None when all fifty candidates are in use. |
| `Migration.CandidateIsCyclic` | backend/utils.js:57 | From a cursor in 1..50, the candidates run from the cursor up to 50, then wrap to 1. |
| `Migration.Candidate` | backend/utils.js:57 | The k-th candidate equals cursor + k up to a multiple of fifty and is at most 50. It is at least 1 while `cursor - 1 + k` is not negative; below that, JavaScript's `%` makes it at most 1. |
| `Migration.CandidatesCoverIds` | backend/utils.js:56-57 | From a cursor in 1..50, the fifty scan steps visit every id in 1..50. |
| `Migration.Renumber` | backend/utils.js:69-76 | The i-th ticket of a column gets id offset+i+1 and is otherwise unchanged; the length is kept. |
| `Migration.Migrate` | backend/utils.js:42-79 | Throws exactly when there are more than fifty tickets. Otherwise: the three columns exist; other keys, `lastStartedId` and the ticket count are kept; a missing `metrics` becomes an empty log. |
| `Migration.Normalize` | backend/utils.js:43-47 | todo, doing and done exist; no column's tickets change and no key other than those three is added. `meta` is filled in, a missing `metrics` becomes an empty log, and an existing one, even a ticket array, stays. |
| `Migration.KeepsIdsIff` | backend/utils.js:50-54 | The keep-ids branch runs exactly when `done` is empty and every todo/doing ticket has a distinct valid id. |
| `Migration.MigrateKeepsIds` | backend/utils.js:54-63 | Keep-ids branch: no ticket changes. The cursor becomes the first candidate not in use in the cyclic scan, and stays put when all are in use. |
| `Migration.MigrateCursorInRange` | backend/utils.js:56-62 | From a cursor in 1..50, the kept cursor is an unused id in 1..50, unless all fifty ids are in use. |
| `Migration.MigrateRenumbers` | backend/utils.js:67-78 | Otherwise, tickets are numbered 1..N in the order todo, doing, done, keeping their order and content; the cursor becomes N mod 50 plus 1. |
| `Migration.RenumberBag` | backend/utils.js:69-76 | A renumbered column holds each id offset+1..offset+n exactly once. |
| `Migration.RenumberedLive` | backend/utils.js:67-77 | After renumbering, the todo and doing tickets are the old ones numbered from 1. |
| `Migration.MigrateMakesLiveDistinct` | backend/utils.js:42-79 | After either branch, every todo/doing ticket holds a valid id no other one holds. |
| `Columns.FirstIndexFrom` | backend/utils.js:84 | `findIndex` from a position: the first index at or after it holding the id. None when no later ticket has it. |
| `Columns.FirstIndex` | backend/utils.js:84 | None exactly when no ticket has the id under `===`. Otherwise the first position holding it, with no ticket before it holding it. |
| `Columns.FindTicket` | backend/utils.js:82-88 | Searches todo, then doing, then done, and reports the first position of the first column holding the id. Each column is reported exactly when the earlier columns lack the id. |
| `Columns.Without` | backend/server.js:73 | The found ticket leaves its column at its position; no other column, `meta` or `metrics` changes. |
| `Columns.Append` | backend/utils.js:96-97 | The ticket goes to the end of the target column, which is created if missing; nothing else changes. |
| `Columns.MoveTicket` | backend/utils.js:91-99 | Null exactly when no ticket has the id. Otherwise the first-found ticket leaves its column and is appended to the target, and the move is reported. |
| `Columns.MoveTicketConserves` | backend/utils.js:91-99 | Between two different columns a move keeps the tickets of both: one fewer in the source, in their old order, and the moved one last in the target. No other column changes. |
| `Metrics.TotalAppend` | backend/utils.js:110 | The sum splits over concatenation: the sum of a + b is the sum of a plus the sum of b. |
| `Metrics.Total` | backend/utils.js:110 | The empty log sums to 0 and a one-entry log to its amount, with NaN counted as 0. A log of NaN amounts only sums to 0, and a log without negative amounts has a sum that is not negative. |
| `Metrics.TotalSnoc` | backend/utils.js:110 | One more entry adds exactly its amount, or 0 for NaN. With the empty log summing to 0, this fixes the sum of every log. |
| `Metrics.Growth` | backend/utils.js:108 | A previous amount of 0 gives 0 or 100. Otherwise `previous·(1 + growth/100) = current`. NaN propagates. |
| `Metrics.ComputeMetrics` | backend/utils.js:102-111 | An empty log gives all zeros. `current` is the last amount, `previous` the one before it (0 with fewer than two), `total` the sum of the log. |
| `Metrics.GrowthExamples` | backend/utils.js:105-110 | 10 then 15 is +50% with total 25; 10 then 0 is -100%; 0 then 5 is 100%. |
| `Storage.Initial` | backend/storage.js:25-29 | A fresh store has three empty columns, cursor 1, no started ticket and an empty amount log. |
| `Storage.WithDb` | backend/storage.js:52-60 | A thrown callback leaves the store and yields undefined. Otherwise the callback's value is yielded, and its copy is stored unless `persist` is false. |
| `Storage.Drain` | backend/storage.js:52-61 | A queue of calls gives one result per call. |
| `Storage.DrainAppend` | backend/storage.js:52-53 | Two queues back to back equal their concatenation: the second starts from what the first left. |
| `Storage.DrainInOrder` | backend/storage.js:52-56 | The i-th call sees exactly the document the earlier calls left. |
| `Storage.ThrowIsSkipped` | backend/storage.js:57-60 | A throwing call acts as if never submitted, except that it yields undefined; later calls still run. |
| `Storage.ReadOnlyQueue` | backend/storage.js:55 | Calls that never persist leave the stored document unchanged. |
| `Server.Startup` | backend/server.js:19-22 | Startup stores the migrated document. When migration throws, the error is swallowed and the stored document stays. |
| `Server.StartupStep` | backend/server.js:19-22 | The startup callback throws exactly when there are more than fifty tickets. Otherwise it asks for the migrated document, with the same ticket count, to be written. |
| `Server.ListTickets` | backend/server.js:27-35 | GET /tickets answers 200 with the three columns, `[]` for a missing one, and writes nothing. |
| `Server.Place` | backend/server.js:48-49 | A ticket array gets the ticket appended. Creating into `meta`, into a `metrics` log, or under an inherited object property name throws. |
| `Server.CreateTicket` | backend/server.js:38-56 | No title gives 400. A full board gives 409. Only 201 writes anything; other column names are never touched. |
| `Server.CreateStep` | backend/server.js:44-52 | The create callback yields nothing, and asks for nothing to be written, exactly when all fifty ids are in use. Otherwise it writes and yields `{ id, title, subtitle }` with the allocator's free id, appended to an ordinary column; it can throw only when the column is not an ordinary one. |
| `Server.NullColumnMakesNullKey` | backend/server.js:39-48 | The default column applies only to an absent field. A `column: null` files the ticket under the key "null", and todo is unchanged. |
| `Server.CreateAppends` | backend/server.js:44-55 | A create with a free id answers 201 with `{id, title, subtitle}`, using the lowest free id. The ticket is appended to the end of the named column; the other columns and metrics stay, and the cursor moves past the id. |
| `Server.DeleteTicket` | backend/server.js:59-80 | An id outside 1..50 gives 400 and an absent id gives 404, with nothing written. Otherwise exactly the first-found ticket leaves its column and is returned. |
| `Server.DeleteStep` | backend/server.js:67-76 | The delete callback writes exactly when some ticket has the id. It then yields the first-found ticket, which leaves its column while every other column stays; otherwise it yields nothing and keeps the document. |
| `Server.StartTicket` | backend/server.js:83-100 | A ticket first found in todo moves to the end of doing and `lastStartedId` records the id. Otherwise 404 with nothing written; a non-integer id gives 400. |
| `Server.StampKeepsFound` | backend/server.js:112-113 | Stamping `completedAt` does not change which ticket the lookup finds. |
| `Server.StartStep` | backend/server.js:89-96 | The start callback writes exactly when todo holds the id. It then yields the move from todo to doing of the ticket with that id, now last in doing, and `lastStartedId` becomes the id; otherwise it yields nothing and keeps the document. |
| `Server.CompleteTicket` | backend/server.js:103-119 | A ticket first found in doing is stamped with the time and moved to the end of done. Otherwise 404 with nothing written; a non-integer id gives 400. |
| `Server.CompleteStep` | backend/server.js:109-115 | The complete callback writes exactly when todo lacks the id and doing holds it. It then yields the move from doing to done of the ticket with that id, stamped with the time and now last in done; otherwise it yields nothing and keeps the document. |
| `Server.CompleteOutcome` | backend/server.js:109-115 | The complete callback persists exactly when the ticket is first found in doing, and leaves `meta` and metrics as they were. |
| `Server.ReadMeta` | backend/server.js:122-127 | GET /meta gives `lastStartedId`, or null when `meta` or the field is missing; nothing is written. |
| `Server.ReadMetrics` | backend/server.js:130-135 | GET /metrics gives the summary of the stored log (empty without one); nothing is written. |
| `Server.RecordAmount` | backend/server.js:138-154 | A non-finite amount gives 400. Otherwise exactly one entry is appended, earlier entries stay, and the summary of the new log is returned. A ticket array under `metrics` gives 201 with a null body and no write. |
| `Server.AmountStep` | backend/server.js:146-151 | The amount callback throws exactly when `metrics` is a ticket array. Otherwise it writes a log that is the old amounts plus the new entry, and yields the summary of that log. |
| `Server.StepOutcome` | backend/server.js:27-154 | Every route answers 200 or 201, or refuses with 400, 404 or 409. The three reads leave the store and answer 200, and no refusal writes. |
| `Server.Run` | backend/storage.js:52-60 | Requests queued one after the other give one response each. |
| `Server.RunAppend` | backend/storage.js:52-60 | Serving a + b is serving a, then serving b from the store a left, with the responses in that order. |
| `Server.RunOfReadsKeepsStore` | backend/server.js:27-35 | Any run of GET requests leaves the store as it was and answers 200 to each. |
| `Server.Serve` | backend/server.js:18-22 | The requests are served from the migrated document, or from the stored one when migration throws, one response each. |
| `Invariants.FailureWritesNothing` | backend/server.js:38-154 | Every request answered with 4xx leaves the stored document as it was. |
| `Invariants.ReadsWriteNothing` | backend/server.js:27-35 | GET /tickets, /meta and /metrics answer 200 and never write. |
| `Invariants.CreateKeepsLiveDistinct` | backend/server.js:44-52 | A create never gives two todo/doing tickets the same valid id. |
| `Invariants.DeleteKeepsLiveDistinct` | backend/server.js:67-76 | A delete keeps todo/doing ids distinct. |
| `Invariants.StartKeepsLiveDistinct` | backend/server.js:89-96 | A start keeps todo/doing ids distinct. |
| `Invariants.CompleteKeepsLiveDistinct` | backend/server.js:109-115 | A complete keeps todo/doing ids distinct. |
| `Invariants.StepKeepsLiveDistinct` | backend/server.js:27-154 | Every route keeps todo/doing ids distinct. |
| `Invariants.RunKeepsLiveDistinct` | backend/storage.js:52-60 | Any sequence of requests keeps todo/doing ids distinct. |
| `Invariants.ServeKeepsLiveDistinct` | backend/server.js:19-22 | After a successful startup migration, no sequence of requests ever gives two todo/doing tickets the same id. |
| `Invariants.CreateTakesOneId` | backend/server.js:44-51 | A create with a free id takes exactly one more id into use. |
| `Invariants.CreatesStopAtCapacity` | backend/server.js:45-46 | Of n creates in a row, exactly min(n, free ids) succeed, and the used ids grow by that many. |
| `Invariants.LowestFree` | backend/utils.js:30-35 | The allocated id is the lowest id not in use. |
| `Invariants.FreshStartIsStable` | backend/utils.js:50-63 | Migrating the initial document changes nothing. |
| `Invariants.CreateLowest` | backend/server.js:44-51 | A create into todo appends the ticket with the lowest free id. |
| `Invariants.CreateTwice` | backend/server.js:44-51 | Creating A then B on a fresh store gives ids 1 and 2, in that order. |
| `Invariants.IdReuseScenario` | backend/utils.js:30-35 | After A (1) and B (2), deleting 1 frees it, and the next create gets id 1. |
| `Invariants.CreateStartComplete` | backend/server.js:89-115 | A created, started and completed ticket sits alone in done, stamped. |
| `Invariants.DoneIdReused` | backend/utils.js:16 | While A (id 1) is done, the next create also gets id 1, and the lookup finds the new todo ticket first. |
| `Invariants.StartThenReadMeta` | backend/server.js:93-126 | After a start, GET /meta reports that id. |
| `Invariants.CompleteStamps` | backend/server.js:112-113 | The completed ticket sits last in done and carries the completion time. |
| `Readers.Lower` | scripts/add_new_cards.py:132 | Lower-casing keeps the length and lower-cases each letter in place. |
| `Readers.Score` | scripts/add_new_cards.py:131-136 | The score is 0, 2, 5 or 7. It is at least 5 exactly when a contactless keyword occurs, and 2 or 7 exactly when "utrust" or "identiv" occurs. |
| `Readers.LexLessTransitive` | scripts/add_new_cards.py:137 | Python's string order is transitive. |
| `Readers.LexLessTotal` | scripts/add_new_cards.py:137 | Of two different names, one sorts before the other. |
| `Readers.LexLessIrreflexive` | scripts/add_new_cards.py:137 | No name sorts before itself. |
| `Readers.LexLessAsymmetric` | scripts/add_new_cards.py:137 | Two names never sort before each other. |
| `Readers.BeforeTransitive` | scripts/add_new_cards.py:137 | The key (descending score, then name) is a transitive order. |
| `Readers.PickReader` | scripts/add_new_cards.py:127-137 | No reader means an error. Otherwise the result is a listed reader that no other reader sorts before. |
| `Readers.FirstIsUnique` | scripts/read_cards.py:63-71 | The first reader under the key is unique, so both scripts pick the same reader whatever the listing order. |
| `Readers.UtrustContactlessScoresSeven` | scripts/read_cards.py:66-70 | "uTrust 3700 F CL" scores 7. |
| `Readers.PlainNfcScoresFive` | scripts/read_cards.py:66-70 | "ACS NFC Reader" scores 5. |
| `Uid.DigitValue` | scripts/add_new_cards.py:152 | Reads an upper-case hex digit back to its nibble, and is defined exactly on such digits. |
| `Uid.ByteHex` | scripts/add_new_cards.py:152 | A byte is written as two upper-case hex digits. |
| `Uid.UidHex` | scripts/add_new_cards.py:152 | A UID string has two characters per byte. |
| `Uid.UidHexDigits` | scripts/add_new_cards.py:152 | Only upper-case hex digits appear in a UID string. |
| `Uid.UidHexRoundTrip` | scripts/add_new_cards.py:152 | Every UID string reads back to the bytes it was written from. |
| `Uid.ParseHexRoundTrip` | scripts/add_new_cards.py:152 | Every string that reads as bytes is the UID string of those bytes, so the encoding is one-to-one. |
| `Uid.GetUid` | scripts/add_new_cards.py:148-155 | A UID exactly when the reply has status 90 00 and at least one byte; it reads back to the data. A failed transmit gives none. |
| `Uid.UidExample` | scripts/read_cards.py:97-98 | Bytes 04 A2 1F C0 with 90 00 give "04A21FC0". Another status, or no data, gives nothing. |
| `Cards.LoadDb` | scripts/add_new_cards.py:24-36 | Anything other than an object with a list of cards (missing, blank or malformed file included) becomes `{"cards": []}`. |
| `Cards.LoadDbIdempotent` | scripts/add_new_cards.py:34-36 | Normalising an already normalised document changes nothing. |
| `Cards.CardsOf` | scripts/add_new_cards.py:64 | A missing `cards` key is an empty list, and a list gives back its own entries. A non-object document or a non-list value raises. |
| `Cards.FirstCardFrom` | scripts/add_new_cards.py:65-68 | The first card with the uid, or none when every card lacks it. Raises exactly when a non-object comes before any match. |
| `Cards.IsCardRegistered` | scripts/add_new_cards.py:50-68 | A missing, blank or malformed file gives None. The lookup raises exactly when `cards` cannot be iterated or a non-object comes before the first match. Otherwise the answer is the `id` of the first card carrying the uid, or None when no card carries it. |
| `Cards.PresentIsFound` | scripts/add_new_cards.py:64-67 | A uid that some card carries, with only objects before that card, is found. The answer is the id of the first card carrying it, which comes no later than that card. |
| `Cards.MaxIntId` | scripts/add_new_cards.py:86-87 | The largest integer id, held by some card, or none when no card has one. |
| `Cards.NextCardId` | scripts/add_new_cards.py:85-87 | Raises exactly when a non-object is in the list. Otherwise the result exceeds every integer id and is 1 when there are none; otherwise some card holds the result minus 1. |
| `Cards.NextCardIdFromFile` | scripts/add_new_cards.py:71-87 | A missing, blank or malformed file gives 1; otherwise the id computed from its cards. |
| `Cards.RegisterNewCard` | scripts/add_new_cards.py:90-119 | An already registered uid is reported with its id and nothing is written. The call raises exactly when the lookup raises, or when it found nothing and computing the next id raises. The uid is registered, as `{id: next id, uid}`, exactly when the lookup found nothing and the next id can be computed. |
| `Cards.UnknownIsRegistered` | scripts/add_new_cards.py:92-113 | A uid that no card of a readable list carries is registered. The card `{id: max + 1, uid}` is appended to the file's list. |
| `Cards.RegisterAppends` | scripts/add_new_cards.py:109-113 | A registration appends exactly one `{id, uid}` at the end and keeps the earlier cards. The id exceeds every integer id and is 1 on an empty list. |
| `Cards.RegisterThenRegistered` | scripts/add_new_cards.py:93-96 | After registering, the lookup finds the new id, and registering again is refused: registration is idempotent. |
| `Cards.NullIdCardIsDuplicated` | scripts/add_new_cards.py:64-68 | A card stored without an id looks unregistered, so presenting it again adds a second record with id 1. |
| `CardActions.LoadJsonSafe` | scripts/read_cards.py:52-57 | The parsed file, or the default for a missing, blank or malformed file. |
| `CardActions.UidLookupsAgree` | scripts/read_cards.py:117-122 | The reading script's uid lookup equals the registering script's on every file. |
| `CardActions.FindTicketColumn` | scripts/read_cards.py:124-131 | The first of todo, doing, done with a ticket whose `int(id)` equals `int(ticket_id)`; unreadable ids are skipped. None when `int(ticket_id)` fails or no ticket matches. |
| `CardActions.UidToTicketId` | scripts/read_cards.py:117-122 | A missing, blank or malformed cards file, or a list with no card carrying the uid, gives None. Any other id returned belongs to a card carrying the uid. |
| `CardActions.ColumnAgreesWithBackend` | scripts/read_cards.py:124-131 | On a board of integer ids, the script finds the same column as the backend's `findTicket`. |
| `CardActions.TextIdDiverges` | scripts/read_cards.py:128 | A todo ticket whose id is the text "3" is found by the script, but the backend answers 404 to starting it. |
| `CardActions.JsOnlyIdDiverges` | backend/utils.js:8-11 | A todo ticket whose id is the text "3.0" holds id 3 for the backend's allocator, but `int()` rejects it, so the script never finds the ticket. |
| `CardActions.PyOnlyIdDiverges` | scripts/read_cards.py:124-131 | A todo ticket whose id is the text "1_0" is found by the script for card id 10, because `int()` reads it as 10. The backend neither counts 10 as used nor finds the ticket, and answers 404 to starting it. |
| `CardActions.ActOnTicket` | scripts/read_cards.py:133-158 | A start request goes only for todo and a complete request only for doing. "start"/"complete" is returned exactly when that request was answered ok. |
| `CardActions.HandleUid` | scripts/read_cards.py:183-196 | A tap crashes exactly when the uid lookup raises. An unmapped card sends nothing and stays silent. A mapped card whose ticket is first found in todo sends start for that id, one found in doing sends complete, and any other stays silent without a call. |
| `CardActions.SoundMeansSuccess` | scripts/read_cards.py:186-196 | The start sound plays exactly when a start request was answered ok, the complete sound likewise; no request means silence. |
| `CardActions.TapMatchesBackend` | scripts/read_cards.py:183-196 | End to end, on integer ids: the start sound plays exactly when the backend found the ticket first in todo, and the backend then appended it to doing. The complete sound plays exactly when it was in doing. |
| `ApiPaths.Join` | frontend/src/composables/useTickets.js:11 | The URL is the base, then exactly one slash (the path's own or an inserted one), then the rest of the path. |
| `ApiPaths.JoinIgnoresLeadingSlash` | frontend/src/composables/useTickets.js:11 | A path with or without its leading slash gives the same URL. |
| `ApiPaths.TicketsBase` | frontend/src/composables/useTickets.js:10 | An unset or empty `VITE_API_BASE` falls back to "/api". |
| `ApiPaths.StripTrailingSlashes` | frontend/src/composables/useRealtimeSfx.js:5 | The result is a prefix that does not end in '/', and only slashes were cut. |
| `ApiPaths.SfxBase` | frontend/src/composables/useRealtimeSfx.js:5 | An unset variable gives "". The base never ends in '/', and it is the variable's value with only a trailing run of slashes cut. |
| `ApiPaths.StripIsIdempotent` | frontend/src/composables/useRealtimeSfx.js:5 | Stripping twice equals stripping once. |
| `ApiPaths.StripUndoesSlashes` | frontend/src/composables/useRealtimeSfx.js:5 | Any run of slashes added to a base without one is stripped back off. |
| `ApiPaths.SfxJoinHasOneSlash` | frontend/src/composables/useRealtimeSfx.js:5-6 | With the stripped base, base and path meet at a single slash. |
| `ClientTickets.LoadAll` | frontend/src/composables/useTickets.js:25-35 | A non-ok response throws and changes nothing. Otherwise each column present in the reply replaces its list, a missing one becomes `[]`, and `lastStartedId` stays. |
| `ClientTickets.LoadMeta` | frontend/src/composables/useTickets.js:37-43 | A non-ok response throws and changes nothing. Otherwise only `lastStartedId` changes, and it is null exactly when the answer is null or 0. |
| `ClientTickets.AddTicket` | frontend/src/composables/useTickets.js:45-56 | Throws on a non-ok response. Otherwise the returned ticket is appended to todo, to doing, or (for any other column name) to done, and exactly that one ticket is added overall. |
| `ClientTickets.DeleteTicket` | frontend/src/composables/useTickets.js:58-67 | Throws on a non-ok response. Otherwise each list independently loses its first ticket with the id, if it has one. |
| `ClientTickets.RemoveFirst` | frontend/src/composables/useTickets.js:63-64 | A list without the id is kept. Otherwise exactly the earliest ticket with the id goes, and the others keep their order. |
| `ClientTickets.StartTicket` | frontend/src/composables/useTickets.js:69-79 | Throws on a non-ok response. Otherwise the first todo ticket with the id moves to the end of doing, with todo and doing together keeping their tickets. `lastStartedId` becomes the id either way. |
| `ClientTickets.CompleteTicket` | frontend/src/composables/useTickets.js:81-91 | Throws on a non-ok response. Otherwise the first doing ticket with the id moves to the end of done, with doing and done together keeping their tickets. |
| `ClientTickets.LoadAllMirrors` | frontend/src/composables/useTickets.js:31-33 | Loading the backend's GET /tickets answer makes the three lists exactly the stored columns. |
| `ClientTickets.LoadMetaMirrors` | frontend/src/composables/useTickets.js:42 | The loaded `lastStartedId` is the backend's, except that an id 0 shows as null. |
| `ClientTickets.AddAcceptedMirrors` | frontend/src/composables/useTickets.js:53-55 | When the backend accepts a create into todo, doing or done, the client appends the same ticket to the same list. |
| `ClientTickets.AddMirrors` | frontend/src/composables/useTickets.js:45-56 | Creating into todo, doing or done keeps client and backend in agreement. The client throws exactly when the backend refuses. |
| `ClientTickets.AddElsewhereDiverges` | frontend/src/composables/useTickets.js:55 | Creating into any other column name: the backend stores the ticket there, the client puts it in done, and the two disagree. |
| `ClientTickets.DeleteMirrors` | frontend/src/composables/useTickets.js:58-67 | For an id held by at most one column, the client stays in agreement and throws exactly when the backend refuses. |
| `ClientTickets.DeleteDiverges` | frontend/src/composables/useTickets.js:62-65 | For an id held by both todo and done, the backend deletes one ticket and the client deletes two. |
| `ClientTickets.StartMirrors` | frontend/src/composables/useTickets.js:69-79 | A start keeps the client in agreement. The client throws exactly when the backend refuses, and on success shows the backend's `lastStartedId`. |
| `ClientTickets.CompleteMirrors` | frontend/src/composables/useTickets.js:81-91 | A complete keeps the client in agreement up to completion times: the client's new done ticket lacks the stamp the backend stored. |
| `RealtimeSfx.Inserted` | frontend/src/composables/useRealtimeSfx.js:20-21 | Inserting ids into a Set gives, without repeats, exactly the ids inserted that were not already in it. |
| `RealtimeSfx.InsertedSnoc` | frontend/src/composables/useRealtimeSfx.js:20-21 | One more id at the end comes out last exactly when it is neither already in the Set nor inserted before, so new ids keep the order of their first insertion. |
| `RealtimeSfx.SetOf` | frontend/src/composables/useRealtimeSfx.js:20 | `new Set(ids)` holds each id exactly once. |
| `RealtimeSfx.SetsFrom` | frontend/src/composables/useRealtimeSfx.js:19-23 | The doing and done id sets, with no repeats; a missing column gives the empty set. |
| `RealtimeSfx.Appeared` | frontend/src/composables/useRealtimeSfx.js:33-39 | Exactly the current ids the previous set lacks, each once. |
| `RealtimeSfx.SoundCount` | frontend/src/composables/useRealtimeSfx.js:33-39 | The number of sounds equals the size of the set difference between the current ids and the previous ones. |
| `RealtimeSfx.Tick` | frontend/src/composables/useRealtimeSfx.js:25-51 | A failed fetch plays nothing and changes nothing. Otherwise one start sound per new doing id and one complete sound per new done id, and the current sets become the previous ones. |
| `RealtimeSfx.Start` | frontend/src/composables/useRealtimeSfx.js:53-58 | Nothing happens while a timer exists. Otherwise the timer is set and the first poll runs. |
| `RealtimeSfx.Stop` | frontend/src/composables/useRealtimeSfx.js:60-65 | No timer remains and the kept sets stay. Without a timer, stopping changes nothing. |
| `RealtimeSfx.TickTwiceIsSilent` | frontend/src/composables/useRealtimeSfx.js:41-42 | A poll that sees what the previous poll saw plays nothing and keeps the state. |
| `RealtimeSfx.StartIsHeard` | frontend/src/composables/useRealtimeSfx.js:33-35 | After the backend starts ticket k, the next poll plays one start sound, for k, unless a doing ticket already held k, and no complete sound. |
| `RealtimeSfx.CompleteIsHeard` | frontend/src/composables/useRealtimeSfx.js:37-39 | After the backend completes ticket k, the next poll plays one complete sound, unless a done ticket already held k (done ids are reused), and no start sound. |

## Left out

- File I/O is not modelled: `ensureDB`, `readDB`, `writeDB`, JSON parsing and printing, and the scripts' reads, writes and `_save_db`. A document is abstract state, and a file a script reads is a `FileState`: missing, blank, malformed, or a parsed document.
- The promise chain of `withDB` is modelled as the sequential fold it amounts to. Concurrency between requests is not modelled.
- Express routing, CORS and `listen` are not modelled, and neither are `fetch` or `requests`. Each route is a function from parsed input to status and body; each HTTP reply is a parameter.
- Timestamps are opaque strings passed in.
- IEEE arithmetic is replaced by reals:
  - amounts are reals or NaN;
  - `Number()` of a request parameter is given already parsed, as an integer or nothing;
  - infinities are not modelled.
- JSON id values are grouped into integers, integer text both languages read, fractions, values only JavaScript's `Number` reads as an integer (text such as "3.0", "1e1" or "0x10", an array such as `[3]` or `[]`), text only Python's `int()` reads (such as "1_0" or digits of another script), null and everything else:
  - booleans fall in "everything else", although `Number(true)` is 1 and Python counts `True` as an `int`;
  - two different texts that read as the same number are one value.
- Object ids in the poller's `Set` compare by identity in JavaScript but by value here.
- `Columns.MoveTicket` requires the target to name an ordinary column, because the backend only ever moves tickets to doing and done.
- `Readers.Lower`: lower-cases ASCII letters only; Python's `str.lower` also folds other scripts.
- A `cards` value that is neither a list nor absent is taken to raise when iterated. In Python an empty string or an empty dict would iterate to nothing, and a non-empty dict would iterate its keys.
- Keys of cards.json other than `cards` are carried along but not modelled.
- A tickets.json whose top level is not an object, or whose columns are null, is not modelled in `CardActions`.
- Client ids in `ClientTickets` are integers, which is what the backend hands out after migration.
- The `onUpdate` callback of the poller is not modelled, and neither is the paper-count notification of `useTickets`.
- The `setInterval` timer is a flag: `Start` runs the first poll, and later polls are calls to `Tick`.
- `RealtimeSfx.Tick`: polls are taken to run one at a time. A tick that starts while an earlier fetch is still pending, and replies that arrive out of order and overwrite the kept sets, are not modelled.
- `Server.CreateTicket`: titles, subtitles and columns are strings or absent. A `subtitle: null`, which the source stores as null, and a truthy title that is not a string, such as a number or an object, are not modelled. A `column: null` is covered: it becomes the property key "null", which `Server.NullColumnMakesNullKey` states.
- The sounds themselves, the reader hardware loops, `connect_safely`, the card-removal wait and the repeated-uid check in `main_loop` are not modelled. Neither is nfc_reader.py.
- Left out as UI or physics code:
  - the physics and DOM animation files;
  - frontend/src/lib/sfx.js;
  - useMetrics.js;
  - the router;
  - the entry scripts;
  - the Vite configuration.

=== FILE: allocator.dfy ===
/** Ticket-id validation and allocation (backend/utils.js): which ids count as
    in use, and the lowest free id in 1..50. Only `todo` and `doing` hold ids
    in use; a ticket in `done` (or in any other column) blocks nothing. */
module Allocator {
  import opened Common
  import opened Board

  /** `toId`: the id as a number when it is an integer in 1..50. */
  function ToId(x: IdVal): (r: Option<int>)
    ensures r.Some? ==> 1 <= r.value <= MaxId && x.JsInteger() == r
    ensures x.JsInteger().Some? && 1 <= x.JsInteger().value <= MaxId ==> r.Some?
  {
    match x.JsInteger()
    case Some(n) => if 1 <= n <= MaxId then Some(n) else None
    case None => None
  }

  /** Some ticket of `s` carries the valid id `x`. */
  ghost predicate HasValidId(s: seq<Ticket>, x: int)
  {
    exists i :: 0 <= i < |s| && ToId(s[i].id) == Some(x)
  }

  /** Every ticket of `s` carries a valid id. */
  ghost predicate AllValid(s: seq<Ticket>)
  {
    forall i :: 0 <= i < |s| ==> ToId(s[i].id).Some?
  }

  /** The valid ids of `s`, as the loop of `collectUsedIds` gathers them. */
  function ValidIds(s: seq<Ticket>): (r: set<int>)
    ensures forall x :: x in r ==> 1 <= x <= MaxId
  {
    if |s| == 0 then {}
    else ValidIds(s[..|s| - 1]) + (match ToId(s[|s| - 1].id) case Some(n) => {n} case None => {})
  }

  /** The used set holds exactly the valid ids found in `s`. */
  lemma {:induction false} ValidIdsMeans(s: seq<Ticket>)
    ensures forall x :: x in ValidIds(s) <==> HasValidId(s, x)
  {
    if |s| > 0 {
      var p := s[..|s| - 1];
      ValidIdsMeans(p);
      assert forall i :: 0 <= i < |p| ==> p[i] == s[i];
      forall x | HasValidId(s, x) ensures x in ValidIds(s) {
        var i :| 0 <= i < |s| && ToId(s[i].id) == Some(x);
        if i < |p| { assert HasValidId(p, x); }
      }
    }
  }

  /** The valid ids of `s` counted with multiplicity. */
  function IdBag(s: seq<Ticket>): (r: multiset<int>)
  {
    if |s| == 0 then multiset{}
    else IdBag(s[..|s| - 1]) + (match ToId(s[|s| - 1].id) case Some(n) => multiset{n} case None => multiset{})
  }

  /** An id occurs in the bag exactly when it is in the set. */
  lemma {:induction false} IdBagSupport(s: seq<Ticket>)
    ensures forall x :: x in IdBag(s) <==> x in ValidIds(s)
  {
    if |s| > 0 {
      IdBagSupport(s[..|s| - 1]);
    }
  }

  /** No valid id occurs twice in `s`. */
  ghost predicate NoRepeats(s: seq<Ticket>)
  {
    forall x :: IdBag(s)[x] <= 1
  }

  /** The tickets whose ids are in use: `todo` followed by `doing`. */
  function Live(db: Db): seq<Ticket>
  {
    Col(db, Todo) + Col(db, Doing)
  }

  /** `collectUsedIds`: the valid ids of the tickets in `todo` and `doing`. */
  function UsedIds(db: Db): (r: set<int>)
    ensures forall x :: x in r ==> 1 <= x <= MaxId
  {
    ValidIds(Live(db))
  }

  /** The used set holds exactly the valid ids found in `todo` or `doing`. */
  lemma UsedIdsMeans(db: Db)
    ensures forall x :: x in UsedIds(db) <==> HasValidId(Col(db, Todo), x) || HasValidId(Col(db, Doing), x)
  {
    ValidIdsAppend(Col(db, Todo), Col(db, Doing));
    ValidIdsMeans(Col(db, Todo));
    ValidIdsMeans(Col(db, Doing));
  }

  /** No two live tickets share a valid id. */
  ghost predicate LiveDistinct(db: Db)
  {
    NoRepeats(Live(db))
  }

  lemma {:induction false} ValidIdsAppend(a: seq<Ticket>, b: seq<Ticket>)
    ensures ValidIds(a + b) == ValidIds(a) + ValidIds(b)
    decreases |b|
  {
    if |b| == 0 {
      assert a + b == a;
    } else {
      var b' := b[..|b| - 1];
      assert (a + b)[..|a + b| - 1] == a + b';
      assert (a + b)[|a + b| - 1] == b[|b| - 1];
      ValidIdsAppend(a, b');
    }
  }

  lemma {:induction false} IdBagAppend(a: seq<Ticket>, b: seq<Ticket>)
    ensures IdBag(a + b) == IdBag(a) + IdBag(b)
    decreases |b|
  {
    if |b| == 0 {
      assert a + b == a;
    } else {
      var b' := b[..|b| - 1];
      assert (a + b)[..|a + b| - 1] == a + b';
      assert (a + b)[|a + b| - 1] == b[|b| - 1];
      IdBagAppend(a, b');
    }
  }

  /** The single-ticket contribution to `IdBag`. */
  function OwnId(t: Ticket): multiset<int>
  {
    match ToId(t.id) case Some(n) => multiset{n} case None => multiset{}
  }

  lemma SnocParts(p: seq<Ticket>, t: Ticket)
    ensures ValidIds(p + [t]) == ValidIds(p) + (match ToId(t.id) case Some(n) => {n} case None => {})
    ensures IdBag(p + [t]) == IdBag(p) + OwnId(t)
    ensures AllValid(p + [t]) <==> AllValid(p) && ToId(t.id).Some?
  {
    var s := p + [t];
    assert s[..|s| - 1] == p;
    assert s[|s| - 1] == t;
    if AllValid(p) && ToId(t.id).Some? {
      forall i | 0 <= i < |s| ensures ToId(s[i].id).Some? {
        if i < |p| { assert s[i] == p[i]; }
      }
    }
    if AllValid(s) {
      forall i | 0 <= i < |p| ensures ToId(p[i].id).Some? {
        assert s[i] == p[i];
      }
    }
  }

  lemma NoRepeatsSnoc(p: seq<Ticket>, t: Ticket, k: int)
    requires ToId(t.id) == Some(k)
    ensures k in ValidIds(p) ==> !NoRepeats(p + [t])
    ensures k !in ValidIds(p) ==> (NoRepeats(p + [t]) <==> NoRepeats(p))
  {
    SnocParts(p, t);
    IdBagSupport(p);
    var s := p + [t];
    if k in ValidIds(p) {
      assert IdBag(p)[k] >= 1;
      assert IdBag(s)[k] >= 2;
    } else {
      assert IdBag(p)[k] == 0;
      assert forall x :: IdBag(s)[x] == IdBag(p)[x] + (if x == k then 1 else 0);
    }
  }

  /** Counting argument behind the migration test `used.size === total`: the
      valid ids of `s` are as many as its tickets exactly when every ticket
      has a valid id and none repeats. */
  lemma {:induction false} CountValidIds(s: seq<Ticket>)
    ensures |ValidIds(s)| <= |s|
    ensures |ValidIds(s)| == |s| <==> AllValid(s) && NoRepeats(s)
  {
    if |s| == 0 {
      assert AllValid(s) && NoRepeats(s);
    } else {
      var p := s[..|s| - 1];
      var t := s[|s| - 1];
      assert s == p + [t];
      CountValidIds(p);
      SnocParts(p, t);
      match ToId(t.id)
      case None =>
        assert ValidIds(s) == ValidIds(p);
      case Some(k) =>
        NoRepeatsSnoc(p, t, k);
        if k !in ValidIds(p) {
          assert |ValidIds(s)| == |ValidIds(p)| + 1;
        }
    }
  }

  /** The candidate ids 1..n. */
  function Range(n: nat): (r: set<int>)
    ensures forall x :: x in r <==> 1 <= x <= n
  {
    if n == 0 then {} else Range(n - 1) + {n}
  }

  lemma {:induction false} RangeSize(n: nat)
    ensures |Range(n)| == n
  {
    if n > 0 {
      RangeSize(n - 1);
      var smaller := Range(n - 1);
      assert n !in smaller;
      assert Range(n) == smaller + {n};
    }
  }

  lemma SubsetSize(a: set<int>, b: set<int>)
    requires a <= b
    ensures |a| <= |b|
    ensures |a| == |b| ==> a == b
  {
    assert b == a + (b - a);
    assert a * (b - a) == {};
    if |a| == |b| {
      assert |b - a| == 0;
    }
  }

  lemma UsedAtMostFifty(db: Db)
    ensures UsedIds(db) <= Range(MaxId) && |UsedIds(db)| <= MaxId
  {
    RangeSize(MaxId);
    SubsetSize(UsedIds(db), Range(MaxId));
  }

  /** At most fifty ids are ever in use. */
  lemma UsedCountBound(db: Db)
    ensures |UsedIds(db)| <= MaxId
  {
    UsedAtMostFifty(db);
  }

  /** All fifty ids are in use exactly when the used set has fifty members. */
  lemma FullIffFifty(db: Db)
    ensures (forall k :: 1 <= k <= MaxId ==> k in UsedIds(db)) <==> |UsedIds(db)| == MaxId
  {
    var u := UsedIds(db);
    RangeSize(MaxId);
    UsedAtMostFifty(db);
    SubsetSize(u, Range(MaxId));
    if forall k :: 1 <= k <= MaxId ==> k in u {
      assert u == Range(MaxId);
    }
  }

  /** The loop of `nextFreeId`, from candidate `cand` up to 50. */
  function LowestFreeFrom(used: set<int>, cand: int): (r: Option<int>)
    requires 1 <= cand
    ensures r.Some? ==> cand <= r.value <= MaxId && r.value !in used
    ensures r.Some? ==> forall k :: cand <= k < r.value ==> k in used
    ensures r.None? ==> forall k :: cand <= k <= MaxId ==> k in used
    decreases MaxId + 1 - cand
  {
    if cand > MaxId then None
    else if cand !in used then Some(cand)
    else LowestFreeFrom(used, cand + 1)
  }

  /** The cursor after allocating `c`: `c + 1`, reset to 1 past 50. */
  function CursorAfter(c: int): (r: int)
    requires 1 <= c <= MaxId
    ensures 1 <= r <= MaxId
    ensures r == c % MaxId + 1
  {
    if c + 1 > MaxId then 1 else c + 1
  }

  /** The outcome of `nextFreeId`: the id (or null when full) and the
      document with `meta` filled in and its cursor advanced. */
  datatype Allocation = Allocation(id: Option<int>, db: Db)

  /** `nextFreeId`: the lowest id in 1..50 that no `todo`/`doing` ticket holds.
      The cursor `meta.nextId` is written (to the id after the one returned,
      wrapping 50 to 1) but never read. */
  function NextFreeId(db: Db): (r: Allocation)
    ensures r.db.columns == db.columns && r.db.metrics == db.metrics
    ensures r.db.meta.Some? && r.db.meta.value.lastStartedId == MetaOf(db).lastStartedId
    ensures r.id.None? <==> forall k :: 1 <= k <= MaxId ==> k in UsedIds(db)
    ensures r.id.None? ==> r.db.meta == Some(MetaOf(db))
    ensures r.id.Some? ==> 1 <= r.id.value <= MaxId && r.id.value !in UsedIds(db)
    ensures r.id.Some? ==> forall k :: 1 <= k < r.id.value ==> k in UsedIds(db)
    ensures r.id.Some? ==> r.db.meta.value.nextId == Some(r.id.value % MaxId + 1)
  {
    var meta := MetaOf(db);
    var used := UsedIds(db);
    match LowestFreeFrom(used, 1)
    case None => Allocation(None, db.(meta := Some(meta)))
    case Some(c) => Allocation(Some(c), db.(meta := Some(meta.(nextId := Some(CursorAfter(c))))))
  }

  /** The allocator reports "full" exactly when fifty distinct ids are in use. */
  lemma NextFreeIdFull(db: Db)
    ensures NextFreeId(db).id.None? <==> |UsedIds(db)| == MaxId
  {
    FullIffFifty(db);
  }

  /** `done` never blocks an id: replacing the `done` column changes nothing
      about allocation. */
  lemma DoneIsIgnored(db: Db, done: seq<Ticket>)
    ensures UsedIds(db.(columns := db.columns[Done := done])) == UsedIds(db)
    ensures NextFreeId(db.(columns := db.columns[Done := done])).id == NextFreeId(db).id
  {
    var db' := db.(columns := db.columns[Done := done]);
    assert Col(db', Todo) == Col(db, Todo) && Col(db', Doing) == Col(db, Doing);
  }
}

=== FILE: api_paths.dfy ===
/** Building request URLs in the frontend composables (`api` in
    frontend/src/composables/useTickets.js and useRealtimeSfx.js): the base
    comes from `VITE_API_BASE`, and a path is joined to it with exactly one
    slash of its own or an inserted one. */
module ApiPaths {
  import opened Common

  predicate StartsWithSlash(p: string)
  {
    |p| > 0 && p[0] == '/'
  }

  /** `${base}${path.startsWith("/") ? path : `/${path}`}`. */
  function Join(base: string, path: string): (r: string)
    ensures |r| > |base| && r[..|base|] == base && r[|base|] == '/'
    ensures StartsWithSlash(path) ==> r[|base|..] == path
    ensures !StartsWithSlash(path) ==> r[|base| + 1..] == path
  {
    base + (if StartsWithSlash(path) then path else "/" + path)
  }

  /** A path with or without its leading slash names the same URL. */
  lemma JoinIgnoresLeadingSlash(base: string, path: string)
    requires !StartsWithSlash(path)
    ensures Join(base, "/" + path) == Join(base, path)
  {
  }

  /** `import.meta.env.VITE_API_BASE || "/api"` (useTickets.js): an unset or
      empty variable falls back to "/api". */
  function TicketsBase(env: Option<string>): (r: string)
    ensures env.Some? && env.value != "" ==> r == env.value
    ensures env.None? || env.value == "" ==> r == "/api"
  {
    if env.Some? && env.value != "" then env.value else "/api"
  }

  /** `.replace(/\/+$/, "")`: the trailing run of slashes removed. */
  function StripTrailingSlashes(s: string): (r: string)
    ensures |r| <= |s| && r == s[..|r|]
    ensures |r| == 0 || r[|r| - 1] != '/'
    ensures forall i :: |r| <= i < |s| ==> s[i] == '/'
  {
    if |s| > 0 && s[|s| - 1] == '/' then StripTrailingSlashes(s[..|s| - 1]) else s
  }

  /** Stripping twice strips nothing more. */
  lemma StripIsIdempotent(s: string)
    ensures StripTrailingSlashes(StripTrailingSlashes(s)) == StripTrailingSlashes(s)
  {
  }

  /** Only the trailing slashes go: a base that does not end in '/' is kept,
      and adding slashes to it strips back to it. */
  lemma {:induction false} StripUndoesSlashes(s: string, n: nat)
    requires |s| == 0 || s[|s| - 1] != '/'
    ensures StripTrailingSlashes(s + seq(n, _ => '/')) == s
  {
    if n > 0 {
      var t := s + seq(n, _ => '/');
      assert t[..|t| - 1] == s + seq(n - 1, _ => '/');
      StripUndoesSlashes(s, n - 1);
    } else {
      assert s + seq(0, _ => '/') == s;
    }
  }

  /** `(import.meta.env.VITE_API_BASE || "").replace(/\/+$/, "")`
      (useRealtimeSfx.js). */
  function SfxBase(env: Option<string>): (r: string)
    ensures env.None? ==> r == ""
    ensures |r| == 0 || r[|r| - 1] != '/'
    ensures env.Some? ==> |r| <= |env.value| && r == env.value[..|r|]
                          && forall i :: |r| <= i < |env.value| ==> env.value[i] == '/'
  {
    StripTrailingSlashes(env.GetOr(""))
  }

  /** With the stripped base, a path without a leading slash is joined by a
      single slash: the URL never holds "//" where base and path meet. */
  lemma SfxJoinHasOneSlash(env: Option<string>, path: string)
    requires !StartsWithSlash(path)
    ensures var b := SfxBase(env);
            var r := Join(b, path);
            r == b + "/" + path && (|b| == 0 || r[|b| - 1] != '/')
  {
  }
}

=== FILE: board.dfy ===
/** The backend's persisted document: three ordered ticket columns (and any
    other column a client names), the allocator bookkeeping in `meta`, and
    the amount log in `metrics`. */
module Board {
  import opened Common

  /** A ticket id as it sits in the JSON document. The backend compares ids
      with JavaScript's `Number`/`Number.isInteger` and with `===`; the NFC
      scripts convert them with Python's `int()`. */
  datatype IdVal =
    | Num(n: int)        // a JSON integer
    | NumText(n: int)    // a JSON string that `Number()` and `int()` both read as n
    | Frac(whole: int)   // a non-integral JSON number; `whole` is its truncation toward zero
    | JsOnlyInt(n: int)  // a value `Number()` reads as the integer n but `int()` rejects:
                         // text such as "3.0", "1e1" or "0x10", an array such as [3] or
                         // [] (which `Number()` reads as 0)
    | PyOnlyInt(n: int)  // text `int()` reads as n but `Number()` does not read at all:
                         // "1_0" (10), or digits of another script such as "٣" (3)
    | Null               // JSON null, or no id field at all
    | Other              // anything else, which neither reads as an integer: text such as
                         // "abc" or "3.5", an object, an array `Number()` reads as NaN
  {
    /** `Number(x)` when it is an integer (`Number(null)` is 0). */
    function JsInteger(): Option<int>
    {
      match this
      case Num(n) => Some(n)
      case NumText(n) => Some(n)
      case JsOnlyInt(n) => Some(n)
      case Null => Some(0)
      case _ => None
    }

    /** Python's `int(x)`; `None` where it raises. */
    function PyInt(): Option<int>
    {
      match this
      case Num(n) => Some(n)
      case NumText(n) => Some(n)
      case Frac(w) => Some(w)
      case PyOnlyInt(n) => Some(n)
      case _ => None
    }
  }

  /** A ticket. `completedAt` is an opaque ISO timestamp written by Complete. */
  datatype Ticket = Ticket(id: IdVal, title: string, subtitle: string, completedAt: Option<string>)

  /** `meta`: the allocator cursor (advisory) and the id of the last started ticket. */
  datatype Meta = Meta(nextId: Option<int>, lastStartedId: Option<int>)

  /** What `Number()` makes of a stored amount. */
  datatype Number = Finite(v: real) | NaN

  datatype AmountEntry = AmountEntry(date: string, amount: Number)

  /** The document's `metrics` field: absent, the object holding the amount
      log, or an array of tickets (what a create into a column named
      "metrics" leaves when the field was absent). */
  datatype MetricsField = NoMetrics | Log(amounts: seq<AmountEntry>) | TicketList(tickets: seq<Ticket>)

  /** The whole document, the unit of persistence. Columns are keyed by name;
      a missing key stands for a missing (or null) column. */
  datatype Db = Db(columns: map<string, seq<Ticket>>, meta: Option<Meta>, metrics: MetricsField)

  const Todo := "todo"
  const Doing := "doing"
  const Done := "done"

  /** Largest ticket id; ids live in 1..MaxId. */
  const MaxId := 50

  /** `{ nextId: 1, lastStartedId: null }`, used wherever `meta` is missing. */
  const DefaultMeta := Meta(Some(1), None)

  /** A column as the backend reads it: `db[col] || []`. */
  function Col(db: Db, name: string): seq<Ticket>
  {
    if name in db.columns then db.columns[name] else []
  }

  /** `db.meta || { nextId: 1, lastStartedId: null }`. */
  function MetaOf(db: Db): Meta
  {
    db.meta.GetOr(DefaultMeta)
  }

  /** Property names every JavaScript object inherits from `Object.prototype`:
      `db[name]` is a function (or the prototype) there, never an array. */
  const ObjectPrototypeKeys: set<string> := {
    "constructor", "hasOwnProperty", "isPrototypeOf", "propertyIsEnumerable",
    "toLocaleString", "toString", "valueOf", "__proto__",
    "__defineGetter__", "__defineSetter__", "__lookupGetter__", "__lookupSetter__"
  }

  /** A name under which the document can hold a ticket array of its own. */
  predicate IsColumnKey(name: string)
  {
    name != "meta" && name != "metrics" && name !in ObjectPrototypeKeys
  }

  /** The three board columns are ordinary keys. */
  lemma BoardColumnsAreKeys()
    ensures IsColumnKey(Todo) && IsColumnKey(Doing) && IsColumnKey(Done)
  {
  }
}

=== FILE: card_actions.dfy ===
/** What a card tap does (scripts/read_cards.py): the card's uid is looked
    up in cards.json, the ticket's column is read straight from the
    backend's tickets.json, and the script asks the backend to start a todo
    ticket or complete a doing one, playing a sound when the request
    succeeds. The script compares ids with Python's `int()`, the backend
    with JavaScript's `===`; on a board whose ids are all JSON integers the
    two agree. */
module CardActions {
  import opened Common
  import opened Board
  import opened Columns
  import opened Cards
  import Allocator
  import Server

  /** `load_json_safe(path, default)`: the parsed file, or the default when
      the file is missing, blank or malformed. */
  function LoadJsonSafe<T>(file: FileState<T>, default: T): (r: T)
    ensures file.Holds? ==> r == file.doc
    ensures !file.Holds? ==> r == default
  {
    if file.Holds? then file.doc else default
  }

  /** `uid_to_ticket_id(uid_hex)`: the id of the first card with the uid,
      `Null` (Python's None) when there is none. */
  function UidToTicketId(cards: FileState<CardsDoc>, uid: string): (r: Outcome<IdVal>)
    ensures !cards.Holds? ==> r == Gives(Null)
    ensures cards.Holds? && CardsOf(cards.doc).Gives?
            && (forall j :: 0 <= j < |CardsOf(cards.doc).value| ==>
                  CardsOf(cards.doc).value[j].Card? && !Matches(CardsOf(cards.doc).value[j], uid))
            ==> r == Gives(Null)
    ensures r.Gives? && r.value != Null ==>
              && cards.Holds? && CardsOf(cards.doc).Gives?
              && var cs := CardsOf(cards.doc).value;
                 exists k :: 0 <= k < |cs| && Matches(cs[k], uid) && cs[k].id == r.value
  {
    match CardsOf(LoadJsonSafe(cards, EmptyDoc))
    case Crashes => Crashes
    case Gives(cs) =>
      match FirstCard(cs, uid)
      case Crashes => Crashes
      case Gives(None) => Gives(Null)
      case Gives(Some(k)) => Gives(cs[k].id)
  }

  /** The reading script and the registering script agree on every uid,
      whatever the cards file holds. */
  lemma UidLookupsAgree(cards: FileState<CardsDoc>, uid: string)
    ensures UidToTicketId(cards, uid) == IsCardRegistered(cards, uid)
  {
  }

  /** Some ticket of `s` has an id that `int()` reads as `k`. */
  predicate HasPyId(s: seq<Ticket>, k: int)
  {
    exists j | 0 <= j < |s| :: s[j].id.PyInt() == Some(k)
  }

  /** `find_ticket_column(tickets, ticket_id)`: the first of todo, doing, done
      holding a ticket whose `int(id)` equals `int(ticket_id)`. Tickets whose
      id `int()` rejects are skipped; when it rejects `ticket_id` itself,
      every comparison fails and the answer is None. */
  function FindTicketColumn(tickets: Db, ticketId: IdVal): (r: Option<string>)
    ensures ticketId.PyInt().None? ==> r.None?
    ensures r.Some? ==> r.value in {Todo, Doing, Done} && HasPyId(Col(tickets, r.value), ticketId.PyInt().value)
    ensures ticketId.PyInt().Some? ==> var k := ticketId.PyInt().value;
              && (r == Some(Todo) <==> HasPyId(Col(tickets, Todo), k))
              && (r == Some(Doing) <==> !HasPyId(Col(tickets, Todo), k) && HasPyId(Col(tickets, Doing), k))
              && (r.None? <==> !HasPyId(Col(tickets, Todo), k) && !HasPyId(Col(tickets, Doing), k)
                                && !HasPyId(Col(tickets, Done), k))
  {
    match ticketId.PyInt()
    case None => None
    case Some(k) =>
      if HasPyId(Col(tickets, Todo), k) then Some(Todo)
      else if HasPyId(Col(tickets, Doing), k) then Some(Doing)
      else if HasPyId(Col(tickets, Done), k) then Some(Done)
      else None
  }

  /** Every ticket of the three columns has a JSON integer id. */
  ghost predicate NumericBoard(db: Db)
  {
    forall c, j :: c in {Todo, Doing, Done} && 0 <= j < |Col(db, c)| ==> Col(db, c)[j].id.Num?
  }

  lemma PyIdIsStrictId(s: seq<Ticket>, k: int)
    requires forall j :: 0 <= j < |s| ==> s[j].id.Num?
    ensures HasPyId(s, k) <==> !Lacks(s, k)
  {
    if HasPyId(s, k) {
      var j :| 0 <= j < |s| && s[j].id.PyInt() == Some(k);
      assert s[j].id == Num(k);
    }
  }

  /** On a board of integer ids the script finds a ticket in the same column
      as the backend's `findTicket`. */
  lemma ColumnAgreesWithBackend(db: Db, k: int)
    requires NumericBoard(db)
    ensures FindTicketColumn(db, Num(k)) == if FindTicket(db, k).Some? then Some(FindTicket(db, k).value.col) else None
  {
    assert forall j :: 0 <= j < |Col(db, Todo)| ==> Col(db, Todo)[j].id.Num?;
    assert forall j :: 0 <= j < |Col(db, Doing)| ==> Col(db, Doing)[j].id.Num?;
    assert forall j :: 0 <= j < |Col(db, Done)| ==> Col(db, Done)[j].id.Num?;
    PyIdIsStrictId(Col(db, Todo), k);
    PyIdIsStrictId(Col(db, Doing), k);
    PyIdIsStrictId(Col(db, Done), k);
  }

  /** Off such boards they part: a todo ticket whose id is the text "3" is
      found by the script, which will ask to start it, but not by the
      backend, which answers 404. */
  lemma TextIdDiverges()
    ensures var db := Db(map[Todo := [Ticket(NumText(3), "A", "", None)]], None, NoMetrics);
            && FindTicketColumn(db, Num(3)) == Some(Todo)
            && FindTicket(db, 3).None?
            && Server.StartTicket(db, Some(3)).response.status == 404
  {
    var db := Db(map[Todo := [Ticket(NumText(3), "A", "", None)]], None, NoMetrics);
    assert Col(db, Todo)[0].id.PyInt() == Some(3);
  }

  /** The other way round: a todo ticket whose id is the text "3.0" holds id
      3 for the backend's allocator, but the script, whose `int()` rejects
      the text, never finds it. */
  lemma JsOnlyIdDiverges()
    ensures var db := Db(map[Todo := [Ticket(JsOnlyInt(3), "A", "", None)]], None, NoMetrics);
            && 3 in Allocator.UsedIds(db)
            && FindTicketColumn(db, Num(3)).None?
  {
    var db := Db(map[Todo := [Ticket(JsOnlyInt(3), "A", "", None)]], None, NoMetrics);
    assert Col(db, Todo)[0].id == JsOnlyInt(3);
    assert Allocator.HasValidId(Col(db, Todo), 3);
    Allocator.UsedIdsMeans(db);
  }

  /** And the mirror image: a todo ticket whose id is the text "1_0" is found
      by the script for a card whose id is 10, since `int()` reads the text
      as 10, but the backend, for which `Number("1_0")` is NaN, neither
      counts the id as used nor finds the ticket, and answers 404. */
  lemma PyOnlyIdDiverges()
    ensures var db := Db(map[Todo := [Ticket(PyOnlyInt(10), "A", "", None)]], None, NoMetrics);
            && FindTicketColumn(db, Num(10)) == Some(Todo)
            && 10 !in Allocator.UsedIds(db)
            && Server.StartTicket(db, Some(10)).response.status == 404
  {
    var db := Db(map[Todo := [Ticket(PyOnlyInt(10), "A", "", None)]], None, NoMetrics);
    assert Col(db, Todo)[0].id.PyInt() == Some(10);
    assert !Allocator.HasValidId(Col(db, Todo), 10);
    Allocator.UsedIdsMeans(db);
  }

  /** The request `act_on_ticket` sends: `POST /tickets/{id}/start` or
      `/complete`. */
  datatype Call = StartCall(id: IdVal) | CompleteCall(id: IdVal)

  /** What `requests.post` gave: a response (`ok` when its status is below
      400), or a `RequestException`. */
  datatype HttpReply = Answered(ok: bool) | NetworkError

  /** The strings "start" and "complete" that `act_on_ticket` returns. */
  datatype Action = Started | Completed

  datatype Acted = Acted(call: Option<Call>, result: Option<Action>)

  /** `act_on_ticket(ticket_id, column)`, with the backend's reply to the
      request it sends as a parameter. */
  function ActOnTicket(ticketId: IdVal, column: Option<string>, reply: HttpReply): (r: Acted)
    ensures r.call.Some? <==> column == Some(Todo) || column == Some(Doing)
    ensures column == Some(Todo) ==> r.call == Some(StartCall(ticketId))
    ensures column == Some(Doing) ==> r.call == Some(CompleteCall(ticketId))
    ensures r.result == Some(Started) <==> column == Some(Todo) && reply == Answered(true)
    ensures r.result == Some(Completed) <==> column == Some(Doing) && reply == Answered(true)
  {
    if column == Some(Todo) then
      Acted(Some(StartCall(ticketId)), if reply == Answered(true) then Some(Started) else None)
    else if column == Some(Doing) then
      Acted(Some(CompleteCall(ticketId)), if reply == Answered(true) then Some(Completed) else None)
    else Acted(None, None)
  }

  datatype Sound = StartSound | CompleteSound | Silence

  /** What one tap of a card did: the request sent, if any, and the sound. */
  datatype Tap = Tap(call: Option<Call>, sound: Sound)

  /** The default `{"todo": [], "doing": [], "done": []}` for tickets.json. */
  const EmptyBoard := Db(map[Todo := [], Doing := [], Done := []], None, NoMetrics)

  /** One pass of `main_loop` for a uid that was read: look the card up,
      find its ticket's column, act, and play the matching sound. */
  function HandleUid(cards: FileState<CardsDoc>, tickets: FileState<Db>, uid: string, reply: HttpReply): (r: Outcome<Tap>)
    ensures r.Crashes? <==> UidToTicketId(cards, uid).Crashes?
    ensures r.Gives? && UidToTicketId(cards, uid).value == Null ==> r.value == Tap(None, Silence)
    ensures r.Gives? && UidToTicketId(cards, uid).value != Null ==>
              var id := UidToTicketId(cards, uid).value;
              var col := FindTicketColumn(LoadJsonSafe(tickets, EmptyBoard), id);
              && (col == Some(Todo) ==> r.value.call == Some(StartCall(id)))
              && (col == Some(Doing) ==> r.value.call == Some(CompleteCall(id)))
              && (col != Some(Todo) && col != Some(Doing) ==> r.value == Tap(None, Silence))
  {
    match UidToTicketId(cards, uid)
    case Crashes => Crashes
    case Gives(id) =>
      if id == Null then Gives(Tap(None, Silence))
      else
        var acted := ActOnTicket(id, FindTicketColumn(LoadJsonSafe(tickets, EmptyBoard), id), reply);
        Gives(Tap(acted.call, match acted.result
                              case Some(Started) => StartSound
                              case Some(Completed) => CompleteSound
                              case None => Silence))
  }

  /** The start sound plays exactly when a start request was sent and
      answered ok, the complete sound exactly when a complete request was;
      a sound never plays without a request. */
  lemma SoundMeansSuccess(cards: FileState<CardsDoc>, tickets: FileState<Db>, uid: string, reply: HttpReply)
    requires HandleUid(cards, tickets, uid, reply).Gives?
    ensures var t := HandleUid(cards, tickets, uid, reply).value;
            var id := UidToTicketId(cards, uid).value;
            && (t.sound == StartSound <==> t.call == Some(StartCall(id)) && reply == Answered(true))
            && (t.sound == CompleteSound <==> t.call == Some(CompleteCall(id)) && reply == Answered(true))
            && (t.call.None? ==> t.sound == Silence)
  {
  }

  /** The backend's answer to a call, when the id in the URL is the integer `k`. */
  function Served(db: Db, call: Call, k: int): Server.Reply
  {
    match call
    case StartCall(_) => Server.StartTicket(db, Some(k))
    case CompleteCall(_) => Server.CompleteTicket(db, Some(k), "now")
  }

  /** End to end, on a board of integer ids that tickets.json shows as the
      backend stores it: a tap plays the start sound exactly when the ticket
      was first found in todo, and the backend then moved it to doing; it
      plays the complete sound exactly when the ticket was in doing. */
  lemma TapMatchesBackend(cards: FileState<CardsDoc>, db: Db, uid: string, k: int)
    requires UidToTicketId(cards, uid) == Gives(Num(k)) && NumericBoard(db)
    ensures var col := FindTicketColumn(db, Num(k));
            var call := ActOnTicket(Num(k), col, NetworkError).call;
            var reply := if call.Some? then Answered(Served(db, call.value, k).response.status < 400) else NetworkError;
            var t := HandleUid(cards, Holds(db), uid, reply).value;
            && (t.sound == StartSound <==> FindTicket(db, k).Some? && FindTicket(db, k).value.col == Todo)
            && (t.sound == CompleteSound <==> FindTicket(db, k).Some? && FindTicket(db, k).value.col == Doing)
            && (t.sound == StartSound ==> Col(Served(db, call.value, k).stored, Doing) == Col(db, Doing) + [FindTicket(db, k).value.ticket])
  {
    ColumnAgreesWithBackend(db, k);
  }
}

=== FILE: cards.dfy ===
/** The card registry kept by scripts/add_new_cards.py in cards.json: a
    list of `{ id, uid }` records. A uid already present is not registered
    again; a new one gets the largest integer id plus one. The file may be
    missing, blank or malformed, and its JSON need not have the expected
    shape; where the script's Python would raise, the model says `Crashes`. */
module Cards {
  import opened Common
  import opened Board

  /** One element of the `cards` list: an object with an `id` (a JSON value,
      `Null` when absent) and a `uid` (None when absent or not a string), or
      a value that is not an object, whose `.get` raises. */
  datatype CardEntry = Card(id: IdVal, uid: Option<string>) | NonObject

  /** The top-level `cards` field: absent, a list, or some other value;
      iterating that other value is taken to raise. */
  datatype CardsField = Absent | CardList(entries: seq<CardEntry>) | NotAList

  /** The parsed document: an object (only its `cards` field matters; other
      keys are written back unchanged), or some other JSON value. */
  datatype CardsDoc = CardsObject(cards: CardsField) | NotAnObject

  /** A Python computation that returns a value or raises. */
  datatype Outcome<T> = Crashes | Gives(value: T)

  const EmptyDoc := CardsObject(CardList([]))

  /** `_load_db`: the document when it is an object with a list of cards,
      `{"cards": []}` for anything else (a missing file is created empty). */
  function LoadDb(file: FileState<CardsDoc>): (r: CardsDoc)
    ensures r.CardsObject? && r.cards.CardList?
    ensures file.Holds? && file.doc.CardsObject? && file.doc.cards.CardList? ==> r == file.doc
    ensures !(file.Holds? && file.doc.CardsObject? && file.doc.cards.CardList?) ==> r == EmptyDoc
  {
    match file
    case Holds(CardsObject(CardList(cs))) => CardsObject(CardList(cs))
    case _ => EmptyDoc
  }

  /** Loading what `_load_db` produced gives it back unchanged. */
  lemma LoadDbIdempotent(file: FileState<CardsDoc>)
    ensures LoadDb(Holds(LoadDb(file))) == LoadDb(file)
  {
  }

  /** `data.get("cards", [])`, as far as iterating it goes. */
  function CardsOf(doc: CardsDoc): (r: Outcome<seq<CardEntry>>)
    ensures r.Crashes? <==> doc.NotAnObject? || doc.cards.NotAList?
    ensures doc == CardsObject(Absent) ==> r == Gives([])
    ensures doc.CardsObject? && doc.cards.CardList? ==> r == Gives(doc.cards.entries)
  {
    match doc
    case NotAnObject => Crashes
    case CardsObject(Absent) => Gives([])
    case CardsObject(NotAList) => Crashes
    case CardsObject(CardList(cs)) => Gives(cs)
  }

  /** `c.get("uid") == uid`. */
  predicate Matches(c: CardEntry, uid: string)
  {
    c.Card? && c.uid == Some(uid)
  }

  /** The loop `for c in cards: if c.get("uid") == uid: ...` from position `i`:
      the position of the first matching card, None when there is none, and
      `Crashes` when a non-object comes first. */
  function FirstCardFrom(cs: seq<CardEntry>, uid: string, i: nat): (r: Outcome<Option<nat>>)
    requires i <= |cs|
    ensures r == Gives(None) <==> forall j :: i <= j < |cs| ==> cs[j].Card? && !Matches(cs[j], uid)
    ensures r.Gives? && r.value.Some? ==> var k := r.value.value;
              i <= k < |cs| && Matches(cs[k], uid) && forall j :: i <= j < k ==> cs[j].Card? && !Matches(cs[j], uid)
    ensures r.Crashes? ==> exists k :: i <= k < |cs| && cs[k].NonObject? && forall j :: i <= j < k ==> !Matches(cs[j], uid)
    decreases |cs| - i
  {
    if i == |cs| then Gives(None)
    else if cs[i].NonObject? then Crashes
    else if Matches(cs[i], uid) then Gives(Some(i))
    else FirstCardFrom(cs, uid, i + 1)
  }

  function FirstCard(cs: seq<CardEntry>, uid: string): Outcome<Option<nat>>
  {
    FirstCardFrom(cs, uid, 0)
  }

  /** `is_card_registered(uid)` against the file's contents: the id of the
      first card with that uid (`Null` standing for Python's None, which is
      also what a card without an id yields), None for a missing, blank or
      malformed file. */
  function IsCardRegistered(file: FileState<CardsDoc>, uid: string): (r: Outcome<IdVal>)
    ensures !file.Holds? ==> r == Gives(Null)
    ensures r.Crashes? <==> file.Holds? && (CardsOf(file.doc).Crashes? || FirstCard(CardsOf(file.doc).value, uid).Crashes?)
    ensures file.Holds? && CardsOf(file.doc).Gives? && FirstCard(CardsOf(file.doc).value, uid) == Gives(None) ==>
              r == Gives(Null)
    ensures file.Holds? && CardsOf(file.doc).Gives? && FirstCard(CardsOf(file.doc).value, uid).Gives? ==>
              var cs := CardsOf(file.doc).value;
              var k := FirstCard(cs, uid).value;
              k.Some? ==> r == Gives(cs[k.value].id)
    ensures r.Gives? && r.value != Null ==>
              file.Holds? && CardsOf(file.doc).Gives? && FirstCard(CardsOf(file.doc).value, uid).Gives?
              && var cs := CardsOf(file.doc).value;
                 var k := FirstCard(cs, uid).value;
                 k.Some? && cs[k.value].id == r.value
  {
    match file
    case Holds(doc) =>
      (match CardsOf(doc)
       case Crashes => Crashes
       case Gives(cs) =>
         match FirstCard(cs, uid)
         case Crashes => Crashes
         case Gives(None) => Gives(Null)
         case Gives(Some(k)) => Gives(cs[k].id))
    case _ => Gives(Null)
  }

  /** The card holds an integer id (`isinstance(c.get("id"), int)`). */
  predicate HasIntId(c: CardEntry)
  {
    c.Card? && c.id.Num?
  }

  /** The largest integer id among the cards, None when there is none. */
  function MaxIntId(cs: seq<CardEntry>): (r: Option<int>)
    ensures r.None? <==> forall i :: 0 <= i < |cs| ==> !HasIntId(cs[i])
    ensures r.Some? ==> exists i :: 0 <= i < |cs| && cs[i].Card? && cs[i].id == Num(r.value)
    ensures r.Some? ==> forall i :: 0 <= i < |cs| && HasIntId(cs[i]) ==> cs[i].id.n <= r.value
  {
    if |cs| == 0 then None
    else
      var last := cs[|cs| - 1];
      var before := MaxIntId(cs[..|cs| - 1]);
      assert forall i :: 0 <= i < |cs| - 1 ==> cs[..|cs| - 1][i] == cs[i];
      if !HasIntId(last) then before
      else if before.Some? && before.value >= last.id.n then before
      else Some(last.id.n)
  }

  /** `get_next_card_id(data)` on the cards of `data`: the largest integer id
      plus one, or 1 when no card has an integer id; the comprehension calls
      `.get` on every element, so a non-object anywhere raises. */
  function NextCardId(cs: seq<CardEntry>): (r: Outcome<int>)
    ensures r.Crashes? <==> exists i :: 0 <= i < |cs| && cs[i].NonObject?
    ensures r.Gives? ==> forall i :: 0 <= i < |cs| && HasIntId(cs[i]) ==> cs[i].id.n < r.value
    ensures r.Gives? && (forall i :: 0 <= i < |cs| ==> !HasIntId(cs[i])) ==> r.value == 1
    ensures r.Gives? && (exists i :: 0 <= i < |cs| && HasIntId(cs[i])) ==>
              exists i :: 0 <= i < |cs| && cs[i].Card? && cs[i].id == Num(r.value - 1)
  {
    if exists i | 0 <= i < |cs| :: cs[i].NonObject? then Crashes
    else
      match MaxIntId(cs)
      case None => Gives(1)
      case Some(m) => Gives(m + 1)
  }

  /** `get_next_card_id()` reading the file itself: 1 for a missing, blank or
      malformed file. */
  function NextCardIdFromFile(file: FileState<CardsDoc>): (r: Outcome<int>)
    ensures !file.Holds? ==> r == Gives(1)
    ensures file.Holds? && CardsOf(file.doc).Gives? ==> r == NextCardId(CardsOf(file.doc).value)
    ensures file.Holds? && CardsOf(file.doc).Crashes? ==> r.Crashes?
  {
    match file
    case Holds(doc) =>
      (match CardsOf(doc)
       case Crashes => Crashes
       case Gives(cs) => NextCardId(cs))
    case _ => Gives(1)
  }

  /** What `register_new_card(uid)` did: raised, found the uid already
      registered under `id` (nothing written), or wrote `doc`, whose last card
      is the new one. */
  datatype Registration = Crashed | AlreadyRegistered(id: IdVal) | Registered(doc: CardsDoc, card: CardEntry)

  /** `register_new_card(uid)`. */
  function RegisterNewCard(file: FileState<CardsDoc>, uid: string): (r: Registration)
    ensures IsCardRegistered(file, uid).Crashes? ==> r == Crashed
    ensures IsCardRegistered(file, uid).Gives? && IsCardRegistered(file, uid).value != Null ==>
              r == AlreadyRegistered(IsCardRegistered(file, uid).value)
    ensures r.Registered? <==> IsCardRegistered(file, uid) == Gives(Null) && NextCardId(ListOf(file)).Gives?
    ensures r.Crashed? <==> IsCardRegistered(file, uid).Crashes?
                            || (IsCardRegistered(file, uid) == Gives(Null) && NextCardId(ListOf(file)).Crashes?)
    ensures r.Registered? ==> r.card == Card(Num(NextCardId(ListOf(file)).value), Some(uid))
  {
    match IsCardRegistered(file, uid)
    case Crashes => Crashed
    case Gives(found) =>
      if found != Null then AlreadyRegistered(found)
      else
        var data := if file.Holds? then file.doc else EmptyDoc;
        match CardsOf(data)
        case Crashes => Crashed
        case Gives(cs) =>
          match NextCardId(cs)
          case Crashes => Crashed
          case Gives(n) =>
            var card := Card(Num(n), Some(uid));
            Registered(CardsObject(CardList(cs + [card])), card)
  }

  /** The list a registration appends to: the file's cards, or a new list. */
  function ListOf(file: FileState<CardsDoc>): seq<CardEntry>
  {
    if file.Holds? && CardsOf(file.doc).Gives? then CardsOf(file.doc).value else []
  }

  /** A registration appends exactly one card `{ id, uid }` at the end: the
      earlier cards stay as they were, and the new id exceeds every integer id
      in the list (it is 1 on an empty list). */
  lemma RegisterAppends(file: FileState<CardsDoc>, uid: string)
    requires RegisterNewCard(file, uid).Registered?
    ensures var r := RegisterNewCard(file, uid);
            var cs := ListOf(file);
            && (file.Holds? ==> CardsOf(file.doc).Gives?)
            && r.card.Card? && r.card.uid == Some(uid) && r.card.id.Num?
            && r.doc == CardsObject(CardList(cs + [r.card]))
            && (forall i :: 0 <= i < |cs| && HasIntId(cs[i]) ==> cs[i].id.n < r.card.id.n)
            && (cs == [] ==> r.card.id == Num(1))
  {
  }

  /** After a registration that found no card with the uid, looking the uid
      up in the written file yields the new id, and registering it again is
      refused: registration is idempotent. */
  lemma RegisterThenRegistered(file: FileState<CardsDoc>, uid: string)
    requires RegisterNewCard(file, uid).Registered?
    requires file.Holds? ==> FirstCard(CardsOf(file.doc).value, uid) == Gives(None)
    ensures var r := RegisterNewCard(file, uid);
            && IsCardRegistered(Holds(r.doc), uid) == Gives(r.card.id)
            && RegisterNewCard(Holds(r.doc), uid) == AlreadyRegistered(r.card.id)
  {
    var r := RegisterNewCard(file, uid);
    RegisterAppends(file, uid);
    var cs := ListOf(file);
    if file.Holds? {
      assert cs == CardsOf(file.doc).value;
    } else {
      assert cs == [];
    }
    assert FirstCard(cs, uid) == Gives(None);
    var cs' := cs + [r.card];
    forall j | 0 <= j < |cs| ensures cs'[j].Card? && !Matches(cs'[j], uid) {
      assert cs'[j] == cs[j];
    }
    assert cs'[|cs|].Card? && Matches(cs'[|cs|], uid);
    FirstMatchFound(cs', uid, 0, |cs|);
  }

  /** The scan from `i` stops at the first matching card `k` when every card
      before it is an object that does not match. */
  lemma {:induction false} FirstMatchFound(cs: seq<CardEntry>, uid: string, i: nat, k: nat)
    requires i <= k < |cs| && Matches(cs[k], uid)
    requires forall j :: i <= j < k ==> cs[j].Card? && !Matches(cs[j], uid)
    ensures FirstCardFrom(cs, uid, i) == Gives(Some(k))
    decreases k - i
  {
    if i < k {
      FirstMatchFound(cs, uid, i + 1, k);
    }
  }

  /** The scan from `i` reaches a match no later than `k` when `cs[k]`
      matches and every entry before it is an object. */
  lemma {:induction false} ScanReaches(cs: seq<CardEntry>, uid: string, i: nat, k: nat)
    requires i <= k < |cs| && Matches(cs[k], uid)
    requires forall j :: i <= j < k ==> cs[j].Card?
    ensures FirstCardFrom(cs, uid, i).Gives? && FirstCardFrom(cs, uid, i).value.Some?
    ensures FirstCardFrom(cs, uid, i).value.value <= k
    decreases k - i
  {
    if i < k && !Matches(cs[i], uid) {
      ScanReaches(cs, uid, i + 1, k);
    }
  }

  /** A uid that a card of the file carries is found: the lookup answers
      with the id of the first card carrying it, which lies no later than
      that card, provided no non-object comes before it. */
  lemma PresentIsFound(doc: CardsDoc, uid: string, k: nat)
    requires CardsOf(doc).Gives? && k < |CardsOf(doc).value| && Matches(CardsOf(doc).value[k], uid)
    requires forall j :: 0 <= j < k ==> CardsOf(doc).value[j].Card?
    ensures var cs := CardsOf(doc).value;
            var f := FirstCard(cs, uid);
            && f.Gives? && f.value.Some? && f.value.value <= k && Matches(cs[f.value.value], uid)
            && IsCardRegistered(Holds(doc), uid) == Gives(cs[f.value.value].id)
  {
    ScanReaches(CardsOf(doc).value, uid, 0, k);
  }

  /** A uid that no card of a readable list carries is registered: the new
      card `{ id: max + 1, uid }` is appended to the list. */
  lemma UnknownIsRegistered(file: FileState<CardsDoc>, uid: string)
    requires file.Holds? ==> CardsOf(file.doc).Gives?
    requires forall j :: 0 <= j < |ListOf(file)| ==> ListOf(file)[j].Card? && !Matches(ListOf(file)[j], uid)
    ensures var cs := ListOf(file);
            && NextCardId(cs).Gives?
            && var card := Card(Num(NextCardId(cs).value), Some(uid));
               RegisterNewCard(file, uid) == Registered(CardsObject(CardList(cs + [card])), card)
  {
    var cs := ListOf(file);
    assert FirstCard(cs, uid) == Gives(None);
  }

  /** A card stored without an id makes its uid look unregistered (the lookup
      returns None), so presenting that card again adds a second record. */
  lemma NullIdCardIsDuplicated(uid: string)
    ensures var file := Holds(CardsObject(CardList([Card(Null, Some(uid))])));
            RegisterNewCard(file, uid) == Registered(
              CardsObject(CardList([Card(Null, Some(uid)), Card(Num(1), Some(uid))])), Card(Num(1), Some(uid)))
  {
    var cs := [Card(Null, Some(uid))];
    assert FirstCardFrom(cs, uid, 0) == Gives(Some(0));
    assert !HasIntId(cs[0]) && cs[0].Card?;
    assert NextCardId(cs) == Gives(1);
    assert cs + [Card(Num(1), Some(uid))] == [Card(Null, Some(uid)), Card(Num(1), Some(uid))];
  }
}

=== FILE: client_tickets.dfy ===
/** The browser's copy of the board (frontend/src/composables/useTickets.js).
    Each action sends one request and, only when the response is ok, edits
    the local lists the way the backend is expected to have edited its
    document. The response is a parameter; the lemmas compare the local
    lists with what the backend routes of `Server` actually store. */
module ClientTickets {
  import opened Common
  import opened Board
  import opened Allocator
  import opened Columns
  import Server

  /** `res.ok`: a status from 200 to 299. */
  predicate IsOk(status: int)
  {
    200 <= status <= 299
  }

  /** A fetched response: not ok (the action throws), or ok with its JSON body. */
  datatype Fetched<T> = NotOk | Ok(body: T)

  /** The refs `todo`, `doing`, `done` and `lastStartedId`. */
  datatype ClientBoard = ClientBoard(todo: seq<Ticket>, doing: seq<Ticket>, done: seq<Ticket>, lastStartedId: Option<int>)

  /** The lists once an action has settled, and whether it threw. */
  datatype Settled = Settled(board: ClientBoard, threw: bool)

  /** The body of GET /tickets as read by the client: a column that is
      missing or null is None. */
  datatype BoardJson = BoardJson(todo: Option<seq<Ticket>>, doing: Option<seq<Ticket>>, done: Option<seq<Ticket>>)

  /** The body the backend's GET /tickets sends for the stored document. */
  function Listed(db: Db): BoardJson
  {
    var b := Server.ListTickets(db).response.body;
    BoardJson(Some(b.todo), Some(b.doing), Some(b.done))
  }

  /** `loadAll`: every list replaced by the response's column, `[]` for a
      missing one. */
  function LoadAll(c: ClientBoard, reply: Fetched<BoardJson>): (r: Settled)
    ensures r.threw <==> reply.NotOk?
    ensures reply.NotOk? ==> r.board == c
    ensures reply.Ok? ==> r.board.lastStartedId == c.lastStartedId
    ensures reply.Ok? && reply.body.todo.None? ==> r.board.todo == []
    ensures reply.Ok? && reply.body.doing.None? ==> r.board.doing == []
    ensures reply.Ok? && reply.body.done.None? ==> r.board.done == []
    ensures reply.Ok? && reply.body.todo.Some? ==> r.board.todo == reply.body.todo.value
    ensures reply.Ok? && reply.body.doing.Some? ==> r.board.doing == reply.body.doing.value
    ensures reply.Ok? && reply.body.done.Some? ==> r.board.done == reply.body.done.value
  {
    match reply
    case NotOk => Settled(c, true)
    case Ok(b) => Settled(c.(todo := b.todo.GetOr([]), doing := b.doing.GetOr([]), done := b.done.GetOr([])), false)
  }

  /** `loadMeta`: `lastStartedId` from GET /meta; a falsy value (null or 0)
      becomes null. */
  function LoadMeta(c: ClientBoard, reply: Fetched<Option<int>>): (r: Settled)
    ensures r.threw <==> reply.NotOk?
    ensures reply.NotOk? ==> r.board == c
    ensures reply.Ok? ==> r.board == c.(lastStartedId := r.board.lastStartedId)
    ensures reply.Ok? ==> (r.board.lastStartedId.None? <==> reply.body.None? || reply.body.value == 0)
    ensures reply.Ok? && r.board.lastStartedId.Some? ==> r.board.lastStartedId == reply.body
  {
    match reply
    case NotOk => Settled(c, true)
    case Ok(v) => Settled(c.(lastStartedId := if v.Some? && v.value != 0 then v else None), false)
  }

  /** `addTicket({ title, subtitle, column })`: the ticket the backend
      returned is pushed onto `todo`, onto `doing`, or, for any other column
      name, onto `done`. */
  function AddTicket(c: ClientBoard, column: string, reply: Fetched<Ticket>): (r: Settled)
    ensures r.threw <==> reply.NotOk?
    ensures reply.NotOk? ==> r.board == c
    ensures reply.Ok? ==> r.board.lastStartedId == c.lastStartedId
    ensures reply.Ok? ==> multiset(r.board.todo + r.board.doing + r.board.done)
                          == multiset(c.todo + c.doing + c.done) + multiset{reply.body}
    ensures reply.Ok? && column == Todo ==> r.board.todo == c.todo + [reply.body] && r.board.doing == c.doing && r.board.done == c.done
    ensures reply.Ok? && column == Doing ==> r.board.todo == c.todo && r.board.doing == c.doing + [reply.body] && r.board.done == c.done
    ensures reply.Ok? && column != Todo && column != Doing ==>
              r.board.todo == c.todo && r.board.doing == c.doing && r.board.done == c.done + [reply.body]
  {
    match reply
    case NotOk => Settled(c, true)
    case Ok(t) =>
      if column == Todo then Settled(c.(todo := c.todo + [t]), false)
      else if column == Doing then Settled(c.(doing := c.doing + [t]), false)
      else Settled(c.(done := c.done + [t]), false)
  }

  /** `findIndex(t => t.id === id)` then `splice(i, 1)` when found: a list
      without the id is kept, and otherwise exactly the earliest ticket with
      the id goes, the others keeping their order. */
  function RemoveFirst(s: seq<Ticket>, k: int): (r: seq<Ticket>)
    ensures Lacks(s, k) ==> r == s
    ensures !Lacks(s, k) ==> r == RemoveAt(s, FirstIndex(s, k).value)
    ensures !Lacks(s, k) ==>
              exists i :: 0 <= i < |s| && s[i].id == Num(k) && Lacks(s[..i], k) && r == s[..i] + s[i + 1..]
  {
    match FirstIndex(s, k)
    case None => s
    case Some(i) => RemoveAt(s, i)
  }

  /** `deleteTicket(id)`: the first ticket with the id leaves each of the
      three lists, independently; nothing else moves. */
  function DeleteTicket(c: ClientBoard, k: int, ok: bool): (r: Settled)
    ensures r.threw <==> !ok
    ensures !ok ==> r.board == c
    ensures ok ==> r.board == ClientBoard(RemoveFirst(c.todo, k), RemoveFirst(c.doing, k), RemoveFirst(c.done, k), c.lastStartedId)
  {
    if !ok then Settled(c, true)
    else Settled(c.(todo := RemoveFirst(c.todo, k), doing := RemoveFirst(c.doing, k), done := RemoveFirst(c.done, k)), false)
  }

  /** `startTicket(id)`: the first todo ticket with the id moves to the end
      of `doing`; `lastStartedId` becomes the id even when no ticket moved. */
  function StartTicket(c: ClientBoard, k: int, ok: bool): (r: Settled)
    ensures r.threw <==> !ok
    ensures !ok ==> r.board == c
    ensures ok ==> r.board.lastStartedId == Some(k) && r.board.done == c.done
    ensures ok ==> multiset(r.board.todo) + multiset(r.board.doing) == multiset(c.todo) + multiset(c.doing)
    ensures ok && Lacks(c.todo, k) ==> r.board.todo == c.todo && r.board.doing == c.doing
    ensures ok && !Lacks(c.todo, k) ==> var i := FirstIndex(c.todo, k).value;
              r.board.todo == RemoveAt(c.todo, i) && r.board.doing == c.doing + [c.todo[i]]
  {
    if !ok then Settled(c, true)
    else
      match FirstIndex(c.todo, k)
      case None => Settled(c.(lastStartedId := Some(k)), false)
      case Some(i) => Settled(c.(todo := RemoveAt(c.todo, i), doing := c.doing + [c.todo[i]], lastStartedId := Some(k)), false)
  }

  /** `completeTicket(id)`: the first doing ticket with the id moves to the
      end of `done`, as the client last saw it. */
  function CompleteTicket(c: ClientBoard, k: int, ok: bool): (r: Settled)
    ensures r.threw <==> !ok
    ensures !ok ==> r.board == c
    ensures ok ==> r.board.lastStartedId == c.lastStartedId && r.board.todo == c.todo
    ensures ok ==> multiset(r.board.doing) + multiset(r.board.done) == multiset(c.doing) + multiset(c.done)
    ensures ok && Lacks(c.doing, k) ==> r.board.doing == c.doing && r.board.done == c.done
    ensures ok && !Lacks(c.doing, k) ==> var i := FirstIndex(c.doing, k).value;
              r.board.doing == RemoveAt(c.doing, i) && r.board.done == c.done + [c.doing[i]]
  {
    if !ok then Settled(c, true)
    else
      match FirstIndex(c.doing, k)
      case None => Settled(c, false)
      case Some(i) => Settled(c.(doing := RemoveAt(c.doing, i), done := c.done + [c.doing[i]]), false)
  }

  // ------------------------------------------- agreement with the backend

  /** A ticket without its completion time. */
  function Unstamped(t: Ticket): Ticket
  {
    t.(completedAt := None)
  }

  /** Two lists of the same tickets in the same order, completion times aside. */
  predicate SameUpToStamps(a: seq<Ticket>, b: seq<Ticket>)
  {
    |a| == |b| && forall i :: 0 <= i < |a| ==> Unstamped(a[i]) == Unstamped(b[i])
  }

  /** The client's lists show the stored columns; only the completion times
      of done tickets may be missing, since the client never learns them
      until it reloads. */
  predicate Agrees(c: ClientBoard, db: Db)
  {
    c.todo == Col(db, Todo) && c.doing == Col(db, Doing) && SameUpToStamps(c.done, Col(db, Done))
  }

  lemma {:induction false} SameIdsSameIndexFrom(a: seq<Ticket>, b: seq<Ticket>, k: int, i: nat)
    requires SameUpToStamps(a, b) && i <= |a|
    ensures FirstIndexFrom(a, k, i) == FirstIndexFrom(b, k, i)
    decreases |a| - i
  {
    if i < |a| {
      assert a[i].id == Unstamped(a[i]).id == Unstamped(b[i]).id == b[i].id;
      SameIdsSameIndexFrom(a, b, k, i + 1);
    }
  }

  /** Lists equal up to completion times find the same position for an id. */
  lemma SameIdsSameIndex(a: seq<Ticket>, b: seq<Ticket>, k: int)
    requires SameUpToStamps(a, b)
    ensures FirstIndex(a, k) == FirstIndex(b, k)
    ensures Lacks(a, k) <==> Lacks(b, k)
  {
    SameIdsSameIndexFrom(a, b, k, 0);
  }

  /** A reload makes the client show exactly what is stored. */
  lemma LoadAllMirrors(c: ClientBoard, db: Db)
    ensures var r := LoadAll(c, Ok(Listed(db)));
            && !r.threw
            && r.board == ClientBoard(Col(db, Todo), Col(db, Doing), Col(db, Done), c.lastStartedId)
            && Agrees(r.board, db)
  {
  }

  /** `loadMeta` shows the id the backend last started, except an id 0. */
  lemma LoadMetaMirrors(c: ClientBoard, db: Db)
    ensures var v := Server.ReadMeta(db).response.body.lastStartedId;
            var r := LoadMeta(c, Ok(v));
            && r.board.lastStartedId == (if v == Some(0) then None else v)
            && (db.meta.Some? && db.meta.value.lastStartedId.Some? && db.meta.value.lastStartedId.value != 0 ==>
                  r.board.lastStartedId == db.meta.value.lastStartedId)
  {
  }

  /** What `addTicket` reads from the backend's answer to POST /tickets:
      the created ticket when the status is ok, otherwise nothing. */
  function Returned(resp: Server.Response): (r: Fetched<Ticket>)
    ensures r.Ok? <==> IsOk(resp.status) && resp.body.TicketBody?
  {
    if IsOk(resp.status) && resp.body.TicketBody? then Ok(resp.body.ticket) else NotOk
  }

  lemma AppendKeepsStamps(a: seq<Ticket>, b: seq<Ticket>, t: Ticket)
    requires SameUpToStamps(a, b)
    ensures SameUpToStamps(a + [t], b + [t])
  {
  }

  /** An accepted create: the backend appends the ticket it returns to the
      named column, and so does the client. */
  lemma AddAcceptedMirrors(c: ClientBoard, db: Db, title: string, subtitle: string, column: string)
    requires Agrees(c, db) && (column == Todo || column == Doing || column == Done)
    requires title != "" && |UsedIds(db)| < MaxId
    ensures var r := Server.CreateTicket(db, Some(title), Some(subtitle), Some(column));
            var s := AddTicket(c, column, Returned(r.response));
            Agrees(s.board, r.stored)
  {
    BoardColumnsAreKeys();
    Server.CreateAppends(db, title, Some(subtitle), Some(column));
    var r := Server.CreateTicket(db, Some(title), Some(subtitle), Some(column));
    var t := r.response.body.ticket;
    assert Returned(r.response) == Ok(t);
    AppendMirrors(c, db, r.stored, column, t);
  }

  /** When the backend appends `t` to one of the three columns and leaves
      the other two, the client's own append keeps it in agreement. */
  lemma AppendMirrors(c: ClientBoard, db: Db, d: Db, column: string, t: Ticket)
    requires Agrees(c, db) && (column == Todo || column == Doing || column == Done)
    requires Col(d, column) == Col(db, column) + [t]
    requires forall k :: k != column ==> Col(d, k) == Col(db, k)
    ensures Agrees(AddTicket(c, column, Ok(t)).board, d)
  {
    if column == Done {
      AppendKeepsStamps(c.done, Col(db, Done), t);
    }
  }

  /** Creating into todo, doing or done keeps the client in agreement,
      whether the backend accepts the ticket (201) or refuses it (400, 409). */
  lemma AddMirrors(c: ClientBoard, db: Db, title: Option<string>, subtitle: string, column: string)
    requires Agrees(c, db) && (column == Todo || column == Doing || column == Done)
    ensures var r := Server.CreateTicket(db, title, Some(subtitle), Some(column));
            var s := AddTicket(c, column, Returned(r.response));
            Agrees(s.board, r.stored) && (s.threw <==> r.response.status != 201)
  {
    BoardColumnsAreKeys();
    if title.Some? && title.value != "" && |UsedIds(db)| < MaxId {
      Server.CreateAppends(db, title.value, Some(subtitle), Some(column));
      AddAcceptedMirrors(c, db, title.value, subtitle, column);
    } else if title.Some? && title.value != "" {
      UsedCountBound(db);
    }
  }

  /** Creating into any other column: the backend stores the ticket under
      that name, but the client pushes it onto `done`, and the two part. */
  lemma AddElsewhereDiverges(c: ClientBoard, db: Db, title: string, subtitle: string, column: string)
    requires Agrees(c, db) && title != "" && |UsedIds(db)| < MaxId
    requires IsColumnKey(column) && column !in {Todo, Doing, Done}
    ensures var r := Server.CreateTicket(db, Some(title), Some(subtitle), Some(column));
            var s := AddTicket(c, column, Returned(r.response));
            && r.response.status == 201
            && Col(r.stored, Done) == Col(db, Done)
            && |s.board.done| == |Col(r.stored, Done)| + 1
            && !Agrees(s.board, r.stored)
  {
    Server.CreateAppends(db, title, Some(subtitle), Some(column));
  }

  /** The id is held by at most one of the three columns. */
  predicate InAtMostOneColumn(db: Db, k: int)
  {
    && (!Lacks(Col(db, Todo), k) ==> Lacks(Col(db, Doing), k) && Lacks(Col(db, Done), k))
    && (!Lacks(Col(db, Doing), k) ==> Lacks(Col(db, Done), k))
  }

  lemma RemoveAtKeepsStamps(a: seq<Ticket>, b: seq<Ticket>, i: nat)
    requires SameUpToStamps(a, b) && i < |a|
    ensures SameUpToStamps(RemoveAt(a, i), RemoveAt(b, i))
  {
  }

  /** Deleting an id that one column holds keeps the client in agreement;
      the client throws exactly when the backend refuses (400, 404). */
  lemma DeleteMirrors(c: ClientBoard, db: Db, k: int)
    requires Agrees(c, db) && InAtMostOneColumn(db, k)
    ensures var r := Server.DeleteTicket(db, Some(k));
            var s := DeleteTicket(c, k, IsOk(r.response.status));
            Agrees(s.board, r.stored) && (s.threw <==> r.response.status != 200)
  {
    SameIdsSameIndex(c.done, Col(db, Done), k);
    var f := FindTicket(db, k);
    if 1 <= k <= MaxId && f.Some? && f.value.col == Done {
      RemoveAtKeepsStamps(c.done, Col(db, Done), f.value.idx);
    }
  }

  /** An id held by todo and by done (done ids are handed out again): the
      backend deletes only the todo ticket, the client both. */
  lemma DeleteDiverges(c: ClientBoard, db: Db, k: int)
    requires Agrees(c, db) && 1 <= k <= MaxId
    requires !Lacks(Col(db, Todo), k) && !Lacks(Col(db, Done), k)
    ensures var r := Server.DeleteTicket(db, Some(k));
            var s := DeleteTicket(c, k, IsOk(r.response.status));
            && r.response.status == 200
            && Col(r.stored, Done) == Col(db, Done)
            && |s.board.done| == |Col(r.stored, Done)| - 1
            && !Agrees(s.board, r.stored)
  {
    SameIdsSameIndex(c.done, Col(db, Done), k);
  }

  /** Starting keeps the client in agreement, and after a successful start
      the client's `lastStartedId` is the one the backend stored. */
  lemma StartMirrors(c: ClientBoard, db: Db, k: int)
    requires Agrees(c, db)
    ensures var r := Server.StartTicket(db, Some(k));
            var s := StartTicket(c, k, IsOk(r.response.status));
            && Agrees(s.board, r.stored)
            && (s.threw <==> r.response.status != 200)
            && (!s.threw ==> r.stored.meta.Some? && s.board.lastStartedId == r.stored.meta.value.lastStartedId == Some(k))
  {
  }

  /** Completing keeps the client in agreement up to the completion time:
      the ticket the client adds to `done` lacks the stamp the backend
      stored. */
  lemma CompleteMirrors(c: ClientBoard, db: Db, k: int, now: string)
    requires Agrees(c, db)
    ensures var r := Server.CompleteTicket(db, Some(k), now);
            var s := CompleteTicket(c, k, IsOk(r.response.status));
            && Agrees(s.board, r.stored)
            && (s.threw <==> r.response.status != 200)
            && (!s.threw ==> var n := |s.board.done|;
                  && n > 0 && n == |Col(r.stored, Done)|
                  && Col(r.stored, Done)[n - 1].completedAt == Some(now)
                  && s.board.done[n - 1] == FindTicket(db, k).value.ticket)
  {
    var r := Server.CompleteTicket(db, Some(k), now);
    var f := FindTicket(db, k);
    if f.Some? && f.value.col == Doing {
      var t := f.value.ticket;
      assert Col(r.stored, Done) == Col(db, Done) + [t.(completedAt := Some(now))];
      assert Unstamped(t) == Unstamped(t.(completedAt := Some(now)));
    }
  }
}

=== FILE: columns.dfy ===
/** Looking tickets up and moving them between columns (`findTicket`,
    `moveTicket`, backend/utils.js). Lookup uses JavaScript's `===`, so only
    a ticket whose id is the number itself matches, and the columns are
    searched in the order todo, doing, done. */
module Columns {
  import opened Common
  import opened Board

  /** No ticket of `s` has the id `id` under `===`. */
  predicate Lacks(s: seq<Ticket>, id: int)
  {
    forall j :: 0 <= j < |s| ==> s[j].id != Num(id)
  }

  /** `findIndex(t => t.id === id)` from position `i` on. */
  function FirstIndexFrom(s: seq<Ticket>, id: int, i: nat): (r: Option<nat>)
    requires i <= |s|
    ensures r.Some? ==> i <= r.value < |s| && s[r.value].id == Num(id)
    ensures r.Some? ==> forall j :: i <= j < r.value ==> s[j].id != Num(id)
    ensures r.None? ==> forall j :: i <= j < |s| ==> s[j].id != Num(id)
    decreases |s| - i
  {
    if i == |s| then None
    else if s[i].id == Num(id) then Some(i)
    else FirstIndexFrom(s, id, i + 1)
  }

  /** `findIndex(t => t.id === id)`: the first position holding the id. */
  function FirstIndex(s: seq<Ticket>, id: int): (r: Option<nat>)
    ensures r.None? <==> Lacks(s, id)
    ensures r.Some? ==> r.value < |s| && s[r.value].id == Num(id) && Lacks(s[..r.value], id)
  {
    FirstIndexFrom(s, id, 0)
  }

  /** Where `findTicket` found a ticket: column, position and the ticket. */
  datatype Found = Found(col: string, idx: nat, ticket: Ticket)

  /** `findTicket`: the first ticket with the id, searching todo, then doing,
      then done. */
  function FindTicket(db: Db, id: int): (r: Option<Found>)
    ensures r.None? <==> Lacks(Col(db, Todo), id) && Lacks(Col(db, Doing), id) && Lacks(Col(db, Done), id)
    ensures r.Some? ==> var f := r.value;
              && f.idx < |Col(db, f.col)| && Col(db, f.col)[f.idx] == f.ticket && f.ticket.id == Num(id)
              && FirstIndex(Col(db, f.col), id) == Some(f.idx)
    ensures (r.Some? && r.value.col == Todo) <==> !Lacks(Col(db, Todo), id)
    ensures (r.Some? && r.value.col == Doing) <==> Lacks(Col(db, Todo), id) && !Lacks(Col(db, Doing), id)
    ensures (r.Some? && r.value.col == Done)
              <==> Lacks(Col(db, Todo), id) && Lacks(Col(db, Doing), id) && !Lacks(Col(db, Done), id)
  {
    var todo, doing, done := Col(db, Todo), Col(db, Doing), Col(db, Done);
    match FirstIndex(todo, id)
    case Some(i) => Some(Found(Todo, i, todo[i]))
    case None =>
      match FirstIndex(doing, id)
      case Some(i) => Some(Found(Doing, i, doing[i]))
      case None =>
        match FirstIndex(done, id)
        case Some(i) => Some(Found(Done, i, done[i]))
        case None => None
  }

  /** `db[col].splice(idx, 1)`: the found ticket taken out of its column. */
  function Without(db: Db, f: Found): (r: Db)
    requires f.idx < |Col(db, f.col)|
    ensures r.meta == db.meta && r.metrics == db.metrics
    ensures Col(r, f.col) == RemoveAt(Col(db, f.col), f.idx)
    ensures forall k :: k != f.col ==> Col(r, k) == Col(db, k)
  {
    db.(columns := db.columns[f.col := RemoveAt(Col(db, f.col), f.idx)])
  }

  /** `db[to] ??= []; db[to].push(t)`: a ticket added at the end of a column. */
  function Append(db: Db, to: string, t: Ticket): (r: Db)
    ensures r.meta == db.meta && r.metrics == db.metrics
    ensures Col(r, to) == Col(db, to) + [t]
    ensures forall k :: k != to ==> Col(r, k) == Col(db, k)
  {
    db.(columns := db.columns[to := Col(db, to) + [t]])
  }

  /** What `moveTicket` reports: source column, target column, ticket. */
  datatype Moved = Moved(from: string, to: string, ticket: Ticket)

  /** `moveTicket`: the first-found ticket leaves its column and goes to the
      end of `to`; null (None) when no ticket has the id. The target must
      name a column: the backend only moves to doing and done. */
  function MoveTicket(db: Db, id: int, to: string): (r: Option<(Db, Moved)>)
    requires IsColumnKey(to)
    ensures r.None? <==> FindTicket(db, id).None?
    ensures r.Some? ==> var f := FindTicket(db, id).value;
              && r.value.1 == Moved(f.col, to, f.ticket)
              && r.value.0 == Append(Without(db, f), to, f.ticket)
  {
    match FindTicket(db, id)
    case None => None
    case Some(f) => Some((Append(Without(db, f), to, f.ticket), Moved(f.col, to, f.ticket)))
  }

  /** Moving between two different columns keeps every ticket: the two
      columns together hold the same tickets, one fewer in the source and
      one more (the moved one, last) in the target, the source's remaining
      tickets in their old order, and no other column changes. */
  lemma MoveTicketConserves(db: Db, id: int, to: string)
    requires IsColumnKey(to)
    requires MoveTicket(db, id, to).Some?
    requires FindTicket(db, id).value.col != to
    ensures var f := FindTicket(db, id).value;
            var d := MoveTicket(db, id, to).value.0;
            && multiset(Col(d, f.col)) + multiset(Col(d, to)) == multiset(Col(db, f.col)) + multiset(Col(db, to))
            && |Col(d, f.col)| == |Col(db, f.col)| - 1
            && |Col(d, to)| == |Col(db, to)| + 1
            && Col(d, to)[|Col(d, to)| - 1] == f.ticket
            && Col(d, f.col) == Col(db, f.col)[..f.idx] + Col(db, f.col)[f.idx + 1..]
            && (forall k :: k != f.col && k != to ==> Col(d, k) == Col(db, k))
            && d.meta == db.meta && d.metrics == db.metrics
  {
    var f := FindTicket(db, id).value;
    var w := Without(db, f);
    var d := Append(w, to, f.ticket);
    assert MoveTicket(db, id, to).value.0 == d;
    assert Col(d, f.col) == Col(w, f.col) == RemoveAt(Col(db, f.col), f.idx);
    assert Col(d, to) == Col(db, to) + [f.ticket];
    TakeOneGiveOne(Col(db, f.col), f.idx, Col(db, to));
  }

  /** Taking the element at `i` out of `s` and putting it at the end of `u`
      keeps the two sequences' elements together. */
  lemma TakeOneGiveOne<T>(s: seq<T>, i: nat, u: seq<T>)
    requires i < |s|
    ensures multiset(RemoveAt(s, i)) + multiset(u + [s[i]]) == multiset(s) + multiset(u)
  {
    assert multiset(u + [s[i]]) == multiset(u) + multiset{s[i]};
  }
}

=== FILE: common.dfy ===
/** Small shared vocabulary: optional values, the states a JSON file can be
    found in by the scripts, and sequence removal as `Array.prototype.splice(i, 1)`
    performs it. */
module Common {

  /** JavaScript `null`/`undefined` and Python `None` on one side, a value on the other. */
  datatype Option<T> = None | Some(value: T)
  {
    /** The value, or `default` when absent (the `??` and `or` idioms). */
    function GetOr(default: T): T
    {
      if Some? then value else default
    }
  }

  /** What a script finds when it reads a JSON file: no file, a file holding
      only white space, text that is not JSON, or a parsed document. */
  datatype FileState<T> = Missing | Blank | Malformed | Holds(doc: T)

  /** The sequence without its element at `i`; everything else keeps its order. */
  function RemoveAt<T>(s: seq<T>, i: nat): (r: seq<T>)
    requires i < |s|
    ensures |r| == |s| - 1
    ensures forall j :: 0 <= j < i ==> r[j] == s[j]
    ensures forall j :: i <= j < |r| ==> r[j] == s[j + 1]
    ensures multiset(r) + multiset{s[i]} == multiset(s)
  {
    SplitAt(s, i);
    s[..i] + s[i + 1..]
  }

  /** A sequence is what precedes position `i`, the element there, and what
      follows. */
  lemma SplitAt<T>(s: seq<T>, i: nat)
    requires i < |s|
    ensures s == (s[..i] + [s[i]]) + s[i + 1..]
  {
    assert s[..i + 1] == s[..i] + [s[i]];
    assert s == s[..i + 1] + s[i + 1..];
  }
}

=== FILE: invariants.dfy ===
/** What holds across requests: failed requests write nothing, the live
    tickets (todo and doing) never share an id once the startup migration
    ran, a burst of creates stops exactly at the fifty-id capacity, and the
    worked scenarios of the id allocator. */
module Invariants {
  import opened Common
  import opened Board
  import opened Allocator
  import opened Migration
  import opened Columns
  import opened Storage
  import opened Server

  // ------------------------------------------------------ failed requests

  /** Every refused request (4xx) leaves the stored document as it was. */
  lemma FailureWritesNothing(stored: Db, req: Request)
    ensures Step(stored, req).response.status >= 400 ==> Step(stored, req).stored == stored
  {
  }

  /** Reads never write. */
  lemma ReadsWriteNothing(stored: Db, req: Request)
    requires req.GetTickets? || req.GetMeta? || req.GetMetrics?
    ensures Step(stored, req).stored == stored && Step(stored, req).response.status == 200
  {
  }

  // ----------------------------------------------------- the id bag of live

  lemma LiveBag(db: Db)
    ensures IdBag(Live(db)) == IdBag(Col(db, Todo)) + IdBag(Col(db, Doing))
  {
    IdBagAppend(Col(db, Todo), Col(db, Doing));
  }

  /** Taking a ticket out of a column takes its id out of the bag. */
  lemma IdBagRemoveAt(s: seq<Ticket>, i: nat)
    requires i < |s|
    ensures IdBag(RemoveAt(s, i)) + OwnId(s[i]) == IdBag(s)
  {
    var p, q, t := s[..i], s[i + 1..], s[i];
    SplitAt(s, i);
    assert RemoveAt(s, i) == p + q;
    IdBagAppend(p + [t], q);
    IdBagAppend(p, q);
    SnocParts(p, t);
    BagRotate(IdBag(p), OwnId(t), IdBag(q));
  }

  lemma BagRotate(x: multiset<int>, y: multiset<int>, z: multiset<int>)
    ensures (x + y) + z == (x + z) + y
  {
  }

  /** Fewer ids cannot repeat more. */
  lemma SubBagNoRepeats(a: seq<Ticket>, b: seq<Ticket>)
    requires IdBag(a) <= IdBag(b) && NoRepeats(b)
    ensures NoRepeats(a)
  {
    forall x ensures IdBag(a)[x] <= 1 {
      assert IdBag(a)[x] <= IdBag(b)[x];
    }
  }

  /** A fresh id added to the bag keeps it free of repeats. */
  lemma FreshIdNoRepeats(a: seq<Ticket>, b: seq<Ticket>, id: int)
    requires IdBag(a) == IdBag(b) + multiset{id} && NoRepeats(b) && id !in ValidIds(b)
    ensures NoRepeats(a)
  {
    IdBagSupport(b);
    forall x ensures IdBag(a)[x] <= 1 {
      if x == id {
        assert IdBag(b)[x] == 0;
      }
    }
  }

  // ------------------------------------------- each route keeps ids distinct

  /** A ticket with an id no live ticket holds, added at the end of one of
      the live columns, keeps the live ids distinct. */
  lemma SnocKeepsLiveDistinct(before: Db, after: Db, col: string, t: Ticket, id: int)
    requires col == Todo || col == Doing
    requires LiveDistinct(before) && ToId(t.id) == Some(id) && id !in UsedIds(before)
    requires Col(after, col) == Col(before, col) + [t]
    requires col != Todo ==> Col(after, Todo) == Col(before, Todo)
    requires col != Doing ==> Col(after, Doing) == Col(before, Doing)
    ensures LiveDistinct(after)
  {
    var a, b := Col(before, Todo), Col(before, Doing);
    LiveBag(before);
    LiveBag(after);
    SnocParts(Col(before, col), t);
    assert OwnId(t) == multiset{id};
    if col == Todo {
      BagRotate(IdBag(a), multiset{id}, IdBag(b));
    }
    assert IdBag(Live(after)) == IdBag(Live(before)) + multiset{id};
    FreshIdNoRepeats(Live(after), Live(before), id);
  }

  /** A created ticket takes the allocated id, which no live ticket held; a
      create into any other column, or into `metrics`, leaves todo and doing. */
  lemma CreateKeepsLiveDistinct(stored: Db, title: Option<string>, subtitle: Option<string>, column: Option<string>)
    requires LiveDistinct(stored)
    ensures LiveDistinct(CreateTicket(stored, title, subtitle, column).stored)
  {
    var r := CreateTicket(stored, title, subtitle, column);
    var col := column.GetOr(Todo);
    BoardColumnsAreKeys();
    if r.response.status == 201 {
      if col == Todo || col == Doing {
        UsedAtMostFifty(stored);
        NextFreeIdFull(stored);
        CreateAppends(stored, title.value, subtitle, column);
        var id := NextFreeId(stored).id.value;
        SnocKeepsLiveDistinct(stored, r.stored, col, Ticket(Num(id), title.value, subtitle.GetOr(""), None), id);
      } else {
        assert Live(r.stored) == Live(stored);
      }
    }
  }

  lemma DeleteKeepsLiveDistinct(stored: Db, id: Option<int>)
    requires LiveDistinct(stored)
    ensures LiveDistinct(DeleteTicket(stored, id).stored)
  {
    var r := DeleteTicket(stored, id);
    if id.Some? && 1 <= id.value <= MaxId && FindTicket(stored, id.value).Some? {
      var f := FindTicket(stored, id.value).value;
      LiveBag(stored);
      LiveBag(r.stored);
      IdBagRemoveAt(Col(stored, f.col), f.idx);
      SubBagNoRepeats(Live(r.stored), Live(stored));
    }
  }

  lemma StartKeepsLiveDistinct(stored: Db, id: Option<int>)
    requires LiveDistinct(stored)
    ensures LiveDistinct(StartTicket(stored, id).stored)
  {
    var r := StartTicket(stored, id);
    if id.Some? && FindTicket(stored, id.value).Some? && FindTicket(stored, id.value).value.col == Todo {
      var f := FindTicket(stored, id.value).value;
      MoveToDoingKeepsBag(stored, r.stored, f.idx);
      SubBagNoRepeats(Live(r.stored), Live(stored));
    }
  }

  /** Moving the todo ticket at `i` to the end of doing keeps the live ids. */
  lemma MoveToDoingKeepsBag(before: Db, after: Db, i: nat)
    requires i < |Col(before, Todo)|
    requires Col(after, Todo) == RemoveAt(Col(before, Todo), i)
    requires Col(after, Doing) == Col(before, Doing) + [Col(before, Todo)[i]]
    ensures IdBag(Live(after)) == IdBag(Live(before))
  {
    LiveBag(before);
    LiveBag(after);
    IdBagRemoveAt(Col(before, Todo), i);
    SnocParts(Col(before, Doing), Col(before, Todo)[i]);
  }

  lemma CompleteKeepsLiveDistinct(stored: Db, id: Option<int>, now: string)
    requires LiveDistinct(stored)
    ensures LiveDistinct(CompleteTicket(stored, id, now).stored)
  {
    var r := CompleteTicket(stored, id, now);
    if id.Some? && FindTicket(stored, id.value).Some? && FindTicket(stored, id.value).value.col == Doing {
      var f := FindTicket(stored, id.value).value;
      LiveBag(stored);
      LiveBag(r.stored);
      IdBagRemoveAt(Col(stored, Doing), f.idx);
      SubBagNoRepeats(Live(r.stored), Live(stored));
    }
  }

  /** Every request keeps the live ids distinct. */
  lemma StepKeepsLiveDistinct(stored: Db, req: Request)
    requires LiveDistinct(stored)
    ensures LiveDistinct(Step(stored, req).stored)
  {
    var after := Step(stored, req).stored;
    match req
    case PostTicket(title, subtitle, column) =>
      assert after == CreateTicket(stored, title, subtitle, column).stored;
      CreateKeepsLiveDistinct(stored, title, subtitle, column);
    case DeleteById(id) =>
      assert after == DeleteTicket(stored, id).stored;
      DeleteKeepsLiveDistinct(stored, id);
    case Start(id) =>
      assert after == StartTicket(stored, id).stored;
      StartKeepsLiveDistinct(stored, id);
    case Complete(id, now) =>
      assert after == CompleteTicket(stored, id, now).stored;
      CompleteKeepsLiveDistinct(stored, id, now);
    case PostAmount(amount, now) =>
      assert after == RecordAmount(stored, amount, now).stored;
      AmountKeepsColumns(stored, amount, now);
      assert Live(after) == Live(stored);
    case _ =>
      assert after == stored;
  }

  /** Recording an amount touches only the metrics. */
  lemma AmountKeepsColumns(stored: Db, amount: Option<real>, now: string)
    ensures RecordAmount(stored, amount, now).stored.columns == stored.columns
  {
  }

  lemma {:induction false} RunKeepsLiveDistinct(stored: Db, reqs: seq<Request>)
    requires LiveDistinct(stored)
    ensures LiveDistinct(Run(stored, reqs).stored)
    decreases |reqs|
  {
    if |reqs| > 0 {
      StepKeepsLiveDistinct(stored, reqs[0]);
      RunKeepsLiveDistinct(Step(stored, reqs[0]).stored, reqs[1..]);
    }
  }

  /** Once the startup migration succeeded, no two todo/doing tickets share
      an id after any sequence of requests. */
  lemma ServeKeepsLiveDistinct(stored: Db, reqs: seq<Request>)
    requires TicketCount(stored) <= MaxId
    ensures LiveDistinct(Serve(stored, reqs).stored)
  {
    MigrateMakesLiveDistinct(stored);
    RunKeepsLiveDistinct(Startup(stored), reqs);
  }

  // ------------------------------------------------------------- capacity

  /** `n` creates of a ticket titled `title` into todo. */
  function Creates(title: string, n: nat): (r: seq<Request>)
    ensures |r| == n && forall i :: 0 <= i < n ==> r[i] == PostTicket(Some(title), None, None)
  {
    seq(n, _ => PostTicket(Some(title), None, None))
  }

  /** How many responses are 201 Created. */
  function CreatedCount(rs: seq<Response>): (r: nat)
    ensures r <= |rs|
  {
    if |rs| == 0 then 0 else (if rs[0].status == 201 then 1 else 0) + CreatedCount(rs[1..])
  }

  function Min(a: int, b: int): int
  {
    if a <= b then a else b
  }

  /** One more create into todo with a free id takes exactly one more id. */
  lemma CreateTakesOneId(stored: Db, title: string)
    requires title != "" && |UsedIds(stored)| < MaxId
    ensures var r := CreateTicket(stored, Some(title), None, None);
            r.response.status == 201 && |UsedIds(r.stored)| == |UsedIds(stored)| + 1
  {
    CreateAppends(stored, title, None, None);
    var r := CreateTicket(stored, Some(title), None, None);
    var id := NextFreeId(stored).id.value;
    TodoSnocUses(stored, r.stored, Ticket(Num(id), title, "", None), id);
    var used := UsedIds(stored);
    assert id !in used;
    assert |used + {id}| == |used| + 1;
  }

  /** A ticket appended to todo adds its id to the used ids. */
  lemma TodoSnocUses(before: Db, after: Db, t: Ticket, id: int)
    requires Col(after, Todo) == Col(before, Todo) + [t] && Col(after, Doing) == Col(before, Doing)
    requires ToId(t.id) == Some(id)
    ensures UsedIds(after) == UsedIds(before) + {id}
  {
    var a, b := Col(before, Todo), Col(before, Doing);
    SnocParts(a, t);
    ValidIdsAppend(a, b);
    ValidIdsAppend(a + [t], b);
  }

  /** `n` creates in a row succeed exactly as often as there are free ids,
      and each success takes one id. */
  lemma CreatesStopAtCapacity(stored: Db, title: string, n: nat)
    requires title != ""
    ensures var r := Run(stored, Creates(title, n));
            && CreatedCount(r.responses) == Min(n, MaxId - |UsedIds(stored)|)
            && |UsedIds(r.stored)| == |UsedIds(stored)| + CreatedCount(r.responses)
  {
    var create := (d: Db) => CreateTicket(d, Some(title), None, None);
    forall d: Db ensures TakesFreeId(create, d) {
      OneCreate(d, title);
    }
    CreatesRepeat(stored, title, n);
    RepeatStopsAtCapacity(stored, create, n);
  }

  /** `n` applications of the same request, one after the other. */
  function Repeat(stored: Db, step: Db -> Reply, n: nat): Trace
    decreases n
  {
    if n == 0 then Trace(stored, [])
    else
      var first := step(stored);
      var rest := Repeat(first.stored, step, n - 1);
      Trace(rest.stored, [first.response] + rest.responses)
  }

  lemma {:induction false} CreatesRepeat(stored: Db, title: string, n: nat)
    ensures Run(stored, Creates(title, n)) == Repeat(stored, (d: Db) => CreateTicket(d, Some(title), None, None), n)
    decreases n
  {
    if n > 0 {
      var reqs := Creates(title, n);
      assert reqs[1..] == Creates(title, n - 1);
      CreatesRepeat(CreateTicket(stored, Some(title), None, None).stored, title, n - 1);
    }
  }

  /** A request that succeeds exactly when an id is free, and then takes one. */
  ghost predicate TakesFreeId(step: Db -> Reply, d: Db)
  {
    && (step(d).response.status == 201 <==> |UsedIds(d)| < MaxId)
    && |UsedIds(step(d).stored)| == |UsedIds(d)| + (if step(d).response.status == 201 then 1 else 0)
  }

  /** Repeating such a request `n` times succeeds as often as there are
      free ids, and each success takes one. */
  lemma {:induction false} RepeatStopsAtCapacity(stored: Db, step: Db -> Reply, n: nat)
    requires forall d :: TakesFreeId(step, d)
    ensures var r := Repeat(stored, step, n);
            && CreatedCount(r.responses) == Min(n, MaxId - |UsedIds(stored)|)
            && |UsedIds(r.stored)| == |UsedIds(stored)| + CreatedCount(r.responses)
    decreases n
  {
    UsedCountBound(stored);
    if n > 0 {
      var first := step(stored);
      var rest := Repeat(first.stored, step, n - 1);
      assert TakesFreeId(step, stored);
      RepeatStopsAtCapacity(first.stored, step, n - 1);
      assert ([first.response] + rest.responses)[1..] == rest.responses;
      CapacityCount(|UsedIds(stored)|, n, if first.response.status == 201 then 1 else 0, CreatedCount(rest.responses));
    }
  }

  /** One create, then `n - 1` more: the counts add up to the capacity. */
  lemma CapacityCount(used: int, n: nat, first: int, later: int)
    requires 0 <= used <= MaxId && n > 0
    requires first == (if used < MaxId then 1 else 0)
    requires later == Min(n - 1, MaxId - (used + first))
    ensures first + later == Min(n, MaxId - used)
  {
  }

  /** One create succeeds exactly when an id is free, and then takes one. */
  lemma OneCreate(stored: Db, title: string)
    requires title != ""
    ensures var r := CreateTicket(stored, Some(title), None, None);
            && (r.response.status == 201 <==> |UsedIds(stored)| < MaxId)
            && |UsedIds(r.stored)| == |UsedIds(stored)| + (if r.response.status == 201 then 1 else 0)
  {
    UsedCountBound(stored);
    if |UsedIds(stored)| < MaxId {
      CreateTakesOneId(stored, title);
    }
  }

  // ------------------------------------------------------------ scenarios

  /** The lowest free id of a document is determined by its used set. */
  lemma LowestFree(db: Db, id: int)
    requires 1 <= id <= MaxId && id !in UsedIds(db) && forall k :: 1 <= k < id ==> k in UsedIds(db)
    ensures NextFreeId(db).id == Some(id)
  {
  }

  /** A fresh store does not change at startup. */
  lemma FreshStartIsStable()
    ensures Migrate(Initial()) == Migrated(Initial())
    ensures Startup(Initial()) == Initial()
  {
    var db := Initial();
    assert Live(db) == [];
    assert UsedIds(db) == {};
    assert KeepsIds(db);
    assert Candidate(1, 0) == 1;
    assert Normalize(db).columns == db.columns;
  }

  /** A create into todo on a board whose lowest free id is `id`: the new
      ticket gets `id` and goes to the end of todo; doing and done stay. */
  lemma CreateLowest(s: Db, title: string, id: int)
    requires title != "" && 1 <= id <= MaxId && id !in UsedIds(s)
    requires forall k :: 1 <= k < id ==> k in UsedIds(s)
    ensures var r := CreateTicket(s, Some(title), None, None);
            var t := Ticket(Num(id), title, "", None);
            && r.response == Response(201, TicketBody(t))
            && Col(r.stored, Todo) == Col(s, Todo) + [t]
            && Col(r.stored, Doing) == Col(s, Doing) && Col(r.stored, Done) == Col(s, Done)
  {
    LowestFree(s, id);
    NextFreeIdFull(s);
    UsedCountBound(s);
    CreateAppends(s, title, None, None);
  }

  /** The ids in use on a board whose doing column is empty and whose todo
      column holds one ticket. */
  lemma UsedOfOne(db: Db, t: Ticket, id: int)
    requires Col(db, Todo) == [t] && Col(db, Doing) == [] && ToId(t.id) == Some(id)
    ensures UsedIds(db) == {id}
  {
    SnocParts([], t);
    assert Live(db) == [] + [t];
  }

  lemma EmptyLiveUsesNothing(db: Db)
    requires Col(db, Todo) == [] && Col(db, Doing) == []
    ensures UsedIds(db) == {}
  {
    assert Live(db) == [];
  }

  function ScenarioA(): Ticket { Ticket(Num(1), "A", "", None) }
  function ScenarioB(): Ticket { Ticket(Num(2), "B", "", None) }

  /** Create A then B on a fresh store: ids 1 and 2, in that order in todo. */
  lemma CreateTwice()
    ensures var r1 := CreateTicket(Initial(), Some("A"), None, None);
            var r2 := CreateTicket(r1.stored, Some("B"), None, None);
            && r1.response == Response(201, TicketBody(ScenarioA()))
            && r2.response == Response(201, TicketBody(ScenarioB()))
            && Col(r2.stored, Todo) == [ScenarioA(), ScenarioB()] && Col(r2.stored, Doing) == []
  {
    EmptyLiveUsesNothing(Initial());
    CreateLowest(Initial(), "A", 1);
    var s1 := CreateTicket(Initial(), Some("A"), None, None).stored;
    UsedOfOne(s1, ScenarioA(), 1);
    CreateLowest(s1, "B", 2);
  }

  /** Then deleting id 1 removes A, and the next create, C, reuses id 1. */
  lemma IdReuseScenario()
    ensures var r1 := CreateTicket(Initial(), Some("A"), None, None);
            var r2 := CreateTicket(r1.stored, Some("B"), None, None);
            var r3 := DeleteTicket(r2.stored, Some(1));
            var r4 := CreateTicket(r3.stored, Some("C"), None, None);
            && r3.response == Response(200, RemovedBody(ScenarioA()))
            && r4.response == Response(201, TicketBody(Ticket(Num(1), "C", "", None)))
  {
    CreateTwice();
    var r1 := CreateTicket(Initial(), Some("A"), None, None);
    var s2 := CreateTicket(r1.stored, Some("B"), None, None).stored;
    DeleteFirstOfTwo(s2);
    var s3 := DeleteTicket(s2, Some(1)).stored;
    UsedOfOne(s3, ScenarioB(), 2);
    CreateLowest(s3, "C", 1);
  }

  /** Deleting id 1 from a todo of A then B leaves B alone. */
  lemma DeleteFirstOfTwo(s: Db)
    requires Col(s, Todo) == [ScenarioA(), ScenarioB()] && Col(s, Doing) == []
    ensures var r := DeleteTicket(s, Some(1));
            && r.response == Response(200, RemovedBody(ScenarioA()))
            && Col(r.stored, Todo) == [ScenarioB()] && Col(r.stored, Doing) == []
  {
    assert FindTicket(s, 1) == Some(Found(Todo, 0, ScenarioA()));
  }

  /** Create A, start it, complete it at time "t": A sits alone in done. */
  lemma CreateStartComplete()
    ensures var r1 := CreateTicket(Initial(), Some("A"), None, None);
            var r2 := StartTicket(r1.stored, Some(1));
            var r3 := CompleteTicket(r2.stored, Some(1), "t");
            && Col(r3.stored, Todo) == [] && Col(r3.stored, Doing) == []
            && Col(r3.stored, Done) == [ScenarioA().(completedAt := Some("t"))]
  {
    EmptyLiveUsesNothing(Initial());
    CreateLowest(Initial(), "A", 1);
    var s1 := CreateTicket(Initial(), Some("A"), None, None).stored;
    assert FindTicket(s1, 1) == Some(Found(Todo, 0, ScenarioA()));
    var s2 := StartTicket(s1, Some(1)).stored;
    assert Col(s2, Todo) == [] && Col(s2, Doing) == [ScenarioA()] && Col(s2, Done) == [];
    assert FindTicket(s2, 1) == Some(Found(Doing, 0, ScenarioA()));
  }

  /** Ids of done tickets are free: after that, the next create gets id 1
      again, and a lookup of id 1 finds the new todo ticket, not the done one. */
  lemma DoneIdReused()
    ensures var r1 := CreateTicket(Initial(), Some("A"), None, None);
            var r2 := StartTicket(r1.stored, Some(1));
            var r3 := CompleteTicket(r2.stored, Some(1), "t");
            var r4 := CreateTicket(r3.stored, Some("B"), None, None);
            var b := Ticket(Num(1), "B", "", None);
            && r4.response == Response(201, TicketBody(b))
            && Col(r4.stored, Done) == [ScenarioA().(completedAt := Some("t"))]
            && FindTicket(r4.stored, 1) == Some(Found(Todo, 0, b))
  {
    CreateStartComplete();
    var r1 := CreateTicket(Initial(), Some("A"), None, None);
    var r2 := StartTicket(r1.stored, Some(1));
    var s3 := CompleteTicket(r2.stored, Some(1), "t").stored;
    EmptyLiveUsesNothing(s3);
    CreateLowest(s3, "B", 1);
    var s4 := CreateTicket(s3, Some("B"), None, None).stored;
    assert Col(s4, Todo) == [Ticket(Num(1), "B", "", None)];
  }

  /** A start is what GET /meta reports afterwards. */
  lemma StartThenReadMeta(stored: Db, id: int)
    requires FindTicket(stored, id).Some? && FindTicket(stored, id).value.col == Todo
    ensures ReadMeta(StartTicket(stored, Some(id)).stored).response == Response(200, LastStartedBody(Some(id)))
  {
  }

  /** A completed ticket carries its completion time and sits last in done. */
  lemma CompleteStamps(stored: Db, id: int, now: string)
    requires FindTicket(stored, id).Some? && FindTicket(stored, id).value.col == Doing
    ensures var d := Col(CompleteTicket(stored, Some(id), now).stored, Done);
            |d| > 0 && d[|d| - 1].completedAt == Some(now) && d[|d| - 1].id == Num(id)
  {
  }
}

=== FILE: metrics.dfy ===
/** The summary of the amount log (`computeMetrics`, backend/utils.js):
    the last and second-to-last amounts, the growth between them in percent,
    and the sum of all amounts. Amounts are what `Number()` makes of the
    stored values; a value it cannot read is NaN. */
module Metrics {
  import opened Board

  /** `{ currentAmount, previousAmount, growthPercent, totalAmount }`. */
  datatype Figures = Figures(current: Number, previous: Number, growth: Number, total: real)

  /** `metrics?.amounts ?? []`: only the log object has amounts. */
  function AmountsOf(m: MetricsField): seq<AmountEntry>
  {
    if m.Log? then m.amounts else []
  }

  /** `Number(entry.amount) || 0`: NaN counts as 0. */
  function Addend(n: Number): real
  {
    match n
    case Finite(v) => v
    case NaN => 0.0
  }

  /** The sum `reduce` accumulates, left to right. */
  function Total(log: seq<AmountEntry>): (r: real)
    ensures |log| == 0 ==> r == 0.0
    ensures |log| == 1 ==> r == Addend(log[0].amount)
    ensures (forall i :: 0 <= i < |log| ==> log[i].amount.NaN?) ==> r == 0.0
    ensures (forall i :: 0 <= i < |log| ==> Addend(log[i].amount) >= 0.0) ==> r >= 0.0
  {
    if |log| == 0 then 0.0 else Total(log[..|log| - 1]) + Addend(log[|log| - 1].amount)
  }

  /** The sum splits over concatenation, so appending one entry adds exactly
      its amount (or nothing for NaN). */
  lemma {:induction false} TotalAppend(a: seq<AmountEntry>, b: seq<AmountEntry>)
    ensures Total(a + b) == Total(a) + Total(b)
    decreases |b|
  {
    if |b| == 0 {
      assert a + b == a;
    } else {
      var b' := b[..|b| - 1];
      assert (a + b)[..|a + b| - 1] == a + b';
      assert (a + b)[|a + b| - 1] == b[|b| - 1];
      TotalAppend(a, b');
    }
  }

  /** One more entry adds exactly its amount, or nothing for NaN; with
      `Total` on the empty log this fixes the sum of every log. */
  lemma TotalSnoc(log: seq<AmountEntry>, e: AmountEntry)
    ensures Total(log + [e]) == Total(log) + Addend(e.amount)
  {
    TotalAppend(log, [e]);
  }

  /** `growthPercent`: with a zero previous amount, 0 when the current one is
      zero too and 100 otherwise; else the change relative to the previous
      amount, in percent. NaN propagates through the arithmetic and fails
      every `=== 0` test. */
  function Growth(current: Number, previous: Number): (r: Number)
    ensures previous == Finite(0.0) ==> r == (if current == Finite(0.0) then Finite(0.0) else Finite(100.0))
    ensures previous.Finite? && previous.v != 0.0 && current.Finite? ==>
              r.Finite? && previous.v + previous.v * r.v / 100.0 == current.v
    ensures previous.NaN? || (previous != Finite(0.0) && current.NaN?) ==> r.NaN?
  {
    match previous
    case NaN => NaN
    case Finite(p) =>
      if p == 0.0 then (if current == Finite(0.0) then Finite(0.0) else Finite(100.0))
      else
        match current
        case NaN => NaN
        case Finite(c) => Finite((c - p) / p * 100.0)
  }

  /** `computeMetrics`. */
  function ComputeMetrics(log: seq<AmountEntry>): (r: Figures)
    ensures |log| == 0 ==> r == Figures(Finite(0.0), Finite(0.0), Finite(0.0), 0.0)
    ensures |log| >= 1 ==> r.current == log[|log| - 1].amount
    ensures |log| >= 2 ==> r.previous == log[|log| - 2].amount
    ensures |log| <= 1 ==> r.previous == Finite(0.0)
    ensures r.growth == Growth(r.current, r.previous)
    ensures r.total == Total(log)
  {
    var n := |log|;
    var current := if n > 0 then log[n - 1].amount else Finite(0.0);
    var previous := if n > 1 then log[n - 2].amount else Finite(0.0);
    Figures(current, previous, Growth(current, previous), Total(log))
  }

  /** The worked examples: 10 then 15 is a growth of 50%; 10 then 0 is -100%;
      0 then 5 counts as 100%. */
  lemma GrowthExamples()
    ensures ComputeMetrics([AmountEntry("d1", Finite(10.0)), AmountEntry("d2", Finite(15.0))]).growth == Finite(50.0)
    ensures ComputeMetrics([AmountEntry("d1", Finite(10.0)), AmountEntry("d2", Finite(0.0))]).growth == Finite(-100.0)
    ensures ComputeMetrics([AmountEntry("d1", Finite(0.0)), AmountEntry("d2", Finite(5.0))]).growth == Finite(100.0)
    ensures ComputeMetrics([AmountEntry("d1", Finite(10.0)), AmountEntry("d2", Finite(15.0))]).total == 25.0
  {
    var l := [AmountEntry("d1", Finite(10.0)), AmountEntry("d2", Finite(15.0))];
    assert l[..1][..0] == [];
    assert Total(l[..1]) == 10.0;
  }
}

=== FILE: migration.dfy ===
/** The startup normalisation of ticket ids (`migrateNumericIds`,
    backend/utils.js). When every ticket already holds a distinct valid id
    the ids stay and only the cursor moves; otherwise all tickets are
    renumbered 1..N in the order todo, doing, done. Because the test counts
    `done` tickets but the used set does not, any `done` ticket forces a
    renumbering. */
module Migration {
  import opened Common
  import opened Board
  import opened Allocator

  /** JavaScript's integer quotient: the Euclidean quotient of the
      magnitudes, rounded toward zero. */
  function JsQuot(a: int, m: int): int
    requires m > 0
  {
    if a >= 0 then a / m else -((-a) / m)
  }

  /** JavaScript's `%`: the remainder takes the sign of the dividend, and
      dividend = divisor * truncated quotient + remainder. */
  function JsRem(a: int, m: int): (r: int)
    requires m > 0
    ensures a >= 0 ==> 0 <= r < m
    ensures a < 0 ==> -m < r <= 0
    ensures a == m * JsQuot(a, m) + r
  {
    if a >= 0 then a % m
    else
      var q := (-a) / m;
      assert -a == m * q + (-a) % m;
      assert m * -q == -(m * q);
      -((-a) % m)
  }

  /** The k-th id the cursor scan looks at: `((nextId ?? 1) - 1 + k) % 50 + 1`.
      It is `start + k` up to a multiple of fifty; JavaScript's `%` keeps it
      in 1..50 only while `start - 1 + k` is not negative. */
  function Candidate(start: int, k: int): (r: int)
    ensures (start + k - r) % MaxId == 0
    ensures r <= MaxId
    ensures start - 1 + k >= 0 ==> 1 <= r
    ensures start - 1 + k < 0 ==> r <= 1
  {
    JsRem(start - 1 + k, MaxId) + 1
  }

  /** The scan of the keep-ids branch from step `k` on: the first step whose
      candidate is not in use. */
  function FirstFreeStep(used: set<int>, start: int, k: nat): (r: Option<nat>)
    requires k <= MaxId
    ensures r.Some? ==> k <= r.value < MaxId && Candidate(start, r.value) !in used
    ensures r.Some? ==> forall j :: k <= j < r.value ==> Candidate(start, j) in used
    ensures r.None? ==> forall j :: k <= j < MaxId ==> Candidate(start, j) in used
    decreases MaxId - k
  {
    if k == MaxId then None
    else if Candidate(start, k) !in used then Some(k)
    else FirstFreeStep(used, start, k + 1)
  }

  /** From a cursor in 1..50 the scan walks the ids cyclically: start,
      start+1, ..., 50, 1, 2, ... */
  lemma CandidateIsCyclic(start: int, k: int)
    requires 1 <= start <= MaxId && 0 <= k < MaxId
    ensures Candidate(start, k) == if start + k <= MaxId then start + k else start + k - MaxId
  {
    var a := start - 1 + k;
    assert 0 <= a < 2 * MaxId;
    if a < MaxId {
      assert a % MaxId == a;
    } else {
      assert a % MaxId == a - MaxId;
    }
  }

  /** From a cursor in 1..50, fifty steps visit every id in 1..50. */
  lemma CandidatesCoverIds(start: int, c: int)
    requires 1 <= start <= MaxId && 1 <= c <= MaxId
    ensures Candidate(start, (c - start + MaxId) % MaxId) == c
  {
    var k := (c - start + MaxId) % MaxId;
    if c >= start {
      assert k == c - start;
    } else {
      assert k == c - start + MaxId;
    }
    CandidateIsCyclic(start, k);
  }

  /** `renumber`: the tickets of one column get ids offset+1, offset+2, ...
      in order; nothing else about them changes. */
  function Renumber(s: seq<Ticket>, offset: int): (r: seq<Ticket>)
    ensures |r| == |s|
    ensures forall i :: 0 <= i < |s| ==> r[i] == s[i].(id := Num(offset + i + 1))
  {
    if |s| == 0 then [] else [s[0].(id := Num(offset + 1))] + Renumber(s[1..], offset + 1)
  }

  /** The tickets of todo, doing and done together. */
  function TicketCount(db: Db): nat
  {
    |Col(db, Todo)| + |Col(db, Doing)| + |Col(db, Done)|
  }

  /** The test `used.size === total && total <= 50` of the keep-ids branch. */
  predicate KeepsIds(db: Db)
  {
    |UsedIds(db)| == TicketCount(db) && TicketCount(db) <= MaxId
  }

  /** The defaults filled in before anything else: the three columns, `meta`
      and `metrics` (an existing `metrics` value, even a ticket array, stays). */
  function Normalize(db: Db): (r: Db)
    ensures Todo in r.columns && Doing in r.columns && Done in r.columns
    ensures forall k :: k in r.columns <==> k in db.columns || k == Todo || k == Doing || k == Done
    ensures forall k :: Col(r, k) == Col(db, k)
    ensures r.meta == Some(MetaOf(db))
    ensures db.metrics.NoMetrics? ==> r.metrics == Log([])
    ensures !db.metrics.NoMetrics? ==> r.metrics == db.metrics
  {
    Db(db.columns[Todo := Col(db, Todo)][Doing := Col(db, Doing)][Done := Col(db, Done)],
       Some(MetaOf(db)),
       if db.metrics.NoMetrics? then Log([]) else db.metrics)
  }

  /** The result of `migrateNumericIds`: the document, or the error thrown
      when more than fifty tickets cannot be renumbered. */
  datatype Migration = Migrated(db: Db) | TooManyTickets

  /** `migrateNumericIds`. */
  function Migrate(db: Db): (r: Migration)
    ensures r.TooManyTickets? <==> TicketCount(db) > MaxId
    ensures r.Migrated? ==> Todo in r.db.columns && Doing in r.db.columns && Done in r.db.columns
    ensures r.Migrated? ==> forall k :: k != Todo && k != Doing && k != Done ==>
              (k in r.db.columns <==> k in db.columns) && (k in db.columns ==> r.db.columns[k] == db.columns[k])
    ensures r.Migrated? ==> r.db.metrics == (if db.metrics.NoMetrics? then Log([]) else db.metrics)
    ensures r.Migrated? ==> r.db.meta.Some? && r.db.meta.value.lastStartedId == MetaOf(db).lastStartedId
    ensures r.Migrated? ==> TicketCount(r.db) == TicketCount(db)
  {
    var d := Normalize(db);
    var meta := MetaOf(db);
    if KeepsIds(db) then
      var start := meta.nextId.GetOr(1);
      match FirstFreeStep(UsedIds(db), start, 0)
      case Some(k) => Migrated(d.(meta := Some(meta.(nextId := Some(Candidate(start, k))))))
      case None => Migrated(d)
    else if TicketCount(db) > MaxId then TooManyTickets
    else
      var a, b, c := Col(db, Todo), Col(db, Doing), Col(db, Done);
      Migrated(d.(columns := d.columns[Todo := Renumber(a, 0)][Doing := Renumber(b, |a|)][Done := Renumber(c, |a| + |b|)],
                  meta := Some(meta.(nextId := Some(TicketCount(db) % MaxId + 1)))))
  }

  /** The keep-ids branch is taken exactly when `done` is empty and every
      `todo`/`doing` ticket holds a valid id that no other one holds. */
  lemma KeepsIdsIff(db: Db)
    ensures KeepsIds(db) <==> Col(db, Done) == [] && AllValid(Live(db)) && LiveDistinct(db)
  {
    var l := Live(db);
    CountValidIds(l);
    UsedAtMostFifty(db);
    assert |l| == |Col(db, Todo)| + |Col(db, Doing)|;
    assert UsedIds(db) == ValidIds(l);
    if KeepsIds(db) {
      assert |Col(db, Done)| == 0;
    }
  }

  /** Keep-ids branch: no ticket changes, and the cursor becomes the first
      scanned candidate not in use (it stays as it was when all are used). */
  lemma MigrateKeepsIds(db: Db)
    requires KeepsIds(db)
    ensures Migrate(db).Migrated?
    ensures var r := Migrate(db).db;
            Col(r, Todo) == Col(db, Todo) && Col(r, Doing) == Col(db, Doing) && Col(r, Done) == Col(db, Done)
    ensures var start := MetaOf(db).nextId.GetOr(1);
            var next := Migrate(db).db.meta.value.nextId;
            match FirstFreeStep(UsedIds(db), start, 0)
            case Some(k) =>
              next == Some(Candidate(start, k)) && Candidate(start, k) !in UsedIds(db)
              && forall j :: 0 <= j < k ==> Candidate(start, j) in UsedIds(db)
            case None => next == MetaOf(db).nextId
  {
  }

  /** With a cursor in 1..50 the keep-ids branch leaves it on an unused id in
      1..50, unless all fifty ids are in use. */
  lemma MigrateCursorInRange(db: Db)
    requires KeepsIds(db)
    requires MetaOf(db).nextId.Some? && 1 <= MetaOf(db).nextId.value <= MaxId
    ensures var next := Migrate(db).db.meta.value.nextId;
            (next.Some? && 1 <= next.value <= MaxId && next.value !in UsedIds(db))
            || (next == MetaOf(db).nextId && |UsedIds(db)| == MaxId)
  {
    var start := MetaOf(db).nextId.value;
    match FirstFreeStep(UsedIds(db), start, 0)
    case Some(k) =>
      CandidateIsCyclic(start, k);
    case None =>
      forall c | 1 <= c <= MaxId ensures c in UsedIds(db) {
        CandidatesCoverIds(start, c);
      }
      FullIffFifty(db);
  }

  /** Renumbering branch: every ticket of todo, doing and done, in that order,
      gets the next id from 1, and the cursor is `N % 50 + 1`. */
  lemma MigrateRenumbers(db: Db)
    requires !KeepsIds(db) && TicketCount(db) <= MaxId
    ensures Migrate(db).Migrated?
    ensures var a, b, c := Col(db, Todo), Col(db, Doing), Col(db, Done);
            var r := Migrate(db).db;
            && |Col(r, Todo)| == |a| && |Col(r, Doing)| == |b| && |Col(r, Done)| == |c|
            && (forall i :: 0 <= i < |a| ==> Col(r, Todo)[i] == a[i].(id := Num(i + 1)))
            && (forall i :: 0 <= i < |b| ==> Col(r, Doing)[i] == b[i].(id := Num(|a| + i + 1)))
            && (forall i :: 0 <= i < |c| ==> Col(r, Done)[i] == c[i].(id := Num(|a| + |b| + i + 1)))
            && r.meta.value.nextId == Some(TicketCount(db) % MaxId + 1)
  {
  }

  /** The ids a renumbered column holds: exactly offset+1 .. offset+|s|, once each. */
  lemma {:induction false} RenumberBag(s: seq<Ticket>, offset: nat)
    requires offset + |s| <= MaxId
    ensures AllValid(Renumber(s, offset))
    ensures forall x :: IdBag(Renumber(s, offset))[x] == if offset < x <= offset + |s| then 1 else 0
  {
    if |s| > 0 {
      var p := s[..|s| - 1];
      RenumberBag(p, offset);
      RenumberSnoc(s, offset);
      NextIdBag(Renumber(p, offset), Renumber(s, offset)[|s| - 1], offset, |s| - 1);
    }
  }

  /** Appending a ticket with id offset+n+1 to tickets holding offset+1 ..
      offset+n once each gives offset+1 .. offset+n+1 once each. */
  lemma NextIdBag(p: seq<Ticket>, t: Ticket, offset: nat, n: nat)
    requires AllValid(p) && ToId(t.id) == Some(offset + n + 1)
    requires forall x :: IdBag(p)[x] == if offset < x <= offset + n then 1 else 0
    ensures AllValid(p + [t])
    ensures forall x :: IdBag(p + [t])[x] == if offset < x <= offset + n + 1 then 1 else 0
  {
    SnocParts(p, t);
  }

  /** Renumbering a column is renumbering all but its last ticket, then the
      last ticket. */
  lemma RenumberSnoc(s: seq<Ticket>, offset: int)
    requires |s| > 0
    ensures Renumber(s, offset) == Renumber(s[..|s| - 1], offset) + [Renumber(s, offset)[|s| - 1]]
  {
    var r, rp := Renumber(s, offset), Renumber(s[..|s| - 1], offset);
    assert |r| == |rp| + 1;
    forall i | 0 <= i < |rp| ensures r[i] == rp[i] {
      assert s[..|s| - 1][i] == s[i];
    }
  }

  lemma RenumberConcat(a: seq<Ticket>, b: seq<Ticket>, offset: int)
    ensures Renumber(a, offset) + Renumber(b, offset + |a|) == Renumber(a + b, offset)
  {
    var l, r := Renumber(a, offset) + Renumber(b, offset + |a|), Renumber(a + b, offset);
    assert |l| == |r|;
    forall i | 0 <= i < |l| ensures l[i] == r[i] {
      if i < |a| { assert (a + b)[i] == a[i]; } else { assert (a + b)[i] == b[i - |a|]; }
    }
  }

  /** The live tickets after a renumbering are the old ones renumbered from 1. */
  lemma RenumberedLive(db: Db)
    requires !KeepsIds(db) && TicketCount(db) <= MaxId
    ensures Migrate(db).Migrated? && Live(Migrate(db).db) == Renumber(Live(db), 0)
  {
    RenumberedColumns(db);
    LiveRenumbered(db, Migrate(db).db);
  }

  lemma LiveRenumbered(db: Db, r: Db)
    requires Col(r, Todo) == Renumber(Col(db, Todo), 0)
    requires Col(r, Doing) == Renumber(Col(db, Doing), |Col(db, Todo)|)
    ensures Live(r) == Renumber(Live(db), 0)
  {
    RenumberConcat(Col(db, Todo), Col(db, Doing), 0);
  }

  /** The renumbering branch writes todo renumbered from 1 and doing
      renumbered after todo. */
  lemma RenumberedColumns(db: Db)
    requires !KeepsIds(db) && TicketCount(db) <= MaxId
    ensures Migrate(db).Migrated?
    ensures Col(Migrate(db).db, Todo) == Renumber(Col(db, Todo), 0)
    ensures Col(Migrate(db).db, Doing) == Renumber(Col(db, Doing), |Col(db, Todo)|)
  {
  }

  /** Whichever branch runs, a successful migration leaves every live ticket
      with a valid id of its own. */
  lemma MigrateMakesLiveDistinct(db: Db)
    requires Migrate(db).Migrated?
    ensures LiveDistinct(Migrate(db).db) && AllValid(Live(Migrate(db).db))
  {
    KeepsIdsIff(db);
    if KeepsIds(db) {
      MigrateKeepsIds(db);
      var r := Migrate(db).db;
      assert Col(r, Todo) == Col(db, Todo) && Col(r, Doing) == Col(db, Doing);
      assert Live(r) == Live(db);
    } else {
      RenumberedLive(db);
      RenumberBag(Live(db), 0);
    }
  }
}

=== FILE: readers.dfy ===
/** Choosing the PC/SC reader (`pick_contactless_utrust`, identical in
    scripts/add_new_cards.py and scripts/read_cards.py). Each reader name is
    scored on its lower-cased text: 2 points for an Identiv uTrust device,
    5 for a contactless one. The readers are sorted by descending score, then
    by name, and the first is taken; with no reader the script raises. */
module Readers {
  import opened Common

  function LowerChar(c: char): char
  {
    if 'A' <= c <= 'Z' then (c as int + 32) as char else c
  }

  /** `str.lower()` on ASCII letters. */
  function Lower(s: string): (r: string)
    ensures |r| == |s|
    ensures forall i :: 0 <= i < |s| ==> r[i] == LowerChar(s[i])
  {
    seq(|s|, i requires 0 <= i < |s| => LowerChar(s[i]))
  }

  /** The `n` characters of `s` from position `i`. */
  function Piece(s: string, i: int, n: nat): string
    requires 0 <= i && i + n <= |s|
  {
    s[i..i + n]
  }

  /** Python's `k in s` on strings: `k` occurs as a contiguous piece of `s`. */
  predicate Contains(s: string, k: string)
  {
    exists i | 0 <= i <= |s| - |k| :: Piece(s, i, |k|) == k
  }

  /** A keyword with a character the text lacks does not occur in it. */
  lemma MissingCharNotContained(s: string, k: string, j: nat)
    requires j < |k| && k[j] !in s
    ensures !Contains(s, k)
  {
    forall i | 0 <= i <= |s| - |k| ensures Piece(s, i, |k|) != k {
      assert Piece(s, i, |k|)[j] == s[i + j];
    }
  }

  /** The keywords that mark a contactless reader. */
  const ContactlessKeys: seq<string> := ["contactless", " cl", "nfc", "picc"]

  /** `score(r)`. */
  function Score(name: string): (r: int)
    ensures r in {0, 2, 5, 7}
    ensures r >= 5 <==> exists k :: k in ContactlessKeys && Contains(Lower(name), k)
    ensures r % 5 == 2 <==> Contains(Lower(name), "utrust") || Contains(Lower(name), "identiv")
  {
    var s := Lower(name);
    (if Contains(s, "utrust") || Contains(s, "identiv") then 2 else 0)
    + (if exists k | k in ContactlessKeys :: Contains(s, k) then 5 else 0)
  }

  /** Python's `<` on strings: code-point order, a proper prefix first. */
  predicate LexLess(a: string, b: string)
  {
    if |a| == 0 then |b| > 0
    else if |b| == 0 then false
    else if a[0] != b[0] then a[0] < b[0]
    else LexLess(a[1..], b[1..])
  }

  lemma {:induction false} LexLessIrreflexive(a: string)
    ensures !LexLess(a, a)
  {
    if |a| > 0 {
      LexLessIrreflexive(a[1..]);
    }
  }

  lemma {:induction false} LexLessTransitive(a: string, b: string, c: string)
    requires LexLess(a, b) && LexLess(b, c)
    ensures LexLess(a, c)
  {
    if |a| > 0 && |b| > 0 && |c| > 0 && a[0] == b[0] && b[0] == c[0] {
      LexLessTransitive(a[1..], b[1..], c[1..]);
    }
  }

  /** Two different names are always ordered one way or the other. */
  lemma {:induction false} LexLessTotal(a: string, b: string)
    requires a != b
    ensures LexLess(a, b) || LexLess(b, a)
  {
    if |a| > 0 && |b| > 0 && a[0] == b[0] {
      assert a == [a[0]] + a[1..] && b == [b[0]] + b[1..];
      LexLessTotal(a[1..], b[1..]);
    }
  }

  lemma {:induction false} LexLessAsymmetric(a: string, b: string)
    requires LexLess(a, b)
    ensures !LexLess(b, a)
  {
    if |a| > 0 && |b| > 0 && a[0] == b[0] {
      LexLessAsymmetric(a[1..], b[1..]);
    }
  }

  /** `a` sorts strictly before `b` under the key `(-score, name)`. */
  predicate Before(a: string, b: string)
  {
    Score(a) > Score(b) || (Score(a) == Score(b) && LexLess(a, b))
  }

  lemma BeforeTransitive(a: string, b: string, c: string)
    requires Before(a, b) && Before(b, c)
    ensures Before(a, c)
  {
    if Score(a) == Score(b) == Score(c) {
      LexLessTransitive(a, b, c);
    }
  }

  /** `name` is a first element of `names` once sorted by the key. */
  predicate IsFirst(names: seq<string>, name: string)
  {
    name in names && forall x :: x in names ==> !Before(x, name)
  }

  /** `sorted(rl, key=lambda r: (-score(r), str(r)))[0]`; None where the
      script raises for want of a reader. */
  method PickReader(names: seq<string>) returns (r: Option<string>)
    ensures r.None? <==> |names| == 0
    ensures r.Some? ==> IsFirst(names, r.value)
  {
    if |names| == 0 {
      return None;
    }
    var best := names[0];
    var i := 1;
    LexLessIrreflexive(best);
    while i < |names|
      invariant 1 <= i <= |names|
      invariant best in names[..i]
      invariant forall j :: 0 <= j < i ==> !Before(names[j], best)
    {
      if Before(names[i], best) {
        forall j | 0 <= j < i ensures !Before(names[j], names[i]) {
          if Before(names[j], names[i]) {
            BeforeTransitive(names[j], names[i], best);
          }
        }
        best := names[i];
        LexLessIrreflexive(best);
      }
      i := i + 1;
    }
    assert names[..i] == names;
    return Some(best);
  }

  /** The key orders distinct names strictly, so the first reader is unique:
      whatever order the readers are listed in, the same one is chosen. */
  lemma FirstIsUnique(names: seq<string>, a: string, b: string)
    requires IsFirst(names, a) && IsFirst(names, b)
    ensures a == b
  {
    if a != b {
      LexLessTotal(a, b);
    }
  }

  /** A uTrust contactless reader scores 7. */
  lemma UtrustContactlessScoresSeven()
    ensures Score("uTrust 3700 F CL") == 7
  {
    var a := Lower("uTrust 3700 F CL");
    assert a == "utrust 3700 f cl";
    assert Piece(a, 0, 6) == "utrust";
    assert Piece(a, 13, 3) == " cl";
    assert Contains(a, "utrust") && Contains(a, " cl") && ContactlessKeys[1] == " cl";
  }

  /** A plain NFC reader of another make scores 5. */
  lemma PlainNfcScoresFive()
    ensures Score("ACS NFC Reader") == 5
  {
    var b := Lower("ACS NFC Reader");
    assert b == "acs nfc reader";
    assert Piece(b, 4, 3) == "nfc";
    assert Contains(b, "nfc") && ContactlessKeys[2] == "nfc";
    MissingCharNotContained(b, "utrust", 0);
    MissingCharNotContained(b, "identiv", 6);
  }
}

=== FILE: realtime_sfx.dfy ===
/** Sound effects for board transitions (frontend/src/composables/useRealtimeSfx.js).
    A timer polls GET /tickets; each poll collects the ids of `doing` and of
    `done` into JavaScript `Set`s, plays the start sound once for every
    `doing` id the previous poll did not see and the complete sound once for
    every new `done` id, then keeps the new sets for the next poll. A `Set`
    is modelled by its iteration order: a sequence without repeats. */
module RealtimeSfx {
  import opened Common
  import opened Board
  import opened Columns
  import opened ClientTickets
  import Server

  /** No value occurs twice. */
  predicate Distinct(s: seq<IdVal>)
  {
    forall i, j :: 0 <= i < j < |s| ==> s[i] != s[j]
  }

  /** The values of a sequence as a mathematical set. */
  function Elems(s: seq<IdVal>): set<IdVal>
  {
    set x | x in s
  }

  /** `tickets.map(t => t.id)`. */
  function Ids(ts: seq<Ticket>): (r: seq<IdVal>)
    ensures |r| == |ts| && forall i :: 0 <= i < |ts| ==> r[i] == ts[i].id
  {
    seq(|ts|, i requires 0 <= i < |ts| => ts[i].id)
  }

  /** Adding `ids` one after the other to a `Set` that already holds `seen`:
      the values that were newly inserted, in insertion order. */
  function Inserted(ids: seq<IdVal>, seen: set<IdVal>): (r: seq<IdVal>)
    ensures Distinct(r)
    ensures forall x :: x in r <==> x in ids && x !in seen
    decreases |ids|
  {
    if |ids| == 0 then []
    else if ids[0] in seen then Inserted(ids[1..], seen)
    else [ids[0]] + Inserted(ids[1..], seen + {ids[0]})
  }

  /** `new Set(ids)`, in iteration order. */
  function SetOf(ids: seq<IdVal>): (r: seq<IdVal>)
    ensures Distinct(r)
    ensures forall x :: x in r <==> x in ids
  {
    Inserted(ids, {})
  }

  datatype IdSets = IdSets(doing: seq<IdVal>, done: seq<IdVal>)

  /** `setsFrom(tickets)`: the id sets of `doing` and `done`; a missing
      column gives the empty set. */
  function SetsFrom(b: BoardJson): (r: IdSets)
    ensures Distinct(r.doing) && Distinct(r.done)
    ensures forall x :: x in r.doing <==> x in Ids(b.doing.GetOr([]))
    ensures forall x :: x in r.done <==> x in Ids(b.done.GetOr([]))
    ensures b.doing.None? ==> r.doing == []
    ensures b.done.None? ==> r.done == []
  {
    IdSets(SetOf(Ids(b.doing.GetOr([]))), SetOf(Ids(b.done.GetOr([]))))
  }

  /** `for (const id of cur) if (!prev.has(id)) ...`: the values of `cur`
      that `prev` lacks, in iteration order, one sound each. */
  function Appeared(cur: seq<IdVal>, prev: seq<IdVal>): (r: seq<IdVal>)
    ensures forall x :: x in r <==> x in cur && x !in prev
    ensures Distinct(cur) ==> Distinct(r)
    ensures |r| <= |cur|
  {
    if |cur| == 0 then []
    else
      var rest := Appeared(cur[1..], prev);
      assert Distinct(cur) ==> cur[0] !in cur[1..];
      (if cur[0] in prev then [] else [cur[0]]) + rest
  }

  lemma {:induction false} DistinctCardinality(s: seq<IdVal>)
    requires Distinct(s)
    ensures |Elems(s)| == |s|
  {
    if |s| > 0 {
      DistinctCardinality(s[1..]);
      assert Elems(s) == Elems(s[1..]) + {s[0]};
      assert s[0] !in Elems(s[1..]);
    }
  }

  /** The number of sounds a set plays is the size of the set difference
      between the current ids and the previous ones. */
  lemma SoundCount(cur: seq<IdVal>, prev: seq<IdVal>)
    requires Distinct(cur)
    ensures |Appeared(cur, prev)| == |Elems(cur) - Elems(prev)|
  {
    var r := Appeared(cur, prev);
    DistinctCardinality(r);
    assert Elems(r) == Elems(cur) - Elems(prev);
  }

  /** The composable's state: whether a timer exists, and the sets the last
      successful poll kept. */
  datatype SfxState = SfxState(timer: bool, prevDoing: seq<IdVal>, prevDone: seq<IdVal>)

  const Idle := SfxState(false, [], [])

  /** The outcome of one poll: the new state and the ids that played the
      start sound and the complete sound. */
  datatype Heard = Heard(state: SfxState, starts: seq<IdVal>, completes: seq<IdVal>)

  /** `tick()`, with the fetched board as a parameter. A failed fetch is
      caught: nothing plays and nothing changes. */
  function Tick(st: SfxState, reply: Fetched<BoardJson>): (r: Heard)
    ensures reply.NotOk? ==> r == Heard(st, [], [])
    ensures r.state.timer == st.timer
    ensures reply.Ok? ==> var sets := SetsFrom(reply.body);
              && r.state.prevDoing == sets.doing && r.state.prevDone == sets.done
              && Distinct(r.starts) && Distinct(r.completes)
              && (forall x :: x in r.starts <==> x in sets.doing && x !in st.prevDoing)
              && (forall x :: x in r.completes <==> x in sets.done && x !in st.prevDone)
              && |r.starts| == |Elems(sets.doing) - Elems(st.prevDoing)|
              && |r.completes| == |Elems(sets.done) - Elems(st.prevDone)|
  {
    match reply
    case NotOk => Heard(st, [], [])
    case Ok(b) =>
      var sets := SetsFrom(b);
      SoundCount(sets.doing, st.prevDoing);
      SoundCount(sets.done, st.prevDone);
      Heard(st.(prevDoing := sets.doing, prevDone := sets.done),
            Appeared(sets.doing, st.prevDoing), Appeared(sets.done, st.prevDone))
  }

  /** `start()`: nothing while a timer exists; otherwise the timer is set and
      the first poll runs. */
  function Start(st: SfxState, reply: Fetched<BoardJson>): (r: Heard)
    ensures st.timer ==> r == Heard(st, [], [])
    ensures !st.timer ==> r.state.timer && r == Tick(st.(timer := true), reply)
  {
    if st.timer then Heard(st, [], []) else Tick(st.(timer := true), reply)
  }

  /** `stop()`: the timer is cleared when there is one; the kept sets stay. */
  function Stop(st: SfxState): (r: SfxState)
    ensures !r.timer
    ensures r.prevDoing == st.prevDoing && r.prevDone == st.prevDone
    ensures !st.timer ==> r == st
  {
    if st.timer then st.(timer := false) else st
  }

  /** A poll that sees what the previous poll saw plays nothing and keeps
      the state. */
  lemma TickTwiceIsSilent(st: SfxState, b: BoardJson)
    ensures var first := Tick(st, Ok(b));
            Tick(first.state, Ok(b)) == Heard(first.state, [], [])
  {
    var sets := SetsFrom(b);
    NothingAppeared(sets.doing, sets.doing);
    NothingAppeared(sets.done, sets.done);
  }

  // ---------------------------------------- what the backend's moves sound like

  /** One more id at the end of the insertions comes out last exactly when
      it was neither in the Set already nor inserted earlier: new ids keep
      the order of their first insertion. */
  lemma {:induction false} InsertedSnoc(ids: seq<IdVal>, seen: set<IdVal>, x: IdVal)
    ensures Inserted(ids + [x], seen) == Inserted(ids, seen) + (if x in seen || x in ids then [] else [x])
    decreases |ids|
  {
    if |ids| == 0 {
      assert ids + [x] == [x];
    } else {
      assert (ids + [x])[0] == ids[0] && (ids + [x])[1..] == ids[1..] + [x];
      assert x in ids <==> x == ids[0] || x in ids[1..];
      if ids[0] in seen {
        InsertedSnoc(ids[1..], seen, x);
      } else {
        InsertedSnoc(ids[1..], seen + {ids[0]}, x);
        assert x in seen + {ids[0]} <==> x in seen || x == ids[0];
      }
    }
  }

  lemma {:induction false} AppearedConcat(a: seq<IdVal>, b: seq<IdVal>, prev: seq<IdVal>)
    ensures Appeared(a + b, prev) == Appeared(a, prev) + Appeared(b, prev)
    decreases |a|
  {
    if |a| == 0 {
      assert a + b == b;
    } else {
      assert (a + b)[1..] == a[1..] + b;
      AppearedConcat(a[1..], b, prev);
    }
  }

  /** Nothing appears when every current value was there before. */
  lemma NothingAppeared(cur: seq<IdVal>, prev: seq<IdVal>)
    requires forall x :: x in cur ==> x in prev
    ensures Appeared(cur, prev) == []
  {
  }

  /** The id set of a column after a ticket with id `k` joined it at the end. */
  lemma SetOfSnoc(s: seq<Ticket>, t: Ticket, k: int)
    requires t.id == Num(k)
    ensures SetOf(Ids(s + [t])) == SetOf(Ids(s)) + (if Lacks(s, k) then [Num(k)] else [])
    ensures Appeared(SetOf(Ids(s + [t])), SetOf(Ids(s))) == (if Lacks(s, k) then [Num(k)] else [])
  {
    assert Ids(s + [t]) == Ids(s) + [Num(k)];
    InsertedSnoc(Ids(s), {}, Num(k));
    assert Num(k) in Ids(s) <==> !Lacks(s, k) by {
      if !Lacks(s, k) {
        var j :| 0 <= j < |s| && s[j].id == Num(k);
        assert Ids(s)[j] == Num(k);
      }
    }
    var before := SetOf(Ids(s));
    var tail := if Lacks(s, k) then [Num(k)] else [];
    AppearedConcat(before, tail, before);
    NothingAppeared(before, before);
  }

  /** The state of a poll that saw the stored document `db`. */
  function SawBoard(st: SfxState, db: Db): SfxState
  {
    Tick(st, Ok(Listed(db))).state
  }

  /** A poll of `d` after a poll of `db`: the sounds are the ids of `d`'s
      doing and done columns that `db`'s columns lacked. */
  lemma PollAfterPoll(st: SfxState, db: Db, d: Db)
    ensures var h := Tick(SawBoard(st, db), Ok(Listed(d)));
            && h.starts == Appeared(SetOf(Ids(Col(d, Doing))), SetOf(Ids(Col(db, Doing))))
            && h.completes == Appeared(SetOf(Ids(Col(d, Done))), SetOf(Ids(Col(db, Done))))
  {
  }

  /** Taking a ticket out of a column brings no new id into its set. */
  lemma RemoveAtIsSilent(s: seq<Ticket>, i: nat)
    requires i < |s|
    ensures Appeared(SetOf(Ids(RemoveAt(s, i))), SetOf(Ids(s))) == []
  {
    var after := RemoveAt(s, i);
    forall x | x in Ids(after) ensures x in Ids(s) {
      var j :| 0 <= j < |after| && Ids(after)[j] == x;
      if j < i {
        assert Ids(s)[j] == x;
      } else {
        assert Ids(s)[j + 1] == x;
      }
    }
    NothingAppeared(SetOf(Ids(after)), SetOf(Ids(s)));
  }

  /** After the backend starts ticket `k`, the next poll plays the start
      sound once, for `k`, unless another doing ticket already held the id,
      and plays no complete sound. */
  lemma StartIsHeard(st: SfxState, db: Db, k: int)
    requires Server.StartTicket(db, Some(k)).response.status == 200
    ensures var r := Server.StartTicket(db, Some(k));
            var h := Tick(SawBoard(st, db), Ok(Listed(r.stored)));
            h.starts == (if Lacks(Col(db, Doing), k) then [Num(k)] else []) && h.completes == []
  {
    var r := Server.StartTicket(db, Some(k));
    var f := FindTicket(db, k).value;
    PollAfterPoll(st, db, r.stored);
    SetOfSnoc(Col(db, Doing), f.ticket, k);
    var done := SetOf(Ids(Col(db, Done)));
    NothingAppeared(done, done);
  }

  /** After the backend completes ticket `k`, the next poll plays the
      complete sound once, for `k`, unless a done ticket already held the id
      (done ids are handed out again), and plays no start sound. */
  lemma CompleteIsHeard(st: SfxState, db: Db, k: int, now: string)
    requires Server.CompleteTicket(db, Some(k), now).response.status == 200
    ensures var r := Server.CompleteTicket(db, Some(k), now);
            var h := Tick(SawBoard(st, db), Ok(Listed(r.stored)));
            h.completes == (if Lacks(Col(db, Done), k) then [Num(k)] else []) && h.starts == []
  {
    var r := Server.CompleteTicket(db, Some(k), now);
    var f := FindTicket(db, k).value;
    PollAfterPoll(st, db, r.stored);
    SetOfSnoc(Col(db, Done), f.ticket.(completedAt := Some(now)), k);
    RemoveAtIsSilent(Col(db, Doing), f.idx);
  }
}

=== FILE: server.dfy ===
/** The board operations behind the REST routes (backend/server.js). Each
    route checks its input first, then submits one callback to the
    single-writer queue; the callback reads the stored document and says
    whether its copy is to be written back. A route is modelled as a
    function from the stored document and the request to the new stored
    document and the HTTP response. */
module Server {
  import opened Common
  import opened Board
  import opened Allocator
  import opened Migration
  import opened Columns
  import opened Metrics
  import opened Storage

  /** Why a route refused a request. */
  datatype ErrorKind =
    | TitleRequired      // POST /tickets without a title
    | CapacityReached    // POST /tickets when no id is free
    | IdOutOfRange       // DELETE with an id that is not an integer in 1..50
    | IdNotInteger       // start/complete with an id that is not an integer
    | TicketNotFound     // DELETE of an id no ticket has
    | NotStartable       // start of a ticket that is absent or not first found in todo
    | NotCompletable     // complete of a ticket that is absent or not first found in doing
    | AmountNotNumber    // POST /metrics/amount with a non-finite amount

  datatype Body =
    | BoardBody(todo: seq<Ticket>, doing: seq<Ticket>, done: seq<Ticket>)
    | TicketBody(ticket: Ticket)
    | RemovedBody(removed: Ticket)
    | MovedBody(moved: Moved)
    | LastStartedBody(lastStartedId: Option<int>)
    | MetricsBody(figures: Figures)
    | NullBody
    | ErrorBody(error: ErrorKind)

  datatype Response = Response(status: int, body: Body)

  /** The stored document after a route ran, and its response. */
  datatype Reply = Reply(stored: Db, response: Response)

  // ---------------------------------------------------------------- startup

  /** The startup call: migrate the ids and keep the result; when migration
      throws, the queue swallows the error and the stored document stays. */
  function Startup(stored: Db): (r: Db)
    ensures Migrate(stored).Migrated? ==> r == Migrate(stored).db
    ensures Migrate(stored).TooManyTickets? ==> r == stored
  {
    WithDb(stored, (db: Db) => StartupStep(db)).stored
  }

  /** The startup callback: the migrated document is kept; more than fifty
      tickets make it throw. */
  function StartupStep(db: Db): (r: Attempt<()>)
    ensures r.Throws? <==> TicketCount(db) > MaxId
    ensures r.Returns? ==> r.persist && r.copy == Migrate(db).db && TicketCount(r.copy) == TicketCount(db)
  {
    match Migrate(db)
    case Migrated(d) => Returns(d, true, Some(()))
    case TooManyTickets => Throws
  }

  // ---------------------------------------------------------- GET /tickets

  /** GET /tickets: the three columns, `[]` for a missing one; nothing written. */
  function ListTickets(stored: Db): (r: Reply)
    ensures r.stored == stored
    ensures r.response == Response(200, BoardBody(Col(stored, Todo), Col(stored, Doing), Col(stored, Done)))
  {
    var c := WithDb(stored, (db: Db) => Returns(db, false, Some(db)));
    var d := c.value.GetOr(stored);
    Reply(c.stored, Response(200, BoardBody(Col(d, Todo), Col(d, Doing), Col(d, Done))))
  }

  // --------------------------------------------------------- POST /tickets

  /** `db[column] = db[column] ? db[column] : []; db[column].push(t)`, or None
      where `push` throws because `db[column]` is not an array: `meta` (an
      object by now), a `metrics` object, or a name every object inherits. */
  function Place(db: Db, column: string, t: Ticket): (r: Option<Db>)
    requires db.meta.Some?
    ensures IsColumnKey(column) ==> r == Some(Append(db, column, t))
    ensures column == "meta" || column in ObjectPrototypeKeys ==> r.None?
    ensures column == "metrics" ==> (r.None? <==> db.metrics.Log?)
    ensures r.Some? ==> r.value.meta == db.meta
    ensures r.Some? ==> forall k :: IsColumnKey(k) && k != column ==> Col(r.value, k) == Col(db, k)
  {
    if column == "meta" then None
    else if column == "metrics" then
      match db.metrics
      case NoMetrics => Some(db.(metrics := TicketList([t])))
      case TicketList(ts) => Some(db.(metrics := TicketList(ts + [t])))
      case Log(_) => None
    else if column in ObjectPrototypeKeys then None
    else Some(Append(db, column, t))
  }

  /** The callback of POST /tickets. */
  function CreateStep(title: string, subtitle: string, column: string, db: Db): (r: Attempt<Ticket>)
    ensures (r.Returns? && r.value.None?) <==> forall k :: 1 <= k <= MaxId ==> k in UsedIds(db)
    ensures r.Returns? && r.value.None? ==> !r.persist && r.copy.columns == db.columns
    ensures r.Returns? && r.value.Some? ==>
              && r.persist
              && r.value.value == Ticket(Num(NextFreeId(db).id.value), title, subtitle, None)
              && NextFreeId(db).id.value !in UsedIds(db)
    ensures r.Throws? ==> !IsColumnKey(column)
    ensures IsColumnKey(column) && r.Returns? && r.value.Some? ==>
              Col(r.copy, column) == Col(db, column) + [r.value.value]
  {
    var alloc := NextFreeId(db);
    match alloc.id
    case None => Returns(alloc.db, false, None)
    case Some(id) =>
      var t := Ticket(Num(id), title, subtitle, None);
      match Place(alloc.db, column, t)
      case None => Throws
      case Some(d) => Returns(d, true, Some(t))
  }

  /** POST /tickets `{ title, subtitle = "", column = "todo" }`. The
      defaults apply to absent fields only (None here); a JSON null column
      reaches `db[column]` as the property key "null" and is passed as
      `Some("null")`. */
  function CreateTicket(stored: Db, title: Option<string>, subtitle: Option<string>, column: Option<string>): (r: Reply)
    ensures title.None? || title.value == "" ==> r == Reply(stored, Response(400, ErrorBody(TitleRequired)))
    ensures r.response.status in {201, 400, 409}
    ensures r.response.status != 201 ==> r.stored == stored
    ensures title.Some? && title.value != "" && |UsedIds(stored)| == MaxId ==>
              r == Reply(stored, Response(409, ErrorBody(CapacityReached)))
    ensures r.response.status == 201 ==> r.response.body.TicketBody?
    ensures forall k :: IsColumnKey(k) && k != column.GetOr(Todo) ==> Col(r.stored, k) == Col(stored, k)
  {
    if title.None? || title.value == "" then Reply(stored, Response(400, ErrorBody(TitleRequired)))
    else
      NextFreeIdFull(stored);
      var c := WithDb(stored, (db: Db) => CreateStep(title.value, subtitle.GetOr(""), column.GetOr(Todo), db));
      match c.value
      case None => Reply(c.stored, Response(409, ErrorBody(CapacityReached)))
      case Some(t) => Reply(c.stored, Response(201, TicketBody(t)))
  }

  /** A successful create: the ticket `{ id, title, subtitle }` with the
      lowest free id goes to the end of the requested column (created if
      missing); the cursor moves past the id; no other column changes. */
  lemma CreateAppends(stored: Db, title: string, subtitle: Option<string>, column: Option<string>)
    requires title != "" && |UsedIds(stored)| < MaxId && IsColumnKey(column.GetOr(Todo))
    ensures NextFreeId(stored).id.Some?
    ensures var r := CreateTicket(stored, Some(title), subtitle, column);
            var col := column.GetOr(Todo);
            var id := NextFreeId(stored).id.GetOr(0);
            var t := Ticket(Num(id), title, subtitle.GetOr(""), None);
            && 1 <= id <= MaxId && id !in UsedIds(stored)
            && (forall k :: 1 <= k < id ==> k in UsedIds(stored))
            && r.response == Response(201, TicketBody(t))
            && Col(r.stored, col) == Col(stored, col) + [t]
            && (forall k :: k != col ==> Col(r.stored, k) == Col(stored, k))
            && r.stored.metrics == stored.metrics
            && r.stored.meta == Some(MetaOf(stored).(nextId := Some(id % MaxId + 1)))
  {
    NextFreeIdFull(stored);
    var alloc := NextFreeId(stored);
    var col := column.GetOr(Todo);
    var t := Ticket(Num(alloc.id.value), title, subtitle.GetOr(""), None);
    CreateStepPlaces(title, subtitle.GetOr(""), col, stored);
    CreateTicketCommits(stored, title, subtitle, column, Append(alloc.db, col, t), t);
  }

  /** A ticket posted with `column: null` is filed under the key "null",
      not under todo: the default only replaces an absent column. */
  lemma NullColumnMakesNullKey(stored: Db, title: string, subtitle: Option<string>)
    requires title != "" && |UsedIds(stored)| < MaxId
    ensures var r := CreateTicket(stored, Some(title), subtitle, Some("null"));
            && r.response.status == 201
            && Col(r.stored, "null") == Col(stored, "null") + [r.response.body.ticket]
            && Col(r.stored, Todo) == Col(stored, Todo)
  {
    assert IsColumnKey("null");
    CreateAppends(stored, title, subtitle, Some("null"));
  }

  /** With an id free, the create step appends the new ticket to the
      allocated copy and asks for it to be kept. */
  lemma CreateStepPlaces(title: string, subtitle: string, col: string, db: Db)
    requires IsColumnKey(col) && NextFreeId(db).id.Some?
    ensures var alloc := NextFreeId(db);
            var t := Ticket(Num(alloc.id.value), title, subtitle, None);
            CreateStep(title, subtitle, col, db) == Returns(Append(alloc.db, col, t), true, Some(t))
  {
  }

  /** A create step that keeps `d` and yields `t` answers 201 with `t` and
      stores `d`. */
  lemma CreateTicketCommits(stored: Db, title: string, subtitle: Option<string>, column: Option<string>, d: Db, t: Ticket)
    requires title != ""
    requires CreateStep(title, subtitle.GetOr(""), column.GetOr(Todo), stored) == Returns(d, true, Some(t))
    ensures CreateTicket(stored, Some(title), subtitle, column) == Reply(d, Response(201, TicketBody(t)))
  {
  }

  // --------------------------------------------------- DELETE /tickets/:id

  /** The callback of DELETE: the first-found ticket leaves its column. */
  function DeleteStep(id: int, db: Db): (r: Attempt<Ticket>)
    ensures r.Returns?
    ensures r.persist <==> FindTicket(db, id).Some?
    ensures !r.persist ==> r.copy == db && r.value.None?
    ensures r.persist ==> var f := FindTicket(db, id).value;
              && r.value == Some(f.ticket) && f.ticket.id == Num(id)
              && Col(r.copy, f.col) == RemoveAt(Col(db, f.col), f.idx)
              && (forall k :: k != f.col ==> Col(r.copy, k) == Col(db, k))
  {
    match FindTicket(db, id)
    case None => Returns(db, false, None)
    case Some(f) => Returns(Without(db, f), true, Some(f.ticket))
  }

  /** DELETE /tickets/:id. */
  function DeleteTicket(stored: Db, id: Option<int>): (r: Reply)
    ensures id.None? || id.value < 1 || id.value > MaxId ==> r == Reply(stored, Response(400, ErrorBody(IdOutOfRange)))
    ensures id.Some? && 1 <= id.value <= MaxId && FindTicket(stored, id.value).None? ==>
              r == Reply(stored, Response(404, ErrorBody(TicketNotFound)))
    ensures id.Some? && 1 <= id.value <= MaxId && FindTicket(stored, id.value).Some? ==>
              var f := FindTicket(stored, id.value).value;
              && r.response == Response(200, RemovedBody(f.ticket))
              && Col(r.stored, f.col) == RemoveAt(Col(stored, f.col), f.idx)
              && (forall k :: k != f.col ==> Col(r.stored, k) == Col(stored, k))
              && r.stored.meta == stored.meta && r.stored.metrics == stored.metrics
  {
    if id.None? || id.value < 1 || id.value > MaxId then Reply(stored, Response(400, ErrorBody(IdOutOfRange)))
    else
      var c := WithDb(stored, (db: Db) => DeleteStep(id.value, db));
      match c.value
      case None => Reply(c.stored, Response(404, ErrorBody(TicketNotFound)))
      case Some(t) => Reply(c.stored, Response(200, RemovedBody(t)))
  }

  // ---------------------------------------------- POST /tickets/:id/start

  /** The callback of start: only a ticket first found in todo moves (to the
      end of doing), and `meta.lastStartedId` records it. */
  function StartStep(id: int, db: Db): (r: Attempt<Moved>)
    ensures r.Returns?
    ensures r.persist <==> !Lacks(Col(db, Todo), id)
    ensures !r.persist ==> r.copy == db && r.value.None?
    ensures r.persist ==>
              && r.value.Some? && r.value.value.from == Todo && r.value.value.to == Doing
              && r.value.value.ticket.id == Num(id)
              && Col(r.copy, Doing) == Col(db, Doing) + [r.value.value.ticket]
              && r.copy.meta.Some? && r.copy.meta.value.lastStartedId == Some(id)
  {
    match FindTicket(db, id)
    case None => Returns(db, false, None)
    case Some(f) =>
      if f.col != Todo then Returns(db, false, None)
      else
        var (d, m) := MoveTicket(db, id, Doing).value;
        Returns(d.(meta := Some(MetaOf(d).(lastStartedId := Some(id)))), true, Some(m))
  }

  /** POST /tickets/:id/start (no range check on the id, unlike DELETE). */
  function StartTicket(stored: Db, id: Option<int>): (r: Reply)
    ensures id.None? ==> r == Reply(stored, Response(400, ErrorBody(IdNotInteger)))
    ensures id.Some? ==> var f := FindTicket(stored, id.value);
              if f.Some? && f.value.col == Todo then
                && r.response == Response(200, MovedBody(Moved(Todo, Doing, f.value.ticket)))
                && Col(r.stored, Todo) == RemoveAt(Col(stored, Todo), f.value.idx)
                && Col(r.stored, Doing) == Col(stored, Doing) + [f.value.ticket]
                && (forall k :: k != Todo && k != Doing ==> Col(r.stored, k) == Col(stored, k))
                && r.stored.meta == Some(MetaOf(stored).(lastStartedId := id))
                && r.stored.metrics == stored.metrics
              else r == Reply(stored, Response(404, ErrorBody(NotStartable)))
  {
    if id.None? then Reply(stored, Response(400, ErrorBody(IdNotInteger)))
    else
      var c := WithDb(stored, (db: Db) => StartStep(id.value, db));
      match c.value
      case None => Reply(c.stored, Response(404, ErrorBody(NotStartable)))
      case Some(m) => Reply(c.stored, Response(200, MovedBody(m)))
  }

  // ------------------------------------------- POST /tickets/:id/complete

  /** `found.ticket.completedAt = now`: the found doing ticket, stamped in place. */
  function Stamp(db: Db, f: Found, now: string): (r: Db)
    requires f.col == Doing && f.idx < |Col(db, Doing)|
  {
    db.(columns := db.columns[Doing := Col(db, Doing)[f.idx := f.ticket.(completedAt := Some(now))]])
  }

  /** Stamping does not change which ticket is found first. */
  lemma StampKeepsFound(db: Db, id: int, now: string)
    requires FindTicket(db, id).Some? && FindTicket(db, id).value.col == Doing
    ensures var f := FindTicket(db, id).value;
            FindTicket(Stamp(db, f, now), id) == Some(Found(Doing, f.idx, f.ticket.(completedAt := Some(now))))
  {
    var f := FindTicket(db, id).value;
    var s := Stamp(db, f, now);
    assert Col(s, Todo) == Col(db, Todo);
    assert Col(s, Doing)[f.idx].id == Num(id);
    assert !Lacks(Col(s, Doing), id);
    var i := FirstIndex(Col(s, Doing), id).value;
    assert Col(s, Doing)[..f.idx] == Col(db, Doing)[..f.idx];
  }

  /** The callback of complete: only a ticket first found in doing moves (to
      the end of done), stamped with the completion time. */
  function CompleteStep(id: int, now: string, db: Db): (r: Attempt<Moved>)
    ensures r.Returns?
    ensures r.persist <==> Lacks(Col(db, Todo), id) && !Lacks(Col(db, Doing), id)
    ensures !r.persist ==> r.copy == db && r.value.None?
    ensures r.persist ==>
              && r.value.Some? && r.value.value.from == Doing && r.value.value.to == Done
              && r.value.value.ticket.id == Num(id) && r.value.value.ticket.completedAt == Some(now)
              && Col(r.copy, Done) == Col(db, Done) + [r.value.value.ticket]
  {
    match FindTicket(db, id)
    case None => Returns(db, false, None)
    case Some(f) =>
      if f.col != Doing then Returns(db, false, None)
      else
        StampKeepsFound(db, id, now);
        var (d, m) := MoveTicket(Stamp(db, f, now), id, Done).value;
        Returns(d, true, Some(m))
  }

  /** POST /tickets/:id/complete. */
  function CompleteTicket(stored: Db, id: Option<int>, now: string): (r: Reply)
    ensures id.None? ==> r == Reply(stored, Response(400, ErrorBody(IdNotInteger)))
    ensures id.Some? ==> var f := FindTicket(stored, id.value);
              if f.Some? && f.value.col == Doing then
                var t := f.value.ticket.(completedAt := Some(now));
                && r.response == Response(200, MovedBody(Moved(Doing, Done, t)))
                && Col(r.stored, Doing) == RemoveAt(Col(stored, Doing), f.value.idx)
                && Col(r.stored, Done) == Col(stored, Done) + [t]
                && (forall k :: k != Doing && k != Done ==> Col(r.stored, k) == Col(stored, k))
                && r.stored.meta == stored.meta && r.stored.metrics == stored.metrics
              else r == Reply(stored, Response(404, ErrorBody(NotCompletable)))
  {
    if id.None? then Reply(stored, Response(400, ErrorBody(IdNotInteger)))
    else
      var c := WithDb(stored, (db: Db) => CompleteStep(id.value, now, db));
      CompleteOutcome(stored, id.value, now);
      match c.value
      case None => Reply(c.stored, Response(404, ErrorBody(NotCompletable)))
      case Some(m) => Reply(c.stored, Response(200, MovedBody(m)))
  }

  lemma CompleteOutcome(db: Db, id: int, now: string)
    ensures var f := FindTicket(db, id);
            var a := CompleteStep(id, now, db);
            if f.Some? && f.value.col == Doing then
              var t := f.value.ticket.(completedAt := Some(now));
              && a.Returns? && a.persist && a.value == Some(Moved(Doing, Done, t))
              && Col(a.copy, Doing) == RemoveAt(Col(db, Doing), f.value.idx)
              && Col(a.copy, Done) == Col(db, Done) + [t]
              && (forall k :: k != Doing && k != Done ==> Col(a.copy, k) == Col(db, k))
              && a.copy.meta == db.meta && a.copy.metrics == db.metrics
            else a == Returns(db, false, None)
  {
    var f := FindTicket(db, id);
    if f.Some? && f.value.col == Doing {
      var s := Stamp(db, f.value, now);
      StampKeepsFound(db, id, now);
      var g := FindTicket(s, id).value;
      assert Col(s, Doing) == Col(db, Doing)[f.value.idx := g.ticket];
      assert RemoveAt(Col(s, Doing), g.idx) == RemoveAt(Col(db, Doing), f.value.idx);
    }
  }

  // -------------------------------------------------------------- GET /meta

  /** GET /meta: `lastStartedId`, null when `meta` or the field is missing. */
  function ReadMeta(stored: Db): (r: Reply)
    ensures r.stored == stored
    ensures r.response == Response(200, LastStartedBody(if stored.meta.Some? then stored.meta.value.lastStartedId else None))
  {
    var c := WithDb(stored, (db: Db) => Returns(db, false, Some(MetaOf(db))));
    Reply(c.stored, Response(200, LastStartedBody(c.value.GetOr(DefaultMeta).lastStartedId)))
  }

  // ----------------------------------------------------------- GET /metrics

  /** GET /metrics: the summary of the stored log (empty when there is none). */
  function ReadMetrics(stored: Db): (r: Reply)
    ensures r.stored == stored
    ensures r.response == Response(200, MetricsBody(ComputeMetrics(AmountsOf(stored.metrics))))
  {
    var c := WithDb(stored, (db: Db) => Returns(db, false, Some(db.metrics)));
    Reply(c.stored, Response(200, MetricsBody(ComputeMetrics(AmountsOf(c.value.GetOr(NoMetrics))))))
  }

  // --------------------------------------------------- POST /metrics/amount

  /** The callback of POST /metrics/amount: one entry at the end of the log. */
  function AmountStep(v: real, now: string, db: Db): (r: Attempt<Figures>)
    ensures r.Throws? <==> db.metrics.TicketList?
    ensures r.Returns? ==>
              var log := AmountsOf(db.metrics) + [AmountEntry(now, Finite(v))];
              && r.persist
              && r.copy == db.(metrics := Log(log))
              && r.value == Some(ComputeMetrics(log))
  {
    var e := AmountEntry(now, Finite(v));
    match db.metrics
    case NoMetrics =>
      assert AmountsOf(db.metrics) + [e] == [e];
      Returns(db.(metrics := Log([e])), true, Some(ComputeMetrics([e])))
    case Log(a) => Returns(db.(metrics := Log(a + [e])), true, Some(ComputeMetrics(a + [e])))
    case TicketList(_) => Throws
  }

  /** POST /metrics/amount `{ amount }`; `amount` is None when `Number(amount)`
      is not finite. The answer is 201 even when the callback threw. */
  function RecordAmount(stored: Db, amount: Option<real>, now: string): (r: Reply)
    ensures amount.None? ==> r == Reply(stored, Response(400, ErrorBody(AmountNotNumber)))
    ensures amount.Some? && stored.metrics.TicketList? ==> r == Reply(stored, Response(201, NullBody))
    ensures amount.Some? && !stored.metrics.TicketList? ==>
              var prev := AmountsOf(stored.metrics);
              var log := AmountsOf(r.stored.metrics);
              && r.stored == stored.(metrics := Log(log))
              && |log| == |prev| + 1
              && log[..|prev|] == prev
              && log[|prev|] == AmountEntry(now, Finite(amount.value))
              && r.response == Response(201, MetricsBody(ComputeMetrics(log)))
  {
    if amount.None? then Reply(stored, Response(400, ErrorBody(AmountNotNumber)))
    else
      var c := WithDb(stored, (db: Db) => AmountStep(amount.value, now, db));
      match c.value
      case None => Reply(c.stored, Response(201, NullBody))
      case Some(f) => Reply(c.stored, Response(201, MetricsBody(f)))
  }

  // ------------------------------------------------------------ the server

  /** One HTTP request, with its input already parsed: ids are `Number(param)`
      when that is an integer, amounts `Number(amount)` when finite, and
      `now` is the clock reading taken by the route. */
  datatype Request =
    | GetTickets
    | PostTicket(title: Option<string>, subtitle: Option<string>, column: Option<string>)
    | DeleteById(id: Option<int>)
    | Start(id: Option<int>)
    | Complete(id: Option<int>, now: string)
    | GetMeta
    | GetMetrics
    | PostAmount(amount: Option<real>, now: string)

  /** A request that only reads. */
  predicate ReadOnly(req: Request)
  {
    req.GetTickets? || req.GetMeta? || req.GetMetrics?
  }

  /** A refusal: 400, 404 or 409. */
  predicate Refused(resp: Response)
  {
    resp.status == 400 || resp.status == 404 || resp.status == 409
  }

  /** One request through its route (what every route shares is `StepOutcome`). */
  function Step(stored: Db, req: Request): Reply
  {
    match req
    case GetTickets => ListTickets(stored)
    case PostTicket(title, subtitle, column) => CreateTicket(stored, title, subtitle, column)
    case DeleteById(id) => DeleteTicket(stored, id)
    case Start(id) => StartTicket(stored, id)
    case Complete(id, now) => CompleteTicket(stored, id, now)
    case GetMeta => ReadMeta(stored)
    case GetMetrics => ReadMetrics(stored)
    case PostAmount(amount, now) => RecordAmount(stored, amount, now)
  }

  /** The stored document after a sequence of requests and their responses. */
  datatype Trace = Trace(stored: Db, responses: seq<Response>)

  /** Requests served one after the other through the queue: one response
      per request. How runs compose is `RunAppend`, that reads leave the
      store is `RunOfReadsKeepsStore`, and what every run keeps is
      `Invariants.RunKeepsLiveDistinct`. */
  function Run(stored: Db, reqs: seq<Request>): (r: Trace)
    ensures |r.responses| == |reqs|
    decreases |reqs|
  {
    if |reqs| == 0 then Trace(stored, [])
    else
      var first := Step(stored, reqs[0]);
      var rest := Run(first.stored, reqs[1..]);
      Trace(rest.stored, [first.response] + rest.responses)
  }

  /** The server's life: the startup migration, then the requests. */
  function Serve(stored: Db, reqs: seq<Request>): (r: Trace)
    ensures |r.responses| == |reqs|
    ensures Migrate(stored).Migrated? ==> r == Run(Migrate(stored).db, reqs)
    ensures TicketCount(stored) > MaxId ==> r == Run(stored, reqs)
  {
    Run(Startup(stored), reqs)
  }

  /** Serving `a` then `b` is serving `a + b`: the second run starts from the
      store the first one left, and the responses follow one another. */
  lemma {:induction false} RunAppend(stored: Db, a: seq<Request>, b: seq<Request>)
    ensures var first := Run(stored, a);
            var second := Run(first.stored, b);
            Run(stored, a + b) == Trace(second.stored, first.responses + second.responses)
    decreases |a|
  {
    if |a| > 0 {
      var head := Step(stored, a[0]);
      var tail := Run(head.stored, a[1..]);
      var second := Run(tail.stored, b);
      assert (a + b)[0] == a[0];
      assert (a + b)[1..] == a[1..] + b;
      RunAppend(head.stored, a[1..], b);
      assert Run(head.stored, a[1..] + b) == Trace(second.stored, tail.responses + second.responses);
      assert Run(stored, a) == Trace(tail.stored, [head.response] + tail.responses);
      assert [head.response] + (tail.responses + second.responses)
          == ([head.response] + tail.responses) + second.responses;
    } else {
      assert a + b == b;
    }
  }

  /** Every route answers with a success (200 or 201) or a refusal; reads
      write nothing, and neither does a refusal. */
  lemma StepOutcome(stored: Db, req: Request)
    ensures var r := Step(stored, req);
            && (r.response.status == 200 || r.response.status == 201 || Refused(r.response))
            && (ReadOnly(req) ==> r.stored == stored && r.response.status == 200)
            && (Refused(r.response) ==> r.stored == stored)
  {
  }

  /** A run of reads, however long, leaves the store as it was and answers
      200 every time. */
  lemma {:induction false} RunOfReadsKeepsStore(stored: Db, reqs: seq<Request>)
    requires forall i :: 0 <= i < |reqs| ==> ReadOnly(reqs[i])
    ensures Run(stored, reqs).stored == stored
    ensures forall i :: 0 <= i < |reqs| ==> Run(stored, reqs).responses[i].status == 200
    decreases |reqs|
  {
    if |reqs| > 0 {
      StepOutcome(stored, reqs[0]);
      RunOfReadsKeepsStore(stored, reqs[1..]);
    }
  }
}

=== FILE: storage.dfy ===
/** The single-writer access to the stored document (`withDB`,
    backend/storage.js). Calls are chained one behind the other, so they act
    as a sequential fold: each call reads the document the previous one left,
    hands a copy to its callback, and writes the copy back unless the
    callback answers `persist: false`. A callback that throws changes
    nothing, yields `undefined`, and does not stop the calls after it. */
module Storage {
  import opened Common
  import opened Board

  /** The document a fresh store starts with: three empty columns, the
      cursor at 1, no started ticket, an empty amount log. */
  function Initial(): (r: Db)
    ensures Col(r, Todo) == [] && Col(r, Doing) == [] && Col(r, Done) == []
    ensures r.meta == Some(DefaultMeta) && r.metrics == Log([])
  {
    Db(map[Todo := [], Doing := [], Done := []], Some(Meta(Some(1), None)), Log([]))
  }

  /** What a callback did with its copy of the document: it threw, or it
      returned `{ value, persist }` (a missing `persist` counts as true, and a
      callback returning nothing is `Returns(copy, true, None)`). */
  datatype Attempt<V> = Throws | Returns(copy: Db, persist: bool, value: Option<V>)

  /** The stored document after one call, and what the call's promise yields
      (`None` for `undefined`). */
  datatype Committed<V> = Committed(stored: Db, value: Option<V>)

  /** One `withDB(fn)` call against the stored document. */
  function WithDb<V>(stored: Db, run: Db -> Attempt<V>): (r: Committed<V>)
    ensures run(stored).Throws? ==> r.stored == stored && r.value.None?
    ensures run(stored).Returns? ==> r.value == run(stored).value
    ensures run(stored).Returns? && run(stored).persist ==> r.stored == run(stored).copy
    ensures run(stored).Returns? && !run(stored).persist ==> r.stored == stored
  {
    match run(stored)
    case Throws => Committed(stored, None)
    case Returns(copy, persist, value) => Committed(if persist then copy else stored, value)
  }

  /** The stored document after a queue of calls, and each call's result in
      submission order. */
  datatype Drained<V> = Drained(stored: Db, values: seq<Option<V>>)

  /** The calls `ops`, submitted in this order, run one after the other, with
      one result per call. That each call sees what the earlier ones left is
      `DrainInOrder`; how queues compose is `DrainAppend`. */
  function Drain<V>(stored: Db, ops: seq<Db -> Attempt<V>>): (r: Drained<V>)
    ensures |r.values| == |ops|
    decreases |ops|
  {
    if |ops| == 0 then Drained(stored, [])
    else
      var first := WithDb(stored, ops[0]);
      var rest := Drain(first.stored, ops[1..]);
      Drained(rest.stored, [first.value] + rest.values)
  }

  /** Running two queues back to back is running their concatenation: the
      second starts from the document the first left behind. */
  lemma {:induction false} DrainAppend<V>(stored: Db, a: seq<Db -> Attempt<V>>, b: seq<Db -> Attempt<V>>)
    ensures var m := Drain(stored, a);
            var n := Drain(m.stored, b);
            Drain(stored, a + b) == Drained(n.stored, m.values + n.values)
    decreases |a|
  {
    if |a| > 0 {
      assert (a + b)[0] == a[0];
      assert (a + b)[1..] == a[1..] + b;
      DrainAppend(WithDb(stored, a[0]).stored, a[1..], b);
    } else {
      assert a + b == b;
    }
  }

  /** The i-th call sees exactly the document the calls before it left, and
      its result is what `withDB` gives on that document. */
  lemma DrainInOrder<V>(stored: Db, ops: seq<Db -> Attempt<V>>, i: nat)
    requires i < |ops|
    ensures var before := Drain(stored, ops[..i]).stored;
            && Drain(stored, ops).values[i] == WithDb(before, ops[i]).value
            && Drain(stored, ops[..i + 1]).stored == WithDb(before, ops[i]).stored
  {
    var before := Drain(stored, ops[..i]);
    assert ops == ops[..i] + ops[i..];
    DrainAppend(stored, ops[..i], ops[i..]);
    assert ops[..i + 1] == ops[..i] + [ops[i]];
    DrainAppend(stored, ops[..i], [ops[i]]);
    assert ops[i..][0] == ops[i];
  }

  /** A call that throws is as if it had never been submitted, except that
      its promise yields `undefined`; the calls after it still run. */
  lemma ThrowIsSkipped<V>(stored: Db, a: seq<Db -> Attempt<V>>, f: Db -> Attempt<V>, b: seq<Db -> Attempt<V>>)
    requires f(Drain(stored, a).stored).Throws?
    ensures var m := Drain(stored, a);
            var n := Drain(m.stored, b);
            && Drain(stored, a + [f] + b).stored == Drain(stored, a + b).stored
            && Drain(stored, a + [f] + b).values == m.values + [None] + n.values
  {
    DrainThroughThrow(stored, a, f, b);
    DrainAppend(stored, a, b);
  }

  /** The queue `a`, then a throwing call, then `b`: `b` starts where `a`
      stopped. */
  lemma DrainThroughThrow<V>(stored: Db, a: seq<Db -> Attempt<V>>, f: Db -> Attempt<V>, b: seq<Db -> Attempt<V>>)
    requires f(Drain(stored, a).stored).Throws?
    ensures var m := Drain(stored, a);
            var n := Drain(m.stored, b);
            Drain(stored, a + [f] + b) == Drained(n.stored, m.values + [None] + n.values)
  {
    var m := Drain(stored, a);
    var n := Drain(m.stored, b);
    var fb := [f] + b;
    DrainThrowFirst(m.stored, f, b);
    DrainAppend(stored, a, fb);
    assert a + [f] + b == a + fb;
    assert m.values + ([None] + n.values) == m.values + [None] + n.values;
  }

  /** A queue whose first call throws drains like the rest of the queue,
      with `undefined` in front. */
  lemma DrainThrowFirst<V>(stored: Db, f: Db -> Attempt<V>, b: seq<Db -> Attempt<V>>)
    requires f(stored).Throws?
    ensures var n := Drain(stored, b);
            Drain(stored, [f] + b) == Drained(n.stored, [None] + n.values)
  {
    assert ([f] + b)[0] == f && ([f] + b)[1..] == b;
  }

  /** A queue of calls that never ask to persist leaves the stored document
      as it was. */
  lemma {:induction false} ReadOnlyQueue<V>(stored: Db, ops: seq<Db -> Attempt<V>>)
    requires forall i :: 0 <= i < |ops| ==> ops[i](stored).Throws? || !ops[i](stored).persist
    ensures Drain(stored, ops).stored == stored
  {
    if |ops| > 0 {
      assert forall i :: 0 <= i < |ops[1..]| ==> ops[1..][i] == ops[i + 1];
      ReadOnlyQueue(stored, ops[1..]);
    }
  }
}

=== FILE: uid.dfy ===
/** Reading a card's UID (`get_uid` in scripts/add_new_cards.py, the same
    test inline in scripts/read_cards.py). The reader answers the GET UID
    APDU with data bytes and the status words SW1 SW2; the UID is accepted
    only with status 90 00 and at least one byte, and is written as two
    upper-case hex digits per byte. */
module Uid {
  import opened Common

  newtype byte = x: int | 0 <= x < 256

  /** The upper-case hex digit of a nibble. */
  function Digit(n: int): (r: char)
    requires 0 <= n < 16
    ensures IsHexDigit(r)
  {
    if n < 10 then ('0' as int + n) as char else ('A' as int + n - 10) as char
  }

  predicate IsHexDigit(c: char)
  {
    '0' <= c <= '9' || 'A' <= c <= 'F'
  }

  /** The value of one upper-case hex digit: the inverse of `Digit`. */
  function DigitValue(c: char): (r: Option<int>)
    ensures r.Some? <==> IsHexDigit(c)
    ensures r.Some? ==> 0 <= r.value < 16 && Digit(r.value) == c
  {
    if '0' <= c <= '9' then Some(c as int - '0' as int)
    else if 'A' <= c <= 'F' then Some(c as int - 'A' as int + 10)
    else None
  }

  lemma DigitValueOfDigit(n: int)
    requires 0 <= n < 16
    ensures DigitValue(Digit(n)) == Some(n)
  {
  }

  /** `f"{b:02X}"`: the high nibble's digit, then the low nibble's. */
  function ByteHex(b: byte): (r: string)
    ensures |r| == 2 && IsHexDigit(r[0]) && IsHexDigit(r[1])
  {
    [Digit(b as int / 16), Digit(b as int % 16)]
  }

  /** `"".join(f"{b:02X}" for b in data)`. */
  function UidHex(data: seq<byte>): (r: string)
    ensures |r| == 2 * |data|
  {
    if |data| == 0 then "" else ByteHex(data[0]) + UidHex(data[1..])
  }

  /** Only upper-case hex digits appear in a UID string. */
  lemma {:induction false} UidHexDigits(data: seq<byte>)
    ensures forall i :: 0 <= i < |UidHex(data)| ==> IsHexDigit(UidHex(data)[i])
  {
    if |data| > 0 {
      UidHexDigits(data[1..]);
      var s := UidHex(data);
      forall i | 2 <= i < |s| ensures IsHexDigit(s[i]) {
        assert s[i] == UidHex(data[1..])[i - 2];
      }
    }
  }

  /** One byte read back from two digits. */
  function HexByte(hi: char, lo: char): Option<byte>
  {
    if IsHexDigit(hi) && IsHexDigit(lo) then Some((DigitValue(hi).value * 16 + DigitValue(lo).value) as byte)
    else None
  }

  /** Reading a UID string back into bytes: None for an odd length or a
      character that is not an upper-case hex digit. */
  function ParseHex(s: string): (r: Option<seq<byte>>)
    ensures r.Some? ==> 2 * |r.value| == |s|
    decreases |s|
  {
    if |s| == 0 then Some([])
    else if |s| == 1 then None
    else
      var b := HexByte(s[0], s[1]);
      var rest := ParseHex(s[2..]);
      if b.Some? && rest.Some? then Some([b.value] + rest.value) else None
  }

  lemma ByteHexParses(b: byte)
    ensures HexByte(ByteHex(b)[0], ByteHex(b)[1]) == Some(b)
  {
    DigitValueOfDigit(b as int / 16);
    DigitValueOfDigit(b as int % 16);
  }

  /** Every UID string reads back as the bytes it was written from. */
  lemma {:induction false} UidHexRoundTrip(data: seq<byte>)
    ensures ParseHex(UidHex(data)) == Some(data)
  {
    if |data| > 0 {
      var s := UidHex(data);
      ByteHexParses(data[0]);
      assert s[0] == ByteHex(data[0])[0] && s[1] == ByteHex(data[0])[1];
      assert s[2..] == UidHex(data[1..]);
      UidHexRoundTrip(data[1..]);
      assert data == [data[0]] + data[1..];
    }
  }

  /** ... and a string that reads as bytes is exactly the UID string of those
      bytes: the encoding is one-to-one onto upper-case even-length hex. */
  lemma {:induction false} ParseHexRoundTrip(s: string)
    requires ParseHex(s).Some?
    ensures UidHex(ParseHex(s).value) == s
    decreases |s|
  {
    if |s| > 0 {
      var d := ParseHex(s).value;
      var h, l := DigitValue(s[0]).value, DigitValue(s[1]).value;
      assert d[0] as int == h * 16 + l;
      assert d[0] as int / 16 == h && d[0] as int % 16 == l;
      assert ByteHex(d[0]) == [s[0], s[1]];
      assert d[1..] == ParseHex(s[2..]).value;
      ParseHexRoundTrip(s[2..]);
      assert s == [s[0], s[1]] + s[2..];
    }
  }

  /** What `conn.transmit` gave: data and status words, or an exception. */
  datatype ApduReply = Transmitted(data: seq<byte>, sw1: byte, sw2: byte) | TransmitFailed

  /** `get_uid`: the UID string, or None. */
  function GetUid(reply: ApduReply): (r: Option<string>)
    ensures r.Some? <==> reply.Transmitted? && reply.sw1 == 0x90 && reply.sw2 == 0x00 && |reply.data| > 0
    ensures r.Some? ==> ParseHex(r.value) == Some(reply.data) && |r.value| == 2 * |reply.data|
  {
    match reply
    case TransmitFailed => None
    case Transmitted(data, sw1, sw2) =>
      if sw1 == 0x90 && sw2 == 0x00 && |data| > 0 then
        UidHexRoundTrip(data);
        Some(UidHex(data))
      else None
  }

  /** A four-byte UID. */
  lemma UidExample()
    ensures GetUid(Transmitted([0x04, 0xA2, 0x1F, 0xC0], 0x90, 0x00)) == Some("04A21FC0")
    ensures GetUid(Transmitted([0x04, 0xA2, 0x1F, 0xC0], 0x63, 0x00)) == None
    ensures GetUid(Transmitted([], 0x90, 0x00)) == None
  {
    var d: seq<byte> := [0x04, 0xA2, 0x1F, 0xC0];
    assert ByteHex(0x04) == "04" && ByteHex(0xA2) == "A2" && ByteHex(0x1F) == "1F" && ByteHex(0xC0) == "C0";
    assert d[3..][1..] == [];
    assert UidHex(d[3..]) == "C0";
    assert d[2..][1..] == d[3..];
    assert UidHex(d[2..]) == "1FC0";
    assert d[1..][1..] == d[2..];
    assert UidHex(d[1..]) == "A21FC0";
    assert UidHex(d) == "04A21FC0";
    assert GetUid(Transmitted(d, 0x90, 0x00)) == Some("04A21FC0");
  }
}
